=== FILE: README.md ===
# TFJM² draw bot — a Dafny model of its core

This project models the core of a Discord bot that runs the problem draw ("tirage") for a
mathematics tournament between teams. Every team is identified by a three-letter trigram.
The draw for a pool of teams has two parts:

- Ordering. Each team rolls a die, ties are rolled again, and the teams are sorted by their rolls. This fixes both the drawing order and the presentation order.
- Problem draw. Teams take turns in that order. Each draws a random problem and accepts or refuses it. Refusing beyond a fixed allowance lowers the team's score coefficient by 0.5.

The draw has two rounds. In the second round a team may not draw the problem it presented in the first.

The model covers these parts of the source:

- the older, queue-driven engine `BaseTirage` (`src/base_tirage.py`);
- the phase-based draw the bot actually runs (`src/cogs/tirages.py`), together with the validation of the `!dice` argument;
- a handful of small pure helpers from the other cogs:
  - hug log lines, hearts, the hug score and joke ranking (`misc.py`);
  - the team file parser and the `create_team` decision chain (`teams.py`);
  - error-handler dispatch (`errors.py`);
  - cog-name normalisation (`dev.py`);
  - `has_role` (`src/utils.py`).

Each source component is one Dafny module. Most operations are pure functions over immutable
datatypes. The source's asynchronous pieces are modelled as inputs:

- The asyncio queue is a finite sequence of `Event`s. "Waiting for the next event" means consuming from that sequence. Running out of events is the outcome in which the coroutine would wait forever.
- Random rolls and random choices are parameters. Each chosen index carries a range precondition.
- The notification hooks (`warn_*`, `info_*`, `start_*`) are returned as a log of `Hook` values, in call order.

Where the code crashes on purpose or by a defect, the crash is an explicit outcome: a `KeyError`, a `NameError` or an `IndexError`. Where the code would crash only because a caller broke its invariant, the model states a precondition instead.

A `Policy` record switches each defect of `src/base_tirage.py` between the code as written (`AsWritten`) and the evidently intended behaviour (`Intended`). Both halves of every finding are therefore stated about the same functions (see "## Findings").

Modules:

- `Wrappers` (`Option`, `MapAll`), `Seqs` (filters and prefixes), `Sorting` (Python's stable `sorted`, with `reverse=True` as a sort on the negated key), `Digits` (`str(int)` and `int(s, base)`), `Text` (Python's `str.splitlines` and `str.strip`), `Rounds` (the two-round pair) and `Cyclic` (the cyclic search for the next undecided team) are shared helpers.
- `BaseTirage` covers `src/base_tirage.py`.
- `Tirages` covers the phases of `src/cogs/tirages.py`. `DiceCommand` covers its `!dice` command.
- `Misc`, `Teams`, `ErrorDispatch`, `DevTools` and `Utils` cover the other cogs.

One fact about the code shapes the model: `get_dices` never re-rolls tied teams, because its list of collisions is never refilled (see "## Findings"). Only `OrderPhase.next` in the phase-based draw resolves ties, and it resets exactly the tied teams.

## Model

| member | source | states |
|---|---|---|
| BaseTirage.NewTeam | src/base_tirage.py:24-29 | a new team has no accepted and no refused problem in either round |
| BaseTirage.PenaltyCoeff | src/base_tirage.py:39-43 | the coefficient never exceeds 2, and it equals 2 exactly when the refusal count is at most the allowance |
| BaseTirage.Coeff | src/base_tirage.py:39-43 | a team's coefficient for a round never exceeds 2, and it is 2 exactly when the team refused at most the allowance in that round |
| BaseTirage.CoeffStep | src/base_tirage.py:39-43 | at or past the allowance, each extra refusal lowers the coefficient by exactly 0.5 |
| BaseTirage.CoeffMonotone | src/base_tirage.py:39-43 | more refusals never raise the coefficient |
| BaseTirage.Accept | src/base_tirage.py:198-200 | accepting sets this round's problem and leaves the other round and all refusals untouched |
| BaseTirage.Reject | src/base_tirage.py:201-203 | refusing adds the problem to this round's refused set, adds nothing else and touches nothing else |
| BaseTirage.RejectAgainIsFree | src/base_tirage.py:202-203 | refusing an already refused problem changes neither the team nor its coefficient |
| BaseTirage.RejectNewCountsOnce | src/base_tirage.py:202-203 | refusing a new problem raises the refusal count by exactly one |
| BaseTirage.Next | src/base_tirage.py:113-123 | the event taken is the first that has the wanted sender and type; every earlier event is unwanted; when nothing is taken, no event was wanted |
| BaseTirage.NextWarnsEachDropped | src/base_tirage.py:116-119 | every dropped event produces exactly one warning, in order; a wrong sender is reported as a wrong team even when its type is also wrong |
| BaseTirage.BoolAnswersIntRequest | src/base_tirage.py:118 | a yes/no answer satisfies a request for an int, because a bool is an int in Python |
| BaseTirage.Collect | src/base_tirage.py:145-152 | a completed collection has a value for every team and keeps every value already recorded; an event from an unknown team is a KeyError |
| BaseTirage.CollectFirstRolls | src/base_tirage.py:145-152 | each team's recorded value is its first int event in the consumed prefix; later rolls are ignored |
| BaseTirage.GetDices | src/base_tirage.py:136-156 | every team gets a value, and that value is its first roll among the events consumed |
| BaseTirage.GetDicesKeepsTies | src/base_tirage.py:139-156 | two teams that both roll 42 keep 42; the outer loop runs once and never re-rolls |
| BaseTirage.Tied | src/base_tirage.py:154-155 | the tied teams are exactly those sharing a value; when the values are not all distinct, there is at least one tied team |
| BaseTirage.RollUntilDistinct | src/base_tirage.py:139-156 | the corrected collection ends only with pairwise-distinct values for every team |
| BaseTirage.GetDistinctDices | src/base_tirage.py:138-156 | the corrected `get_dices`, from no rolls: when it finishes, every team has a roll and no two rolls are equal |
| BaseTirage.DistinctFirstPassNeedsNoReroll | src/base_tirage.py:139-156 | when the first pass has no tie, the corrected collection equals the one-pass collection |
| BaseTirage.RerollKeepsUntied | src/base_tirage.py:141-142 | a re-roll keeps the value of every team that was not tied |
| BaseTirage.Slices | src/base_tirage.py:166-170 | pool i is labelled 'A'+i and holds exactly fmt[i] teams, and the pools concatenate back to the sorted list |
| BaseTirage.RoundPools | src/base_tirage.py:164-170 | a round has one pool per format entry, labelled from 'A', each of the requested size |
| BaseTirage.RoundPoolsSorted | src/base_tirage.py:164-170 | the pools of a round, concatenated in label order, are a permutation of the teams in ascending order of roll |
| BaseTirage.RoundPoolsStable | src/base_tirage.py:164 | teams with equal rolls keep their original relative order, as in Python's stable sort |
| BaseTirage.RollDice | src/base_tirage.py:136-156 | a completed roll covers every team, and under the corrected policy its values are distinct |
| BaseTirage.MakeRound | src/base_tirage.py:160-170 | a round's pools are labelled and sized by the format, and together they are a permutation of the roster |
| BaseTirage.MakePoules | src/base_tirage.py:158-173 | both rounds are made; each round's pools are labelled by the format and are a permutation of the roster |
| BaseTirage.PoolOf | src/base_tirage.py:99-103 | finds a pool of the given round that contains the team, or shows that none does |
| BaseTirage.DrawRound | src/base_tirage.py:98 | the draw is for round 0 exactly while the team has no round-0 problem |
| BaseTirage.Candidates | src/base_tirage.py:105-110 | the candidates are exactly the problems that the team accepted in neither round and that no pool-mate accepted this round |
| BaseTirage.RProblem | src/base_tirage.py:96-111 | a team in no pool of its round gets a wrong-team warning and no draw; a pool with no candidate left is the `IndexError` of `random.choice`, exactly then; otherwise the drawn problem is a candidate |
| BaseTirage.DrawOrder | src/base_tirage.py:213-215 | the pool's draw order is a permutation of its members |
| BaseTirage.DrawOrderNonIncreasing | src/base_tirage.py:215 | the draw order is non-increasing in roll |
| BaseTirage.DrawOrderAsWritten | src/base_tirage.py:212-215 | sorting all teams by the pool's rolls raises a KeyError exactly when some team has no roll |
| BaseTirage.DrawOrderAsWrittenRaises | src/base_tirage.py:212-215 | with a team outside the pool, the code's draw order raises a KeyError |
| BaseTirage.DrawOrderSinglePool | src/base_tirage.py:212-215 | with a single pool, the code's draw order equals the intended one |
| BaseTirage.PoolOrder | src/base_tirage.py:209-218 | the order contains every pool member; under the corrected policy it holds exactly the pool's members |
| BaseTirage.Decided | src/base_tirage.py:182 | flag i is set exactly when the i-th team of the order has a problem for the round |
| BaseTirage.ScanForward | src/base_tirage.py:182-187 | the cursor moves to the first undecided team at or after it, passing only decided teams |
| BaseTirage.DrawTurn | src/base_tirage.py:189-205 | one turn takes the team's first problem event and then its yes/no answer; as written it raises NameError before any decision, and when corrected it accepts or refuses by the answer's value |
| BaseTirage.Advance | src/base_tirage.py:205 | as written the cursor can reach the end of the order; when corrected it stays in range |
| BaseTirage.Served | src/base_tirage.py:182-187 | the team served is undecided, and the corrected cursor always finds one |
| BaseTirage.TurnOnlyDecides | src/base_tirage.py:198-203 | a turn changes only the serving team's decision for this round |
| BaseTirage.Step | src/base_tirage.py:182-205 | the loop stops exactly when every team has decided; a failure is always one of the modelled defects |
| BaseTirage.StepOnlyDecides | src/base_tirage.py:182-205 | a loop step only adds decisions for this round, and leaves teams outside the pool untouched |
| BaseTirage.DrawLoop | src/base_tirage.py:182-205 | when the loop ends, every team of the pool holds a problem for the round and no event beyond the queue was consumed; it fails only with the NameError of the undefined round or the IndexError of the unwrapped cursor |
| BaseTirage.DrawLoopOnlyDecides | src/base_tirage.py:182-205 | the loop keeps accepted problems, only grows refusals, leaves the other round alone and leaves teams outside the pool unchanged |
| BaseTirage.DrawLoopSkipsDecided | src/base_tirage.py:184-187 | a team that already decided is skipped without consuming any event |
| BaseTirage.DrawLoopNeverEndsUnbound | src/base_tirage.py:194 | as written, a pool with an undecided team never finishes its draw |
| BaseTirage.DrawLoopNeverRefusesByEvent | src/base_tirage.py:197-203 | when the code branches on the event object, no answer ever adds a refusal |
| BaseTirage.FalseAnswerAccepted | src/base_tirage.py:197-200 | with `rnd` defined and the rest of the loop as written, answering "no" records the drawn problem as accepted |
| BaseTirage.FalseAnswerRefused | src/base_tirage.py:197-203 | when corrected, answering "no" refuses the problem and accepts nothing |
| BaseTirage.ServeTurn | src/base_tirage.py:189-205 | a problem event followed by an answer from the current undecided team is one decision, after which the cursor advances |
| BaseTirage.CursorOverruns | src/base_tirage.py:181-205 | with `rnd` defined and answers decided by their value, but without the wrap, a refusal by the first of two teams followed by an acceptance by the second runs the cursor off the end (IndexError) |
| BaseTirage.CursorWrapsToRefuser | src/base_tirage.py:182-205 | with the wrap, the same input serves the refusing team again, and the draw completes |
| BaseTirage.DrawPoule | src/base_tirage.py:175-207 | a completed pool draw gives every member a problem for the pool's round and adds only decisions for that round; with the defects corrected it can fail only on a KeyError for a team outside the pool |
| Tirages.SetOrderFor | src/cogs/tirages.py:372-376 | writing one order slot (which order, which round) leaves every other slot and the team's problems unchanged |
| Tirages.InPassageOrder | src/cogs/tirages.py:28-29 | the passage order is a permutation of the teams |
| Tirages.InPassageOrderSorted | src/cogs/tirages.py:28-29 | the passage order is non-increasing in the round's passage value, with a missing value counted as 0 |
| Tirages.InPassageOrderStable | src/cogs/tirages.py:29 | teams with equal passage values keep their relative order |
| Tirages.OrderDice | src/cogs/tirages.py:378-385 | a roll is recorded exactly when the team has none yet; a second roll is refused and nothing changes |
| Tirages.Orders | src/cogs/tirages.py:391 | once every team has rolled, the list of rolls is aligned with the teams |
| Tirages.OrderNext | src/cogs/tirages.py:390-419 | the phase moves on exactly when all rolls are distinct |
| Tirages.OrderNextSorts | src/cogs/tirages.py:392-394 | with distinct rolls the teams are permuted into strictly increasing order of roll, or strictly decreasing order when the phase is reversed |
| Tirages.OrderNextResetsTies | src/cogs/tirages.py:403-419 | with a repeated roll, exactly the teams sharing a value lose their roll, the others are untouched, and the phase is no longer finished |
| Tirages.ResetTied | src/cogs/tirages.py:404-417 | a team sharing its roll with another loses that roll, any other team is unchanged, and names and problems are kept |
| Tirages.Candidates | src/cogs/tirages.py:439-462 | the candidates are exactly the problems no team accepted this round and this team has not accepted before |
| Tirages.ChooseProblem | src/cogs/tirages.py:442-499 | a non-current team and a team holding an undecided draw are refused; an empty candidate list is the error case; the drawn problem is a candidate; the note says "refused before" or "penalty if refused" exactly in the matching cases; only the current team changes |
| Tirages.Decide | src/cogs/tirages.py:514-522 | yes records the drawn problem, no adds it to this round's refusals; either way the drawn problem is cleared and the other round is untouched |
| Tirages.AcceptCommand | src/cogs/tirages.py:501-533 | a non-current team is refused; nothing changes without a drawn problem; after a decision the turn is cleared exactly when every team has a problem, and otherwise stays valid |
| Tirages.AcceptPassesTurnInOrder | src/cogs/tirages.py:529-533 | every team that the turn passes over cyclically has already decided |
| Tirages.RefuserServedAgainOnlyWhenAlone | src/cogs/tirages.py:529-533 | a team that refuses is served again immediately only when every other team has decided |
| Tirages.StartDraw | src/cogs/tirages.py:538-540 | the draw starts at the first team (the turn is 0 from construction), with the teams permuted |
| Tirages.StartDrawSorted | src/cogs/tirages.py:540 | the teams are in ascending order of their draw order |
| Tirages.NextPhase | src/cogs/tirages.py:287-297 | a finished problem phase of round 0 moves to ordering for round 1 and one of round 1 ends the draw, with the teams unchanged; a finished ordering moves on when the rolls all differ and repeats otherwise, with the teams as its `next` left them |
| Tirages.UpdatePhase | src/cogs/tirages.py:287-298 | an unfinished phase is kept unchanged; a finished one is replaced by its successor, and entering a problem phase re-sorts the teams by drawing-order roll (`TiragePhase.start`), while ending the draw or entering an order phase keeps them |
| Tirages.UpdatePhaseStartsDrawSorted | src/cogs/tirages.py:538-540 | after a phase change into a problem phase the teams are in increasing order of drawing-order roll for its round and are the teams the previous phase handed on; after a problem phase, or an ordering whose rolls all differed, they are the teams of the draw |
| Tirages.UpdatePhaseEndsAfterSecondRound | src/cogs/tirages.py:579-584 | the draw ends exactly when the problem phase of round 1 is finished |
| Tirages.UpdatePhaseNeverGoesBack | src/cogs/tirages.py:579-584 | moving to the next phase never returns to an earlier round |
| DiceCommand.BaseOf | src/cogs/tirages.py:611-613 | the base is 16, 2 or 8 exactly when the argument starts with 0x, 0b or 0o, and 10 otherwise |
| DiceCommand.ParseInt | src/cogs/tirages.py:613-615 | an integer is read exactly when the text after the prefix, or after an optional sign in base 10, is a non-empty run of digits of the base; a prefixed or '+' value is non-negative and a '-' value non-positive |
| DiceCommand.Dice | src/cogs/tirages.py:605-655 | an empty argument and a non-integer are reported; inside a draw the value is handed to the draw; a roll happens only for a value of at least 1 with at most 1900 decimal digits |
| DiceCommand.TooBigExactly | src/cogs/tirages.py:648-654 | a positive value is refused as too big exactly when it is at least 10^1900, and is rolled otherwise |
| DiceCommand.NonPositiveRefused | src/cogs/tirages.py:641-647 | outside a draw, 0 is refused as a die without faces and a negative value as antimatter |
| DiceCommand.DecimalRoundTrip | src/cogs/tirages.py:613-615 | every integer's decimal form reads back as that integer |
| DiceCommand.PrefixedRoundTrip | src/cogs/tirages.py:611-615 | 0x, 0b or 0o followed by the digits of n in that base reads back as n |
| Misc.Repr | src/cogs/misc.py:74-75 | the printed form ends with the hug's message and, for a non-negative giver id, starts with a digit |
| Misc.FromStr | src/cogs/misc.py:64-72 | a parsed hug has non-negative ids and a message without line feed, and an empty line is rejected |
| Misc.SplitDigits | src/cogs/misc.py:54 | splits a line into its leading digit run and the rest |
| Misc.TextOf | src/cogs/misc.py:54 | the hug text holds no line break, and only a single final line break may follow it |
| Misc.FromStrComplete | src/cogs/misc.py:54-72 | every line of the form "digits -> digits \| text" parses to the hug with those numbers and text |
| Misc.FromStrSound | src/cogs/misc.py:54-72 | every line that parses has exactly that form; any other line is rejected |
| Misc.ReprRoundTrip | src/cogs/misc.py:54-75 | parsing the printed form of a hug, with or without its line break, gives the hug back, for non-negative ids and text without line breaks |
| Misc.AddHug | src/cogs/misc.py:505-509 | the hug is appended to the list, and the line written to the file parses back to that hug |
| Misc.ParseHugs | src/cogs/misc.py:503 | the hug list loads exactly when every line parses, and the hugs are aligned with the lines |
| Misc.ParseHugsRoundTrip | src/cogs/misc.py:503-509 | parsing the printed lines of hugs, one by one, gives back the same list |
| Misc.AddHugExtendsFile | src/cogs/misc.py:505-509 | the file after `add_hug` is the file before it followed by the line written, so the file lists the hugs in the order they were added |
| Misc.LoadHugs | src/cogs/misc.py:500-503 | a blank file loads no hug; a loaded list is aligned with the lines of the stripped file text, each hug parsed from its line |
| Misc.LoadHugsRoundTrip | src/cogs/misc.py:500-509 | loading the file written by `add_hug` through `strip().splitlines()` gives back the hugs written, for non-negative ids, messages without line breaks and a last message ending in a visible character |
| Misc.HugLinesSplit | src/cogs/misc.py:502 | the lines read back from the written file are exactly the printed hugs |
| Misc.ReprShape | src/cogs/misc.py:74-75 | a printed hug has a line break only where its message has one, starts with a digit, and ends as its message ends |
| Misc.HeartForStat | src/cogs/misc.py:448-466 | a broken heart exactly for v <= 0, a rainbow heart exactly for v >= 5000, and the sparkling heart exactly for 2000 <= v < 5000 |
| Misc.HeartIndex | src/cogs/misc.py:448-466 | the index chosen is always a valid position in the list of hearts |
| Misc.HeartIndexDigits | src/cogs/misc.py:466 | for 1 <= v < 2000 the heart's index is the number of decimal digits of v |
| Misc.HeartIndexMonotone | src/cogs/misc.py:459-466 | the heart's index never decreases as v grows |
| Misc.Given | src/cogs/misc.py:488-490 | holds exactly the hugs the member gave to someone else |
| Misc.Received | src/cogs/misc.py:492-494 | holds exactly the hugs the member received from someone else |
| Misc.Auto | src/cogs/misc.py:496-498 | holds exactly the hugs the member gave themself |
| Misc.HugFiltersPartition | src/cogs/misc.py:488-498 | given, received and self hugs are order-preserving filters of the hug list; together they hold exactly the hugs involving the member; no two share a hug |
| Misc.HugFiltersCount | src/cogs/misc.py:488-498 | the three filters' sizes add up to the number of hugs involving the member |
| Misc.ScoreFor | src/cogs/misc.py:483-486 | the score is never negative, and it is 0 exactly when the member received no hug |
| Misc.ScoreAfterHug | src/cogs/misc.py:483-486 | a new hug adds 0 to the score unless received, 1 from a known hugger, and 43 from a new one |
| Misc.ScoreBounds | src/cogs/misc.py:483-486 | with n received hugs the score is 0 when n = 0, and otherwise between n + 42 and 43n |
| Misc.React | src/cogs/misc.py:604-611 | the bot's own reaction is ignored; a thumbs-up adds the user to the joke's likes, any other reaction to its dislikes, and nothing else changes |
| Misc.ReactIdempotent | src/cogs/misc.py:608-611 | reacting twice the same way is the same as reacting once |
| Misc.Leaderboard | src/cogs/misc.py:615-625 | shows min(10, n) jokes, each one of the jokes |
| Misc.LeaderboardRanks | src/cogs/misc.py:622-625 | the leaderboard shows min(10, n) jokes drawn from the list, in non-increasing order of likes minus dislikes |
| Misc.LeaderboardCutoff | src/cogs/misc.py:622-625 | no joke left off the leaderboard scores higher than one shown |
| Misc.LeaderboardStable | src/cogs/misc.py:622 | jokes with equal scores keep their file order |
| Text.SplitLines | src/cogs/teams.py:21 | splitting the file text yields lines that hold no line break |
| Text.SplitUnlines | src/cogs/teams.py:21 | lines each followed by a line feed split back into the same lines |
| Text.UnlinesSnoc | src/cogs/misc.py:507-508 | appending a line to the file adds that line and its line feed at the end |
| Text.SplitJoinLines | src/cogs/misc.py:502 | lines joined by line feeds split back into the same lines when the last one is not empty |
| Text.Strip | src/cogs/misc.py:502 | `strip()` keeps a contiguous middle part, removes only whitespace around it, leaves no whitespace at either end, and is empty exactly for an all-whitespace text |
| Text.StripPadded | src/cogs/misc.py:502 | a text starting and ending with a visible character, followed by whitespace, strips back to itself |
| Text.StripSplitUnlines | src/cogs/misc.py:502 | lines written one per line feed are read back by `strip().splitlines()` when the first does not start and the last does not end with whitespace |
| Teams.Split | src/cogs/teams.py:23 | a line splits into at least one field, and no field holds the separator |
| Teams.JoinSplit | src/cogs/teams.py:23 | the fields joined again by ';' give back the line, so every ';' separates fields and there is no quote awareness |
| Teams.SplitJoin | src/cogs/teams.py:23 | fields without ';' joined by ';' split back into the same fields |
| Teams.StripQuotes | src/cogs/teams.py:23 | a stripped field neither starts nor ends with '"' |
| Teams.StripQuotesSlice | src/cogs/teams.py:23 | a stripped field is the middle of the original, and only '"' characters were removed around it |
| Teams.StripQuoted | src/cogs/teams.py:23 | stripping a quoted field gives the field back |
| Teams.RowOf | src/cogs/teams.py:11-23 | a line makes a team exactly when it has five ';'-separated fields |
| Teams.Rows | src/cogs/teams.py:22-24 | the team list loads exactly when every line makes a team, in line order |
| Teams.LoadTeams | src/cogs/teams.py:18-25 | the first line is a header and yields no team |
| Teams.RowOfLine | src/cogs/teams.py:11-23 | a team written as a quoted ';' line reads back as the same team |
| Teams.LoadTeamsRoundTrip | src/cogs/teams.py:18-25 | a header followed by one written line per team loads back as exactly those teams |
| Teams.FindTrigram | src/cogs/teams.py:35 | finds the first team with the trigram, or shows that there is none |
| Teams.CreateTeam | src/cogs/teams.py:35-61 | an unknown trigram is reported first, then an existing team role, then a wrong secret; an existing role yields the captain crash `NoCaptain` exactly when it has no captain; creation happens exactly when all three checks pass |
| Teams.WrongSecretLast | src/cogs/teams.py:53-57 | the secret is judged wrong exactly when the trigram is known, no role exists and the first matching team's secret differs |
| ErrorDispatch.Handles | src/cogs/errors.py:15-26 | registering a handler binds that error type and changes no other binding |
| ErrorDispatch.LaterRegistrationWins | src/cogs/errors.py:22-24 | registering twice for the same type keeps the later handler |
| ErrorDispatch.FirstRegistered | src/cogs/errors.py:37-41 | the handler used belongs to the first class of the error's class hierarchy that has one |
| ErrorDispatch.OnCommandError | src/cogs/errors.py:33-50 | without a handler the message is the error's repr; a message is sent exactly when the result is non-empty |
| ErrorDispatch.HandlerOfNearestClass | src/cogs/errors.py:37-50 | the nearest registered class in the hierarchy decides the reply |
| ErrorDispatch.OnCommandInvokeError | src/cogs/errors.py:64-76 | the wrapped error is handed on exactly when its exact class has a handler; otherwise the reply is "ClassName: text", falling back to the outer error's text |
| ErrorDispatch.InvokeErrorIgnoresBases | src/cogs/errors.py:66 | a handler registered for any other class, a base class included, does not change invoke-error dispatch |
| ErrorDispatch.AfterFirst | src/cogs/errors.py:83 | the text after the first quote, or empty when there is no quote |
| ErrorDispatch.BeforeLast | src/cogs/errors.py:83 | the text before the last quote, or empty when there is no quote |
| ErrorDispatch.NotFoundName | src/cogs/errors.py:81-83 | a non-empty name is followed by a quote in the text after the first quote, so two quotes surround it |
| ErrorDispatch.NotFoundNameBetween | src/cogs/errors.py:81-83 | the extracted name is the text between the first and the last quote |
| ErrorDispatch.NotFoundNameOfMessage | src/cogs/errors.py:81-84 | the message 'Command "NAME" is not found' yields NAME |
| DevTools.Expand | src/cogs/dev.py:63 | a shortcut key expands to the value the table maps it to, and any other name is kept |
| DevTools.ExpandIn | src/cogs/dev.py:63 | a key in the table is replaced by its mapped value, and any other name is kept |
| DevTools.FullCogName | src/cogs/dev.py:62-67 | the full name always contains a '.' |
| DevTools.FullCogNameDotted | src/cogs/dev.py:63-64 | a name that contains '.' is returned unchanged |
| DevTools.FullCogNamePlain | src/cogs/dev.py:64-65 | a name without '.' that is not a shortcut gets the src.cogs. prefix |
| DevTools.FullCogNameIdempotent | src/cogs/dev.py:62-67 | applying the normalisation twice is the same as applying it once |
| DevTools.ShortcutKeys | src/cogs/dev.py:14-21 | the shortcuts are distinct one-letter keys |
| DevTools.ShortcutExpands | src/cogs/dev.py:14-21 | each shortcut letter expands to its mapped cog |
| DevTools.ShortcutNames | src/cogs/dev.py:62-67 | u becomes src.utils without a prefix, and every other shortcut becomes src.cogs. followed by its cog |
| DevTools.ReloadTargets | src/cogs/dev.py:81-90 | no name reloads the bot; an empty name reloads every shortcut target; any other name reloads just that one, normalised |
| DevTools.ReloadEverything | src/cogs/dev.py:85-92 | `!reload ""` reloads one extension per shortcut, in table order: the one its letter alone would reload, `src.utils` for `u` and `src.cogs.` plus the cog otherwise |
| DevTools.ReloadAll | src/cogs/dev.py:88-98 | extensions reload in order, and the command stops at the first failure, which it reports |
| Utils.HasRole | src/utils.py:1-4 | true exactly when some role has the given name |
| Utils.HasRoleOnlySet | src/utils.py:4 | the answer depends neither on the order of the roles nor on duplicates |
| Utils.HasRoleMonotone | src/utils.py:4 | adding roles, before or after, never makes a true answer false |

## Left out

- The asyncio `Event`/`Queue` rendezvous (`BaseTirage.event`, `dice`) and all coroutine interleaving. `next` works on a finite event sequence; an exhausted sequence is the "would wait forever" outcome.
- Randomness: `random.randint` and `random.choice` are inputs (a roll, or an index with a range precondition).
- `BaseTirage.run`: only its parts are modelled (`MakePoules`, and `DrawPoule` for each pool), not the loop over pools.
- Discord rendering (messages, embeds, tables, deletion, private messages, permissions) and every text the bot sends. Replies are modelled as variants only.
- Persistence: YAML dumps of draws and jokes, the hug and team files, and `Tirage.end`. File contents are strings; reading and writing them are not modelled.
- `Problem` names and the refusal allowance are parameters, not the constants file's values. Problem names are non-empty, because the code tests them for truthiness.
- `Tirage.__init__` asserts three or four teams. The model allows any number.
- The classes that `TirageOrderPhase`, `PassageOrderPhase` and the phases' `NEXT` stand for are not part of this model. `UpdatePhase` takes a constructor for the next phase as a parameter. `Tirages.UpdatePhaseNeverGoesBack` assumes that each phase is built for the round it is given, as `Tirage.update_phase` does.
- `team_for` is abstract: commands carry the author's team index.
- `BaseTirage.RProblem`: requires a registered trigram whose pool members are registered. The code raises `KeyError` for an unknown trigram; nothing in the repository calls `rproblem`. An empty candidate list is the outcome `NoneLeft`.
- `Tirages.ChooseProblem`: an empty candidate list is the error outcome `NoProblemLeft`, where the code raises from `random.choice`. A command issued after the draw has ended (turn `None`) would crash at `self.teams[self.turn]` with a TypeError, so the model requires a turn to be set. The "already taken" and "already presented" messages are unreachable, and the contract proves it.
- `Tirages.AcceptCommand`: a command issued after the draw has ended (turn `None`) crashes the code with a TypeError. The model requires a turn to be set.
- `Tirages.UpdatePhase`: entering a problem phase requires every team to have its drawing-order roll for that round; a missing roll is `None`, and the sort in `TiragePhase.start` would raise TypeError comparing it. `OrderPhase` and the `Phase` base class define no `start` in the file; the model takes starting an order phase to leave the teams as they are.
- `TiragePhase.start`: only the sort by draw order is modelled, not the announcements.
- `DiceCommand.Dice`: the float fallback taken when `int()` fails is not modelled. That outcome is the single variant `FloatFallback`.
- `DiceCommand.ParseInt`: reads ASCII digits only. Unicode digits, underscores between digits, and surrounding whitespace, all of which Python's `int` accepts, are not modelled.
- `DiceCommand.Dice`: the roll itself is random, so `Roll` states only the valid number of faces.
- `Misc.FromStr`: `\d` is ASCII-only here. Python's `\d` also matches other Unicode digits.
- `Misc.LoadHugsRoundTrip`: stated only for files whose last message ends with a visible character. `strip()` removes the whitespace at the end of the last message; the messages `hug` builds always end with a visible character.
- The hug id comparison `ris`, which consults guild roles, is an abstract predicate `eq`.
- Hug statistics built from role membership, jokes' file loading, fractal fetching and ping timing are not modelled.
- `Teams.CreateTeam`: when the team already exists and it has no captain, the code crashes on the missing captain. This is the outcome `NoCaptain`. The message texts and role creation are not modelled.
- `Text.SplitLines`: splits on the line breaks Python's `splitlines` recognises. Text encodings are not modelled.
- `DevTools.ReloadAll`: which extension fails to reload is an input.
- `src/core.py`, `src/cogs/help.py` and the start-up scripts are not part of this model.

## Findings

| source | as written | input that shows it | evidently intended | confidence | as-written member | corrected member |
|---|---|---|---|---|---|---|
| src/base_tirage.py:138-156 | `collisions` is emptied and never refilled, so ties are never rolled again | teams AAA and BBB both roll 42: both keep 42 | teams sharing a roll roll again until all values differ | not executed; high | BaseTirage.GetDicesKeepsTies | BaseTirage.RollUntilDistinct |
| src/base_tirage.py:215 | the draw order sorts every team of the draw by the rolls of the pool's teams | two pools: a team of the other pool has no roll, and the code raises KeyError | sort only the pool's teams | not executed; high | BaseTirage.DrawOrderAsWrittenRaises | BaseTirage.PoolOrder |
| src/base_tirage.py:194 | `rnd` is not defined in `draw_poule` | any pool with an undecided team: the first problem drawn raises NameError | use the pool's round | not executed; high | BaseTirage.DrawLoopNeverEndsUnbound | BaseTirage.DrawPoule |
| src/base_tirage.py:197-198 | the code branches on the event object, which is always true, not on its value | with `rnd` defined, a "no" answer to problem P1 records P1 as accepted | branch on the answer's value | not executed; high | BaseTirage.FalseAnswerAccepted | BaseTirage.FalseAnswerRefused |
| src/base_tirage.py:181-205 | the cursor is incremented without wrapping | with `rnd` defined and answers decided by value, two teams: the first refuses, the second accepts, and the cursor runs past the end (IndexError) | wrap the cursor to the start of the order | not executed; high | BaseTirage.CursorOverruns | BaseTirage.CursorWrapsToRefuser |

=== FILE: base_tirage.dfy ===
/**
  The problem-draw engine of src/base_tirage.py.

  The engine's asyncio queue becomes a finite sequence of submitted events that
  the functions here consume from the front; when the events run out before the
  engine has what it waits for, the result is `Stuck` (the coroutine would wait
  for ever). Calls of the notification hooks (`warn_*`, `info_*`, `start_*`)
  are returned as a log of `Hook` values in call order.
 */
module BaseTirage {
  import opened Wrappers
  import opened Seqs
  import opened Sorting
  import opened Rounds
  import Cyclic

  type Trigram = string

  // ---------------------------------------------------------------- teams

  /** A team of the draw: the problem accepted in each round and the problems refused in each round. */
  datatype Team = Team(name: Trigram, accepted: PerRound<Option<Problem>>, rejected: PerRound<set<Problem>>)

  /** `Team.__init__`: nothing accepted, nothing refused. */
  function NewTeam(name: Trigram): (t: Team)
    ensures t.name == name
    ensures forall r: Round :: t.accepted.Get(r).None? && t.rejected.Get(r) == {}
  {
    Team(name, PerRound(None, None), PerRound({}, {}))
  }

  /**
    The multiplier of a team that refused `refused` distinct problems: 2 up to
    `maxRefuse` refusals, then half a point less for each further one.
   */
  function PenaltyCoeff(refused: nat, maxRefuse: int): (c: real)
    ensures c <= 2.0
    ensures c == 2.0 <==> refused <= maxRefuse
  {
    if refused <= maxRefuse then 2.0 else 2.0 - 0.5 * (refused - maxRefuse) as real
  }

  /** `Team.coeff(round)`. */
  function Coeff(team: Team, rnd: Round, maxRefuse: int): (c: real)
    ensures c <= 2.0
    ensures c == 2.0 <==> |team.rejected.Get(rnd)| <= maxRefuse
  {
    PenaltyCoeff(|team.rejected.Get(rnd)|, maxRefuse)
  }

  /** Each refusal past the free ones costs exactly half a point. */
  lemma CoeffStep(refused: nat, maxRefuse: int)
    requires refused >= maxRefuse
    ensures PenaltyCoeff(refused + 1, maxRefuse) == PenaltyCoeff(refused, maxRefuse) - 0.5
  {
  }

  /** More refusals never raise the multiplier. */
  lemma CoeffMonotone(a: nat, b: nat, maxRefuse: int)
    requires a <= b
    ensures PenaltyCoeff(b, maxRefuse) <= PenaltyCoeff(a, maxRefuse)
  {
  }

  /** Records `pb` as accepted in round `rnd`. */
  function Accept(team: Team, rnd: Round, pb: Problem): (t: Team)
    ensures t.name == team.name && t.rejected == team.rejected
    ensures t.accepted.Get(rnd) == Some(pb)
    ensures t.accepted.Get(Other(rnd)) == team.accepted.Get(Other(rnd))
  {
    team.(accepted := team.accepted.Set(rnd, Some(pb)))
  }

  /** Adds `pb` to the set of problems refused in round `rnd`. */
  function Reject(team: Team, rnd: Round, pb: Problem): (t: Team)
    ensures t.name == team.name && t.accepted == team.accepted
    ensures t.rejected.Get(Other(rnd)) == team.rejected.Get(Other(rnd))
    ensures pb in t.rejected.Get(rnd) && team.rejected.Get(rnd) <= t.rejected.Get(rnd)
    ensures t.rejected.Get(rnd) - team.rejected.Get(rnd) <= {pb}
  {
    team.(rejected := team.rejected.Set(rnd, team.rejected.Get(rnd) + {pb}))
  }

  /** Refusing a problem already refused changes nothing, so it costs nothing more. */
  lemma RejectAgainIsFree(team: Team, rnd: Round, pb: Problem, maxRefuse: int)
    requires pb in team.rejected.Get(rnd)
    ensures Reject(team, rnd, pb) == team
    ensures Coeff(Reject(team, rnd, pb), rnd, maxRefuse) == Coeff(team, rnd, maxRefuse)
  {
    assert team.rejected.Get(rnd) + {pb} == team.rejected.Get(rnd);
    assert team.rejected.Set(rnd, team.rejected.Get(rnd)) == team.rejected;
  }

  /** A new refusal adds exactly one to the count. */
  lemma RejectNewCountsOnce(team: Team, rnd: Round, pb: Problem)
    requires pb !in team.rejected.Get(rnd)
    ensures |Reject(team, rnd, pb).rejected.Get(rnd)| == |team.rejected.Get(rnd)| + 1
  {
  }

  // ---------------------------------------------------------------- events

  /** The Python types `next` can be asked for. */
  datatype ValueType = IntType | BoolType | StrType

  /** A submitted value: a die roll, an accept/refuse answer, or a drawn problem. */
  datatype Value = IntV(i: int) | BoolV(b: bool) | StrV(p: Problem)

  /** `isinstance(value, typ)`. A bool is also an int in Python. */
  predicate IsInstance(v: Value, typ: ValueType) {
    match typ
    case IntType => v.IntV? || v.BoolV?
    case BoolType => v.BoolV?
    case StrType => v.StrV?
  }

  /** The integer an int-typed value stands for (`True == 1`). */
  function IntOf(v: Value): int
    requires IsInstance(v, IntType)
  {
    match v
    case IntV(i) => i
    case BoolV(b) => if b then 1 else 0
  }

  /** A submission of `value` on behalf of team `team`. */
  datatype Event = Event(team: Trigram, value: Value)

  /** The notification hooks the engine calls, recorded in call order. */
  datatype Hook =
    | WarnWrongTeam(expected: Option<Trigram>, sender: Trigram)
    | WarnUnwanted(wanted: ValueType, got: Value)
    | WarnTwice(typ: ValueType)
    | WarnCollisions(tied: set<Trigram>)
    | StartSelectPb(selecting: Trigram)
    | InfoDrawPb(team: Team, pb: Problem, rnd: Round)
    | InfoAccepted(team: Team, pb: Problem)
    | InfoRejected(team: Team, pb: Problem, rnd: Round)
    | StartMakePoule(making: Round)
    | AnnoncePoules(pools: seq<PoolEntry>)
    | StartDrawOrder(ordering: Pool)
    | AnnonceDrawOrder(order: seq<Trigram>)
    | AnnoncePoule(drawn: Pool)

  /** The event is from the awaited team (if any) and has the awaited type. */
  predicate Wanted(typ: ValueType, team: Option<Trigram>, e: Event) {
    (team.None? || e.team == team.value) && IsInstance(e.value, typ)
  }

  /** The warning for an event that is not wanted; a wrong team is reported first. */
  function Complaint(typ: ValueType, team: Option<Trigram>, e: Event): Hook {
    if team.Some? && e.team != team.value then WarnWrongTeam(team, e.team) else WarnUnwanted(typ, e.value)
  }

  /** What `next` did with the queue: it took the event at `pos`, or ran out of events. */
  datatype Taken = Taken(pos: nat, hooks: seq<Hook>) | Exhausted(hooks: seq<Hook>)

  function Delay(h: Hook, t: Taken): Taken {
    match t
    case Taken(p, hs) => Taken(p + 1, [h] + hs)
    case Exhausted(hs) => Exhausted([h] + hs)
  }

  /**
    `BaseTirage.next(typ, team)`: pops events until one is from `team` (when
    given) and of type `typ`. Each earlier event is dropped with a warning:
    wrong team first, wrong type otherwise.
   */
  function Next(typ: ValueType, team: Option<Trigram>, q: seq<Event>): (r: Taken)
    ensures r.Taken? ==> r.pos < |q| && Wanted(typ, team, q[r.pos])
    ensures r.Taken? ==> forall j :: 0 <= j < r.pos ==> !Wanted(typ, team, q[j])
    ensures r.Exhausted? ==> forall j :: 0 <= j < |q| ==> !Wanted(typ, team, q[j])
    decreases |q|
  {
    if |q| == 0 then Exhausted([])
    else if team.Some? && q[0].team != team.value then Delay(WarnWrongTeam(team, q[0].team), Next(typ, team, q[1..]))
    else if !IsInstance(q[0].value, typ) then Delay(WarnUnwanted(typ, q[0].value), Next(typ, team, q[1..]))
    else Taken(0, [])
  }

  /** Every event `next` drops is reported, in queue order, with the warning `Complaint` gives for it. */
  lemma {:induction false} NextWarnsEachDropped(typ: ValueType, team: Option<Trigram>, q: seq<Event>)
    ensures var r := Next(typ, team, q);
      |r.hooks| == (if r.Taken? then r.pos else |q|) &&
      forall j :: 0 <= j < |r.hooks| ==> r.hooks[j] == Complaint(typ, team, q[j])
    decreases |q|
  {
    if |q| > 0 && !Wanted(typ, team, q[0]) {
      NextWarnsEachDropped(typ, team, q[1..]);
    }
  }

  /** A `True` or `False` submission satisfies `next(int)`, because bool is a subclass of int. */
  lemma BoolAnswersIntRequest(t: Trigram, b: bool, q: seq<Event>)
    ensures Next(IntType, None, [Event(t, BoolV(b))] + q) == Taken(0, [])
  {
  }

  // ---------------------------------------------------------------- dice

  /**
    The result of collecting dice: the rolls and the number of events consumed,
    or waiting for ever, or `KeyError` for a roll from a team outside the set.
   */
  datatype DiceRun =
    | Rolled(dices: map<Trigram, int>, used: nat, hooks: seq<Hook>)
    | DiceStuck(hooks: seq<Hook>)
    | UnknownTeam(team: Trigram, hooks: seq<Hook>)

  function AfterDice(k: nat, hs: seq<Hook>, run: DiceRun): DiceRun {
    match run
    case Rolled(d, used, h) => Rolled(d, k + used, hs + h)
    case DiceStuck(h) => DiceStuck(hs + h)
    case UnknownTeam(t, h) => UnknownTeam(t, hs + h)
  }

  /** The value of the first int-typed event of `t` in `events`. */
  function FirstRoll(events: seq<Event>, t: Trigram): Option<int>
    decreases |events|
  {
    if |events| == 0 then None
    else if events[0].team == t && IsInstance(events[0].value, IntType) then Some(IntOf(events[0].value))
    else FirstRoll(events[1..], t)
  }

  lemma {:induction false} FirstRollConcat(a: seq<Event>, b: seq<Event>, t: Trigram)
    ensures FirstRoll(a + b, t) == if FirstRoll(a, t).Some? then FirstRoll(a, t) else FirstRoll(b, t)
    decreases |a|
  {
    if |a| == 0 {
      assert a + b == b;
    } else {
      assert (a + b)[1..] == a[1..] + b;
      FirstRollConcat(a[1..], b, t);
    }
  }

  lemma {:induction false} FirstRollNone(a: seq<Event>, t: Trigram)
    requires forall j :: 0 <= j < |a| ==> !IsInstance(a[j].value, IntType)
    ensures FirstRoll(a, t) == None
    decreases |a|
  {
    if |a| > 0 {
      FirstRollNone(a[1..], t);
    }
  }

  /**
    The inner loop of `get_dices`: waits for int events until every team of
    `teams` has a value. A team's first roll is kept and a repeated roll only
    calls `warn_twice`; a roll from a team outside `teams` raises `KeyError`.
   */
  function Collect(teams: set<Trigram>, acc: map<Trigram, int>, q: seq<Event>): (r: DiceRun)
    requires acc.Keys <= teams
    ensures r.Rolled? ==> r.dices.Keys == teams && r.used <= |q|
    ensures r.Rolled? ==> forall t :: t in acc ==> r.dices[t] == acc[t]
    ensures r.Rolled? && acc.Keys != teams ==> 0 < r.used
    ensures r.UnknownTeam? ==> r.team !in teams
    decreases |q|
  {
    if teams <= acc.Keys then Rolled(acc, 0, [])
    else
      match Next(IntType, None, q)
      case Exhausted(h) => DiceStuck(h)
      case Taken(p, h) =>
        var e := q[p];
        if e.team !in teams then UnknownTeam(e.team, h)
        else
          var acc' := if e.team in acc then acc else acc[e.team := IntOf(e.value)];
          var twice := if e.team in acc then [WarnTwice(IntType)] else [];
          AfterDice(p + 1, h + twice, Collect(teams, acc', q[p + 1..]))
  }

  /** Every team that had no roll yet gets the first roll it sent among the consumed events. */
  lemma {:induction false} CollectFirstRolls(teams: set<Trigram>, acc: map<Trigram, int>, q: seq<Event>, t: Trigram)
    requires acc.Keys <= teams && t in teams && t !in acc
    requires Collect(teams, acc, q).Rolled?
    ensures FirstRoll(q[..Collect(teams, acc, q).used], t) == Some(Collect(teams, acc, q).dices[t])
    decreases |q|
  {
    var p, acc', q' := CollectTakes(teams, acc, q);
    var r' := Collect(teams, acc', q');
    FirstRollAfter(q, p, r'.used, t);
    if q[p].team == t {
      assert r'.dices[t] == acc'[t];
    } else {
      CollectFirstRolls(teams, acc', q', t);
    }
  }

  /** One event taken by `Collect`, unfolded: the roll at `p`, the rolls kept so far `acc'`, the rest `q'`. */
  lemma CollectTakes(teams: set<Trigram>, acc: map<Trigram, int>, q: seq<Event>) returns (p: nat, acc': map<Trigram, int>, q': seq<Event>)
    requires acc.Keys <= teams && Collect(teams, acc, q).Rolled? && acc.Keys != teams
    ensures p < |q| && q[p].team in teams && IsInstance(q[p].value, IntType)
    ensures forall j :: 0 <= j < p ==> !IsInstance(q[j].value, IntType)
    ensures acc' == if q[p].team in acc then acc else acc[q[p].team := IntOf(q[p].value)]
    ensures acc'.Keys <= teams && q' == q[p + 1..] && Collect(teams, acc', q').Rolled?
    ensures Collect(teams, acc, q).used == p + 1 + Collect(teams, acc', q').used
    ensures Collect(teams, acc, q).dices == Collect(teams, acc', q').dices
  {
    p := Next(IntType, None, q).pos;
    acc' := if q[p].team in acc then acc else acc[q[p].team := IntOf(q[p].value)];
    q' := q[p + 1..];
  }

  /** The first roll of `t` after a stretch of events that are not rolls. */
  lemma FirstRollPast(q: seq<Event>, p: nat, rest: seq<Event>, t: Trigram)
    requires p < |q| && IsInstance(q[p].value, IntType)
    requires forall j :: 0 <= j < p ==> !IsInstance(q[j].value, IntType)
    ensures FirstRoll(q[..p] + [q[p]] + rest, t) == if q[p].team == t then Some(IntOf(q[p].value)) else FirstRoll(rest, t)
  {
    FirstRollNone(q[..p], t);
    FirstRollConcat(q[..p], [q[p]], t);
    FirstRollConcat(q[..p] + [q[p]], rest, t);
    assert ([q[p]])[1..] == [];
  }

  /** The same, for a prefix of `q` that reaches `u` events past position `p`. */
  lemma FirstRollAfter(q: seq<Event>, p: nat, u: nat, t: Trigram)
    requires p + 1 + u <= |q| && IsInstance(q[p].value, IntType)
    requires forall j :: 0 <= j < p ==> !IsInstance(q[j].value, IntType)
    ensures FirstRoll(q[..p + 1 + u], t) == if q[p].team == t then Some(IntOf(q[p].value)) else FirstRoll(q[p + 1..][..u], t)
  {
    PrefixSplit(q, p, u);
    FirstRollPast(q, p, q[p + 1..][..u], t);
  }

  /**
    `get_dices(teams)` as written: `collisions` is emptied before the inner loop
    and never refilled, so the outer loop runs once and equal rolls are kept.
   */
  function GetDices(teams: set<Trigram>, q: seq<Event>): (r: DiceRun)
    ensures r.Rolled? ==> r.dices.Keys == teams && r.used <= |q|
    ensures r.Rolled? ==> forall t :: t in teams ==> FirstRoll(q[..r.used], t) == Some(r.dices[t])
    ensures r.UnknownTeam? ==> r.team !in teams
  {
    FreshRollsAreFirstRolls(teams, q);
    Collect(teams, map[], q)
  }

  lemma FreshRollsAreFirstRolls(teams: set<Trigram>, q: seq<Event>)
    ensures var r := Collect(teams, map[], q);
      r.Rolled? ==> forall t :: t in teams ==> FirstRoll(q[..r.used], t) == Some(r.dices[t])
  {
    var r := Collect(teams, map[], q);
    if r.Rolled? {
      forall t | t in teams
        ensures FirstRoll(q[..r.used], t) == Some(r.dices[t])
      {
        CollectFirstRolls(teams, map[], q, t);
      }
    }
  }

  /** Two teams rolling the same value both keep it: there is no re-roll. */
  lemma GetDicesKeepsTies()
    ensures var r := GetDices({"AAA", "BBB"}, [Event("AAA", IntV(42)), Event("BBB", IntV(42))]);
      r.Rolled? && r.dices["AAA"] == r.dices["BBB"] == 42
  {
    var q := [Event("AAA", IntV(42)), Event("BBB", IntV(42))];
    assert Next(IntType, None, q) == Taken(0, []);
    assert Next(IntType, None, q[1..]) == Taken(0, []);
    assert q[1..][1..] == [];
    var r := GetDices({"AAA", "BBB"}, q);
    assert r.Rolled? && r.used == 2;
    assert q[..r.used] == q;
    assert FirstRoll(q, "AAA") == Some(42);
    assert q[1..][0] == q[1];
    assert FirstRoll(q, "BBB") == Some(42);
  }

  /** No two teams hold the same roll. */
  predicate DistinctRolls(d: map<Trigram, int>) {
    forall a, b :: a in d && b in d && a != b ==> d[a] != d[b]
  }

  /** The teams whose roll another team also rolled. */
  function Tied(d: map<Trigram, int>): (tied: set<Trigram>)
    ensures tied <= d.Keys
    ensures forall a :: a in d && a !in tied ==> forall b :: b in d && b != a ==> d[b] != d[a]
    ensures !DistinctRolls(d) ==> tied != {}
  {
    set a | a in d && exists b :: b in d && b != a && d[b] == d[a]
  }

  /**
    `get_dices` with the re-roll it evidently intends: after each pass the tied
    teams lose their roll and only they roll again, until all rolls differ.
   */
  function RollUntilDistinct(teams: set<Trigram>, acc: map<Trigram, int>, q: seq<Event>): (r: DiceRun)
    requires acc.Keys <= teams
    ensures r.Rolled? ==> r.dices.Keys == teams && DistinctRolls(r.dices) && r.used <= |q|
    ensures r.UnknownTeam? ==> r.team !in teams
    decreases |q|, if acc.Keys == teams then 1 else 0
  {
    match Collect(teams, acc, q)
    case Rolled(d, used, h) =>
      if DistinctRolls(d) then Rolled(d, used, h)
      else
        var tied := Tied(d);
        AfterDice(used, h + [WarnCollisions(tied)], RollUntilDistinct(teams, d - tied, q[used..]))
    case DiceStuck(h) => DiceStuck(h)
    case UnknownTeam(t, h) => UnknownTeam(t, h)
  }

  /** The corrected `get_dices`. */
  function GetDistinctDices(teams: set<Trigram>, q: seq<Event>): (r: DiceRun)
    ensures r.Rolled? ==> r.dices.Keys == teams && DistinctRolls(r.dices)
  {
    RollUntilDistinct(teams, map[], q)
  }

  /** When the first pass has no tie, the corrected collection is the written one. */
  lemma DistinctFirstPassNeedsNoReroll(teams: set<Trigram>, q: seq<Event>)
    requires GetDices(teams, q).Rolled? && DistinctRolls(GetDices(teams, q).dices)
    ensures GetDistinctDices(teams, q) == GetDices(teams, q)
  {
  }

  /** A re-roll pass keeps the roll of every team that was not tied. */
  lemma RerollKeepsUntied(teams: set<Trigram>, d: map<Trigram, int>, q: seq<Event>, t: Trigram)
    requires d.Keys == teams && t in d && t !in Tied(d)
    requires Collect(teams, d - Tied(d), q).Rolled?
    ensures Collect(teams, d - Tied(d), q).dices[t] == d[t]
  {
  }

  // ---------------------------------------------------------------- pools

  /** `Poule(letter, rnd)`; the letter is kept as its code point. */
  datatype Pool = Pool(letter: nat, rnd: Round)

  /** One entry of `self.poules`: a pool and its trigrams. */
  datatype PoolEntry = PoolEntry(pool: Pool, members: seq<Trigram>)

  /** `ord("A")`. */
  const LetterA: nat := 65

  function Sum(fmt: seq<nat>): nat {
    if |fmt| == 0 then 0 else fmt[0] + Sum(fmt[1..])
  }

  /** The trigrams of the entries, in entry order. */
  function Flatten(ps: seq<PoolEntry>): seq<Trigram> {
    if |ps| == 0 then [] else ps[0].members + Flatten(ps[1..])
  }

  /** The roll of each team as a sort key (teams without a roll are never asked for). */
  function DiceKey(d: map<Trigram, int>): Trigram -> int {
    t => if t in d then d[t] else 0
  }

  /**
    The pool slicing of `make_poules`: consecutive slices of `sorted` of sizes
    `fmt`, labelled from letter number `first` on.
   */
  function Slices(sorted: seq<Trigram>, fmt: seq<nat>, rnd: Round, first: nat): (ps: seq<PoolEntry>)
    requires Sum(fmt) == |sorted|
    ensures |ps| == |fmt|
    ensures forall i :: 0 <= i < |ps| ==> ps[i].pool == Pool(LetterA + first + i, rnd) && |ps[i].members| == fmt[i]
    ensures Flatten(ps) == sorted
    decreases |fmt|
  {
    if |fmt| == 0 then []
    else
      var rest := Slices(sorted[fmt[0]..], fmt[1..], rnd, first + 1);
      assert sorted == sorted[..fmt[0]] + sorted[fmt[0]..];
      [PoolEntry(Pool(LetterA + first, rnd), sorted[..fmt[0]])] + rest
  }

  /** The pools of one round: the teams sorted by increasing roll, cut into the sizes of `fmt`. */
  function RoundPools(order: seq<Trigram>, fmt: seq<nat>, rnd: Round, d: map<Trigram, int>): (ps: seq<PoolEntry>)
    requires Sum(fmt) == |order|
    ensures |ps| == |fmt|
    ensures forall i :: 0 <= i < |ps| ==> ps[i].pool == Pool(LetterA + i, rnd) && |ps[i].members| == fmt[i]
  {
    Slices(SortBy(order, DiceKey(d)), fmt, rnd, 0)
  }

  /** Read in label order, the pools of a round hold every team once, by increasing roll. */
  lemma RoundPoolsSorted(order: seq<Trigram>, fmt: seq<nat>, rnd: Round, d: map<Trigram, int>)
    requires Sum(fmt) == |order|
    ensures multiset(Flatten(RoundPools(order, fmt, rnd, d))) == multiset(order)
    ensures SortedBy(Flatten(RoundPools(order, fmt, rnd, d)), DiceKey(d))
  {
    SortBySorted(order, DiceKey(d));
  }

  /** Teams with the same roll keep the order in which the teams were registered. */
  lemma RoundPoolsStable(order: seq<Trigram>, fmt: seq<nat>, rnd: Round, d: map<Trigram, int>, k: int)
    requires Sum(fmt) == |order|
    ensures KeyClass(Flatten(RoundPools(order, fmt, rnd, d)), DiceKey(d), k) == KeyClass(order, DiceKey(d), k)
  {
    SortByStable(order, DiceKey(d), k);
  }

  // ---------------------------------------------------------------- engine

  /**
    Switches between the code as written (`AsWritten`) and the evidently
    intended behaviour (`Intended`), one switch per defect:
    `reroll` — `get_dices` re-rolls ties;
    `poolOnly` — `draw_order` sorts the pool's members rather than every team;
    `roundBound` — the name `rnd` passed to `info_draw_pb` is defined;
    `decideOnValue` — the answer's value, not the always-true event, decides;
    `wrapCursor` — the draw cursor wraps round to the first team.
   */
  datatype Policy = Policy(reroll: bool, poolOnly: bool, roundBound: bool, decideOnValue: bool, wrapCursor: bool)

  const AsWritten := Policy(false, false, false, false, false)
  const Intended := Policy(true, true, true, true, true)

  /** Why the engine's coroutine raises. */
  datatype Crash = KeyError(key: Trigram) | NameError | IndexError

  /** The dice collection a policy uses. */
  function RollDice(policy: Policy, teams: set<Trigram>, q: seq<Event>): (r: DiceRun)
    ensures r.Rolled? ==> r.dices.Keys == teams && r.used <= |q|
    ensures r.Rolled? && policy.reroll ==> DistinctRolls(r.dices)
    ensures r.UnknownTeam? ==> r.team !in teams
  {
    if policy.reroll then RollUntilDistinct(teams, map[], q) else GetDices(teams, q)
  }

  /** The trigrams of `order` as a set. */
  function Elements(order: seq<Trigram>): (s: set<Trigram>)
    ensures forall t :: t in s <==> t in order
  {
    set i | 0 <= i < |order| :: order[i]
  }

  /** What `make_poules` produced: the pools of both rounds, or it waits, or it raises. */
  datatype PoulesRun =
    | PoulesMade(pools: seq<PoolEntry>, used: nat, hooks: seq<Hook>)
    | PoulesStuck(hooks: seq<Hook>)
    | PoulesCrashed(error: Crash, hooks: seq<Hook>)

  lemma FlattenConcat(a: seq<PoolEntry>, b: seq<PoolEntry>)
    ensures Flatten(a + b) == Flatten(a) + Flatten(b)
  {
    if |a| > 0 {
      assert (a + b)[1..] == a[1..] + b;
      FlattenConcat(a[1..], b);
    } else {
      assert a + b == b;
    }
  }

  /** The entries are pools `A`, `B`, ... of round `rnd`, holding `fmt[0]`, `fmt[1]`, ... teams. */
  predicate Labelled(ps: seq<PoolEntry>, fmt: seq<nat>, rnd: Round) {
    |ps| == |fmt| &&
    forall i :: 0 <= i < |ps| ==> ps[i].pool == Pool(LetterA + i, rnd) && |ps[i].members| == fmt[i]
  }

  /** What one round of `make_poules` produced. */
  datatype RoundRun =
    | RoundMade(pools: seq<PoolEntry>, used: nat, hooks: seq<Hook>)
    | RoundStuck(hooks: seq<Hook>)
    | RoundCrashed(error: Crash, hooks: seq<Hook>)

  /** One iteration of the loop of `make_poules`: every team rolls, then the pools of `rnd` are cut. */
  function MakeRound(policy: Policy, order: seq<Trigram>, fmt: seq<nat>, rnd: Round, q: seq<Event>): (r: RoundRun)
    requires Sum(fmt) == |order|
    ensures r.RoundMade? ==> Labelled(r.pools, fmt, rnd) && r.used <= |q|
    ensures r.RoundMade? ==> multiset(Flatten(r.pools)) == multiset(order)
    ensures r.RoundCrashed? ==> r.error.KeyError? && r.error.key !in order
  {
    var h := [StartMakePoule(rnd)];
    match RollDice(policy, Elements(order), q)
    case DiceStuck(h0) => RoundStuck(h + h0)
    case UnknownTeam(t, h0) => RoundCrashed(KeyError(t), h + h0)
    case Rolled(d, u, h0) =>
      RoundPoolsSorted(order, fmt, rnd, d);
      RoundMade(RoundPools(order, fmt, rnd, d), u, h + h0)
  }

  /**
    `make_poules`: for round 0 then round 1, every team rolls and the teams,
    sorted by increasing roll, are cut into pools A, B, ... of the sizes of `fmt`.
    The round-0 pools come first, as in the dictionary the code builds.
   */
  function MakePoules(policy: Policy, order: seq<Trigram>, fmt: seq<nat>, q: seq<Event>): (r: PoulesRun)
    requires Sum(fmt) == |order|
    ensures r.PoulesMade? ==> |r.pools| == 2 * |fmt| && r.used <= |q|
    ensures r.PoulesMade? ==> Labelled(r.pools[..|fmt|], fmt, 0) && Labelled(r.pools[|fmt|..], fmt, 1)
    ensures r.PoulesMade? ==> multiset(Flatten(r.pools[..|fmt|])) == multiset(order)
    ensures r.PoulesMade? ==> multiset(Flatten(r.pools[|fmt|..])) == multiset(order)
    ensures r.PoulesCrashed? ==> r.error.KeyError? && r.error.key !in order
  {
    match MakeRound(policy, order, fmt, 0, q)
    case RoundStuck(h) => PoulesStuck(h)
    case RoundCrashed(e, h) => PoulesCrashed(e, h)
    case RoundMade(p0, u0, h0) =>
      match MakeRound(policy, order, fmt, 1, q[u0..])
      case RoundStuck(h1) => PoulesStuck(h0 + h1)
      case RoundCrashed(e, h1) => PoulesCrashed(e, h0 + h1)
      case RoundMade(p1, u1, h1) =>
        assert (p0 + p1)[..|fmt|] == p0 && (p0 + p1)[|fmt|..] == p1;
        PoulesMade(p0 + p1, u0 + u1, h0 + h1 + [AnnoncePoules(p0 + p1)])
  }

  /** The first pool entry of round `rnd` holding `t`, in dictionary order. */
  function PoolOf(pools: seq<PoolEntry>, t: Trigram, rnd: Round): (r: Option<PoolEntry>)
    ensures r.Some? ==> r.value in pools && r.value.pool.rnd == rnd && t in r.value.members
    ensures r.None? ==> forall i :: 0 <= i < |pools| && pools[i].pool.rnd == rnd ==> t !in pools[i].members
  {
    if |pools| == 0 then None
    else if t in pools[0].members && pools[0].pool.rnd == rnd then Some(pools[0])
    else PoolOf(pools[1..], t, rnd)
  }

  // ---------------------------------------------------------------- rproblem

  /** The round a team draws for: 0 until it has accepted a round-0 problem. */
  function DrawRound(team: Team): (rnd: Round)
    ensures rnd == 0 <==> team.accepted.Get(0).None?
  {
    if team.accepted.first.None? then 0 else 1
  }

  /** `pb` is neither of the problems the team accepted. */
  predicate NotAcceptedBy(team: Team, pb: Problem) {
    team.accepted.Get(0) != Some(pb) && team.accepted.Get(1) != Some(pb)
  }

  /** No member of the pool accepted `pb` in round `rnd`. */
  predicate FreeInPool(teams: map<Trigram, Team>, members: seq<Trigram>, rnd: Round, pb: Problem)
    requires forall i :: 0 <= i < |members| ==> members[i] in teams
  {
    forall i :: 0 <= i < |members| ==> teams[members[i]].accepted.Get(rnd) != Some(pb)
  }

  /** The problems `rproblem` may draw, in the order of the problem list. */
  function Candidates(problems: seq<Problem>, teams: map<Trigram, Team>, team: Team, members: seq<Trigram>, rnd: Round): (c: seq<Problem>)
    requires forall i :: 0 <= i < |members| ==> members[i] in teams
    ensures forall i :: 0 <= i < |c| ==> c[i] in problems && NotAcceptedBy(team, c[i]) && FreeInPool(teams, members, rnd, c[i])
    ensures forall i :: 0 <= i < |problems| && NotAcceptedBy(team, problems[i]) && FreeInPool(teams, members, rnd, problems[i]) ==> problems[i] in c
  {
    Filter(problems, pb => NotAcceptedBy(team, pb) && FreeInPool(teams, members, rnd, pb))
  }

  /**
    What `rproblem` did: warned a team that is in no pool, raised the
    `IndexError` of `random.choice` on an empty candidate list, or submitted
    a drawn problem.
   */
  datatype Draw = NotInPool(warning: Hook) | NoneLeft | Submitted(event: Event)

  /**
    The inputs `rproblem` is given: a known team whose pool members are known,
    and, when some problem is left, a random index into the candidates.
   */
  predicate RProblemDefined(teams: map<Trigram, Team>, pools: seq<PoolEntry>, problems: seq<Problem>, trigram: Trigram, choice: nat) {
    trigram in teams &&
    var rnd := DrawRound(teams[trigram]);
    var pool := PoolOf(pools, trigram, rnd);
    pool.Some? ==>
      (forall i :: 0 <= i < |pool.value.members| ==> pool.value.members[i] in teams) &&
      var c := Candidates(problems, teams, teams[trigram], pool.value.members, rnd);
      |c| > 0 ==> choice < |c|
  }

  /**
    `rproblem(trigram)`, with `random.choice` replaced by the index `choice`:
    the team's pool for its current round is looked up, and a problem that
    the team did not accept in either round and that no pool member accepted
    this round is submitted on its behalf.
   */
  function RProblem(teams: map<Trigram, Team>, pools: seq<PoolEntry>, problems: seq<Problem>, trigram: Trigram, choice: nat): (r: Draw)
    requires RProblemDefined(teams, pools, problems, trigram, choice)
    ensures var rnd := DrawRound(teams[trigram]);
      r.NotInPool? <==> forall i :: 0 <= i < |pools| && pools[i].pool.rnd == rnd ==> trigram !in pools[i].members
    ensures r.NotInPool? ==> r.warning == WarnWrongTeam(None, trigram)
    ensures var rnd := DrawRound(teams[trigram]);
      r.NoneLeft? <==>
        (PoolOf(pools, trigram, rnd).Some? &&
         |Candidates(problems, teams, teams[trigram], PoolOf(pools, trigram, rnd).value.members, rnd)| == 0)
    ensures r.Submitted? ==> r.event.team == trigram && r.event.value.StrV? && r.event.value.p in problems
    ensures r.Submitted? ==> NotAcceptedBy(teams[trigram], r.event.value.p)
    ensures r.Submitted? ==> var rnd := DrawRound(teams[trigram]);
      PoolOf(pools, trigram, rnd).Some? && FreeInPool(teams, PoolOf(pools, trigram, rnd).value.members, rnd, r.event.value.p)
  {
    var team := teams[trigram];
    var rnd := DrawRound(team);
    match PoolOf(pools, trigram, rnd)
    case None => NotInPool(WarnWrongTeam(None, trigram))
    case Some(pool) =>
      var c := Candidates(problems, teams, team, pool.members, rnd);
      if |c| == 0 then NoneLeft else Submitted(Event(trigram, StrV(c[choice])))
  }

  // ---------------------------------------------------------------- draw order

  /** The draw order of a pool: its members by non-increasing roll, ties in member order. */
  function DrawOrder(members: seq<Trigram>, d: map<Trigram, int>): (order: seq<Trigram>)
    ensures multiset(order) == multiset(members)
  {
    SortDescending(members, DiceKey(d))
  }

  lemma DrawOrderNonIncreasing(members: seq<Trigram>, d: map<Trigram, int>)
    ensures var order := DrawOrder(members, d);
      forall i, j :: 0 <= i < j < |order| ==> DiceKey(d)(order[j]) <= DiceKey(d)(order[i])
  {
    SortDescendingSorted(members, DiceKey(d));
  }

  /** The first team of `all` that has no roll in `d`. */
  function FirstWithoutRoll(all: seq<Trigram>, d: map<Trigram, int>): (r: Option<nat>)
    ensures r.Some? ==> r.value < |all| && all[r.value] !in d && forall j :: 0 <= j < r.value ==> all[j] in d
    ensures r.None? ==> forall j :: 0 <= j < |all| ==> all[j] in d
  {
    if |all| == 0 then None
    else if all[0] !in d then Some(0)
    else match FirstWithoutRoll(all[1..], d)
      case None => None
      case Some(k) => Some(k + 1)
  }

  /**
    `draw_order` as written: it sorts every registered team by the rolls of the
    pool's members, so the key lookup raises `KeyError` on the first registered
    team outside the pool.
   */
  function DrawOrderAsWritten(all: seq<Trigram>, d: map<Trigram, int>): (r: Result)
    ensures r.Failure? <==> exists t :: t in all && t !in d
    ensures r.Failure? ==> r.error.KeyError? && r.error.key in all && r.error.key !in d
  {
    match FirstWithoutRoll(all, d)
    case Some(k) => Failure(KeyError(all[k]))
    case None => Success(SortDescending(all, DiceKey(d)))
  }

  /** An ordering, or the exception that stopped it. */
  datatype Result = Success(order: seq<Trigram>) | Failure(error: Crash)

  /** With at least two non-empty pools, some team lies outside each pool and `draw_order` always raises. */
  lemma DrawOrderAsWrittenRaises(all: seq<Trigram>, members: seq<Trigram>, d: map<Trigram, int>, outsider: Trigram)
    requires d.Keys == Elements(members)
    requires outsider in all && outsider !in members
    ensures DrawOrderAsWritten(all, d).Failure?
  {
  }

  /** Where all teams form one pool, the written `draw_order` agrees with the intended one. */
  lemma DrawOrderSinglePool(all: seq<Trigram>, d: map<Trigram, int>)
    requires d.Keys == Elements(all)
    ensures DrawOrderAsWritten(all, d) == Success(DrawOrder(all, d))
  {
  }

  // ---------------------------------------------------------------- draw loop

  /** The teams map is keyed by team name and knows every trigram of `order`. */
  predicate LoopReady(order: seq<Trigram>, teams: map<Trigram, Team>) {
    (forall i :: 0 <= i < |order| ==> order[i] in teams) &&
    (forall t :: t in teams ==> teams[t].name == t)
  }

  /** Which teams of `order` hold an accepted problem for round `rnd`. */
  function Decided(order: seq<Trigram>, teams: map<Trigram, Team>, rnd: Round): (d: seq<bool>)
    requires forall i :: 0 <= i < |order| ==> order[i] in teams
    ensures |d| == |order|
    ensures forall i :: 0 <= i < |order| ==> d[i] == teams[order[i]].accepted.Get(rnd).Some?
  {
    seq(|order|, i requires 0 <= i < |order| => teams[order[i]].accepted.Get(rnd).Some?)
  }

  /** The cursor without wrap-around: the first undecided index from `current` on, if any. */
  function ScanForward(decided: seq<bool>, current: nat): (r: Option<nat>)
    requires current <= |decided|
    ensures r.Some? ==> current <= r.value < |decided| && !decided[r.value]
    ensures r.Some? ==> forall j :: current <= j < r.value ==> decided[j]
    ensures r.None? ==> forall j :: current <= j < |decided| ==> decided[j]
    decreases |decided| - current
  {
    if current == |decided| then None
    else if !decided[current] then Some(current)
    else ScanForward(decided, current + 1)
  }

  /**
    The outcome of one team's turn: the team after its decision, with the
    positions of the problem it submitted and of its answer; or a wait; or a
    `NameError`.
   */
  datatype TurnRun =
    | TurnDone(team: Team, pb: Problem, accepted: bool, drawnAt: nat, answerAt: nat, hooks: seq<Hook>)
    | TurnStuck(hooks: seq<Hook>)
    | TurnFailed(error: Crash, hooks: seq<Hook>)

  /**
    One served turn of `draw_poule`: the team submits a problem, it is
    announced, the team answers, and the problem is accepted or refused.
   */
  function DrawTurn(policy: Policy, rnd: Round, team: Team, q: seq<Event>): (r: TurnRun)
    ensures r.TurnDone? ==> r.drawnAt < r.answerAt < |q|
    ensures r.TurnDone? ==> q[r.drawnAt] == Event(team.name, StrV(r.pb))
    ensures r.TurnDone? ==> forall j :: 0 <= j < r.drawnAt ==> !Wanted(StrType, Some(team.name), q[j])
    ensures r.TurnDone? ==> q[r.answerAt].team == team.name && q[r.answerAt].value.BoolV?
    ensures r.TurnDone? ==> r.team == if r.accepted then Accept(team, rnd, r.pb) else Reject(team, rnd, r.pb)
    ensures r.TurnDone? ==> r.accepted == (!policy.decideOnValue || q[r.answerAt].value.b)
    ensures r.TurnFailed? ==> !policy.roundBound && r.error == NameError
    ensures !policy.roundBound ==> !r.TurnDone?
  {
    var h0 := [StartSelectPb(team.name)];
    match Next(StrType, Some(team.name), q)
    case Exhausted(h) => TurnStuck(h0 + h)
    case Taken(p, h1) =>
      var pb := q[p].value.p;
      if !policy.roundBound then TurnFailed(NameError, h0 + h1)
      else
        var q1 := q[p + 1..];
        var h2 := h0 + h1 + [InfoDrawPb(team, pb, rnd)];
        match Next(BoolType, Some(team.name), q1)
        case Exhausted(h) => TurnStuck(h2 + h)
        case Taken(p', h3) =>
          var yes := !policy.decideOnValue || q1[p'].value.b;
          if yes then
            var t := Accept(team, rnd, pb);
            TurnDone(t, pb, true, p, p + 1 + p', h2 + h3 + [InfoAccepted(t, pb)])
          else
            TurnDone(Reject(team, rnd, pb), pb, false, p, p + 1 + p', h2 + h3 + [InfoRejected(team, pb, rnd)])
  }

  /** What the draw of a pool did: the teams afterwards, or a wait, or an exception. */
  datatype DrawRun =
    | Drawn(teams: map<Trigram, Team>, used: nat, hooks: seq<Hook>)
    | DrawStuck(hooks: seq<Hook>)
    | DrawFailed(error: Crash, hooks: seq<Hook>)

  function AfterTurn(used: nat, hs: seq<Hook>, run: DrawRun): DrawRun {
    match run
    case Drawn(t, u, h) => Drawn(t, used + u, hs + h)
    case DrawStuck(h) => DrawStuck(hs + h)
    case DrawFailed(e, h) => DrawFailed(e, hs + h)
  }

  /** `after` differs from `before` only by decisions of round `rnd`: nothing accepted is lost, nothing refused is forgotten. */
  predicate OnlyRoundDecisions(before: map<Trigram, Team>, after: map<Trigram, Team>, rnd: Round) {
    after.Keys == before.Keys &&
    forall t :: t in before ==>
      after[t].name == before[t].name &&
      after[t].accepted.Get(Other(rnd)) == before[t].accepted.Get(Other(rnd)) &&
      after[t].rejected.Get(Other(rnd)) == before[t].rejected.Get(Other(rnd)) &&
      (before[t].accepted.Get(rnd).Some? ==> after[t].accepted.Get(rnd) == before[t].accepted.Get(rnd)) &&
      before[t].rejected.Get(rnd) <= after[t].rejected.Get(rnd)
  }

  /** Decisions of one round compose: a draw run after a turn still only adds decisions of that round. */
  lemma OnlyRoundDecisionsTrans(a: map<Trigram, Team>, b: map<Trigram, Team>, run: DrawRun, rnd: Round)
    requires OnlyRoundDecisions(a, b, rnd)
    ensures run.Drawn? && OnlyRoundDecisions(b, run.teams, rnd) ==> OnlyRoundDecisions(a, run.teams, rnd)
  {
  }

  /** The position of the cursor after serving index `i`. */
  function Advance(policy: Policy, i: nat, n: nat): (c: nat)
    requires i < n
    ensures c <= n && (policy.wrapCursor ==> c < n)
  {
    if policy.wrapCursor then Cyclic.Succ(i, n) else i + 1
  }

  /** The index the loop serves next from cursor `current`, or `None` when the cursor runs off the end. */
  function Served(policy: Policy, decided: seq<bool>, current: nat): (r: Option<nat>)
    requires current <= |decided| && (policy.wrapCursor ==> current < |decided|)
    requires Cyclic.SomeUndecided(decided)
    ensures r.Some? ==> r.value < |decided| && !decided[r.value]
    ensures policy.wrapCursor ==> r.Some?
  {
    if policy.wrapCursor then Some(Cyclic.FirstUndecided(decided, current)) else ScanForward(decided, current)
  }

  /** A finished turn changes only the served team, and only its decisions for round `rnd`. */
  lemma TurnOnlyDecides(policy: Policy, rnd: Round, order: seq<Trigram>, teams: map<Trigram, Team>, name: Trigram, q: seq<Event>)
    requires LoopReady(order, teams) && name in teams && teams[name].accepted.Get(rnd).None?
    requires DrawTurn(policy, rnd, teams[name], q).TurnDone?
    ensures var teams' := teams[name := DrawTurn(policy, rnd, teams[name], q).team];
      LoopReady(order, teams') && OnlyRoundDecisions(teams, teams', rnd) &&
      teams'[name].accepted.Get(rnd).Some? == DrawTurn(policy, rnd, teams[name], q).accepted
  {
    var turn := DrawTurn(policy, rnd, teams[name], q);
    var teams' := teams[name := turn.team];
    if turn.accepted {
      assert turn.team == Accept(teams[name], rnd, turn.pb);
    } else {
      assert turn.team == Reject(teams[name], rnd, turn.pb);
    }
    assert teams'[name].name == name;
    forall t | t in teams
      ensures teams'[t].name == teams[t].name
      ensures teams'[t].accepted.Get(Other(rnd)) == teams[t].accepted.Get(Other(rnd))
      ensures teams'[t].rejected.Get(Other(rnd)) == teams[t].rejected.Get(Other(rnd))
      ensures teams[t].accepted.Get(rnd).Some? ==> teams'[t].accepted.Get(rnd) == teams[t].accepted.Get(rnd)
      ensures teams[t].rejected.Get(rnd) <= teams'[t].rejected.Get(rnd)
    {
    }
  }

  /** One pass of the loop body: the loop ends, or it stops, or a team was served. */
  datatype LoopStep =
    | AllDecided
    | Halt(run: DrawRun)
    | Continue(teams: map<Trigram, Team>, next: nat, used: nat, hooks: seq<Hook>)

  /**
    The loop body of `draw_poule` from cursor `current`: skip the teams that
    already accepted, then serve the first undecided one.
   */
  function Step(policy: Policy, rnd: Round, order: seq<Trigram>, teams: map<Trigram, Team>, current: nat, q: seq<Event>): (s: LoopStep)
    requires LoopReady(order, teams)
    requires current <= |order| && (policy.wrapCursor && |order| > 0 ==> current < |order|)
    ensures s.AllDecided? <==> forall i :: 0 <= i < |order| ==> teams[order[i]].accepted.Get(rnd).Some?
    ensures s.Halt? ==> s.run.DrawStuck? || s.run.DrawFailed?
    ensures s.Halt? && s.run.DrawFailed? ==>
      (s.run.error == NameError && !policy.roundBound) || (s.run.error == IndexError && !policy.wrapCursor)
    ensures s.Continue? ==> 0 < s.used <= |q| && LoopReady(order, s.teams) && s.teams.Keys == teams.Keys
    ensures s.Continue? ==> s.next <= |order| && (policy.wrapCursor ==> s.next < |order|)
    ensures s.Continue? ==> policy.roundBound
  {
    var decided := Decided(order, teams, rnd);
    if !Cyclic.SomeUndecided(decided) then AllDecided
    else
      match Served(policy, decided, current)
      case None => Halt(DrawFailed(IndexError, []))
      case Some(i) =>
        match DrawTurn(policy, rnd, teams[order[i]], q)
        case TurnStuck(h) => Halt(DrawStuck(h))
        case TurnFailed(e, h) => Halt(DrawFailed(e, h))
        case TurnDone(t, pb, yes, _, at, h) =>
          TurnOnlyDecides(policy, rnd, order, teams, order[i], q);
          Continue(teams[order[i] := t], Advance(policy, i, |order|), at + 1, h)
  }

  /** A pass of the loop body changes one team of `order`, and only by a decision for round `rnd`. */
  lemma StepOnlyDecides(policy: Policy, rnd: Round, order: seq<Trigram>, teams: map<Trigram, Team>, current: nat, q: seq<Event>)
    requires LoopReady(order, teams)
    requires current <= |order| && (policy.wrapCursor && |order| > 0 ==> current < |order|)
    ensures var s := Step(policy, rnd, order, teams, current, q);
      s.Continue? ==> OnlyRoundDecisions(teams, s.teams, rnd) && forall t :: t in teams && t !in order ==> s.teams[t] == teams[t]
    ensures var s := Step(policy, rnd, order, teams, current, q);
      s.Continue? && !policy.decideOnValue ==> forall t :: t in teams ==> s.teams[t].rejected == teams[t].rejected
  {
    var decided := Decided(order, teams, rnd);
    if Cyclic.SomeUndecided(decided) && Served(policy, decided, current).Some? {
      var i := Served(policy, decided, current).value;
      var turn := DrawTurn(policy, rnd, teams[order[i]], q);
      if turn.TurnDone? {
        TurnOnlyDecides(policy, rnd, order, teams, order[i], q);
        assert !policy.decideOnValue ==> turn.team == Accept(teams[order[i]], rnd, turn.pb);
      }
    }
  }

  /**
    The `while` loop of `draw_poule`: while some team of `order` has not
    accepted a problem for round `rnd`, the team under the cursor is served if
    undecided and skipped otherwise.
   */
  function DrawLoop(policy: Policy, rnd: Round, order: seq<Trigram>, teams: map<Trigram, Team>, current: nat, q: seq<Event>): (r: DrawRun)
    requires LoopReady(order, teams)
    requires current <= |order| && (policy.wrapCursor && |order| > 0 ==> current < |order|)
    ensures r.Drawn? ==> r.used <= |q| && r.teams.Keys == teams.Keys
    ensures r.Drawn? ==> forall i :: 0 <= i < |order| ==> r.teams[order[i]].accepted.Get(rnd).Some?
    ensures r.DrawFailed? ==> (r.error == NameError && !policy.roundBound) || (r.error == IndexError && !policy.wrapCursor)
    decreases |q|
  {
    match Step(policy, rnd, order, teams, current, q)
    case AllDecided => Drawn(teams, 0, [])
    case Halt(r) => r
    case Continue(teams', next, used, h) => AfterTurn(used, h, DrawLoop(policy, rnd, order, teams', next, q[used..]))
  }

  /**
    The loop only adds decisions for round `rnd`: accepted problems stay, refusals
    only grow, the other round and the teams outside the pool are untouched.
   */
  lemma {:induction false} DrawLoopOnlyDecides(policy: Policy, rnd: Round, order: seq<Trigram>, teams: map<Trigram, Team>, current: nat, q: seq<Event>)
    requires LoopReady(order, teams)
    requires current <= |order| && (policy.wrapCursor && |order| > 0 ==> current < |order|)
    ensures var r := DrawLoop(policy, rnd, order, teams, current, q);
      r.Drawn? ==> OnlyRoundDecisions(teams, r.teams, rnd) && forall t :: t in teams && t !in order ==> r.teams[t] == teams[t]
    decreases |q|
  {
    var s := Step(policy, rnd, order, teams, current, q);
    StepOnlyDecides(policy, rnd, order, teams, current, q);
    if s.Continue? {
      var r' := DrawLoop(policy, rnd, order, s.teams, s.next, q[s.used..]);
      DrawLoopOnlyDecides(policy, rnd, order, s.teams, s.next, q[s.used..]);
      OnlyRoundDecisionsTrans(teams, s.teams, r', rnd);
    }
  }

  /** The cursor passes over a decided team to the same team it would serve from the next position. */
  lemma ServedSkipsDecided(policy: Policy, decided: seq<bool>, current: nat)
    requires current < |decided| && decided[current] && Cyclic.SomeUndecided(decided)
    ensures Served(policy, decided, current) == Served(policy, decided, Advance(policy, current, |decided|))
  {
    if policy.wrapCursor {
      Cyclic.SkipDecided(decided, current);
    }
  }

  /** A team that already accepted is skipped without consuming any event. */
  lemma DrawLoopSkipsDecided(policy: Policy, rnd: Round, order: seq<Trigram>, teams: map<Trigram, Team>, current: nat, q: seq<Event>)
    requires LoopReady(order, teams)
    requires current < |order| && teams[order[current]].accepted.Get(rnd).Some?
    ensures DrawLoop(policy, rnd, order, teams, current, q) == DrawLoop(policy, rnd, order, teams, Advance(policy, current, |order|), q)
  {
    var decided := Decided(order, teams, rnd);
    if Cyclic.SomeUndecided(decided) {
      ServedSkipsDecided(policy, decided, current);
      assert Step(policy, rnd, order, teams, current, q) == Step(policy, rnd, order, teams, Advance(policy, current, |order|), q);
    }
  }

  /** As written, `info_draw_pb(team, event.value, rnd)` raises `NameError` on the first draw of any pool with an undecided team. */
  lemma DrawLoopNeverEndsUnbound(policy: Policy, rnd: Round, order: seq<Trigram>, teams: map<Trigram, Team>, current: nat, q: seq<Event>)
    requires LoopReady(order, teams) && !policy.roundBound
    requires current <= |order| && (policy.wrapCursor && |order| > 0 ==> current < |order|)
    requires exists i :: 0 <= i < |order| && teams[order[i]].accepted.Get(rnd).None?
    ensures !DrawLoop(policy, rnd, order, teams, current, q).Drawn?
  {
    var s := Step(policy, rnd, order, teams, current, q);
    assert s.Halt?;
  }

  /** When the answer's event rather than its value decides, no refusal is ever recorded. */
  lemma {:induction false} DrawLoopNeverRefusesByEvent(policy: Policy, rnd: Round, order: seq<Trigram>, teams: map<Trigram, Team>, current: nat, q: seq<Event>)
    requires LoopReady(order, teams) && !policy.decideOnValue
    requires current <= |order| && (policy.wrapCursor && |order| > 0 ==> current < |order|)
    ensures var r := DrawLoop(policy, rnd, order, teams, current, q);
      r.Drawn? ==> forall t :: t in teams ==> r.teams[t].rejected == teams[t].rejected
    decreases |q|
  {
    var s := Step(policy, rnd, order, teams, current, q);
    StepOnlyDecides(policy, rnd, order, teams, current, q);
    if s.Continue? {
      DrawLoopNeverRefusesByEvent(policy, rnd, order, s.teams, s.next, q[s.used..]);
    }
  }

  /** A team that submits `pb` and then answers `b` completes its turn on the first two events. */
  lemma TurnOnPair(policy: Policy, rnd: Round, team: Team, pb: Problem, b: bool, rest: seq<Event>)
    requires policy.roundBound
    ensures var r := DrawTurn(policy, rnd, team, [Event(team.name, StrV(pb)), Event(team.name, BoolV(b))] + rest);
      r.TurnDone? && r.pb == pb && r.answerAt == 1 && r.accepted == (!policy.decideOnValue || b)
  {
    var q := [Event(team.name, StrV(pb)), Event(team.name, BoolV(b))] + rest;
    assert Next(StrType, Some(team.name), q) == Taken(0, []);
    assert q[1..] == [Event(team.name, BoolV(b))] + rest;
    assert Next(BoolType, Some(team.name), q[1..]) == Taken(0, []);
  }

  /**
    With only `if accept:` left as written, a team that answers no is given the
    problem anyway: the answer is an `Event`, which is always truthy.
   */
  lemma FalseAnswerAccepted()
    ensures var q := [Event("AAA", StrV("P1")), Event("AAA", BoolV(false))];
      var r := DrawTurn(Policy(true, true, true, false, true), 0, NewTeam("AAA"), q);
      r.TurnDone? && r.accepted && r.team.accepted.Get(0) == Some("P1") && r.team.rejected.Get(0) == {}
  {
    TurnOnPair(Policy(true, true, true, false, true), 0, NewTeam("AAA"), "P1", false, []);
    assert [Event("AAA", StrV("P1")), Event("AAA", BoolV(false))] + [] == [Event("AAA", StrV("P1")), Event("AAA", BoolV(false))];
  }

  /** Deciding on the answer's value, the same answer refuses the problem. */
  lemma FalseAnswerRefused()
    ensures var q := [Event("AAA", StrV("P1")), Event("AAA", BoolV(false))];
      var r := DrawTurn(Intended, 0, NewTeam("AAA"), q);
      r.TurnDone? && !r.accepted && r.team.accepted.Get(0) == None && r.team.rejected.Get(0) == {"P1"}
  {
    TurnOnPair(Intended, 0, NewTeam("AAA"), "P1", false, []);
    assert [Event("AAA", StrV("P1")), Event("AAA", BoolV(false))] + [] == [Event("AAA", StrV("P1")), Event("AAA", BoolV(false))];
  }

  /** The cursor on an undecided team serves that team. */
  lemma ServedUndecided(policy: Policy, decided: seq<bool>, current: nat)
    requires current < |decided| && !decided[current]
    ensures Cyclic.SomeUndecided(decided) && Served(policy, decided, current) == Some(current)
  {
    Cyclic.UndecidedStartServed(decided, current);
  }

  /** A pass of the loop body that serves index `i` and sees its turn through, unfolded. */
  lemma StepServes(policy: Policy, rnd: Round, order: seq<Trigram>, teams: map<Trigram, Team>, current: nat, q: seq<Event>, i: nat)
    requires LoopReady(order, teams)
    requires current <= |order| && (policy.wrapCursor && |order| > 0 ==> current < |order|)
    requires Cyclic.SomeUndecided(Decided(order, teams, rnd)) && Served(policy, Decided(order, teams, rnd), current) == Some(i)
    requires DrawTurn(policy, rnd, teams[order[i]], q).TurnDone?
    ensures var turn := DrawTurn(policy, rnd, teams[order[i]], q);
      Step(policy, rnd, order, teams, current, q) ==
      Continue(teams[order[i] := turn.team], Advance(policy, i, |order|), turn.answerAt + 1, turn.hooks)
  {
  }

  /** Two fresh teams, `AAA` drawn first. */
  function TwoTeams(): (teams: map<Trigram, Team>)
    ensures LoopReady(["AAA", "BBB"], teams)
  {
    map["AAA" := NewTeam("AAA"), "BBB" := NewTeam("BBB")]
  }

  /** `AAA` refuses `P1`, then `BBB` accepts `P2`. */
  function RefuseThenAccept(): seq<Event> {
    [Event("AAA", StrV("P1")), Event("AAA", BoolV(false)), Event("BBB", StrV("P2")), Event("BBB", BoolV(true))]
  }

  /** The teams after `AAA` refused `P1` and `BBB` accepted `P2`. */
  function AfterRefuseThenAccept(): (teams: map<Trigram, Team>)
    ensures LoopReady(["AAA", "BBB"], teams)
    ensures Decided(["AAA", "BBB"], teams, 0) == [false, true]
  {
    var t := TwoTeams();
    var t' := t["AAA" := Reject(t["AAA"], 0, "P1")];
    t'["BBB" := Accept(t'["BBB"], 0, "P2")]
  }

  /** Two runs that end the same way: drawn with the same teams, or failed with the same error. */
  predicate SameOutcome(a: DrawRun, b: DrawRun) {
    a.Drawn? == b.Drawn? && a.DrawFailed? == b.DrawFailed? &&
    (a.Drawn? ==> a.teams == b.teams) && (a.DrawFailed? ==> a.error == b.error)
  }

  /**
    The undecided team under the cursor submits `pb` and answers `b`: the loop
    goes on from the next cursor position with that one decision recorded.
   */
  lemma ServeTurn(policy: Policy, rnd: Round, order: seq<Trigram>, teams: map<Trigram, Team>, current: nat, pb: Problem, b: bool, rest: seq<Event>)
    requires LoopReady(order, teams) && policy.roundBound
    requires current < |order| && teams[order[current]].accepted.Get(rnd).None?
    ensures var team := teams[order[current]];
      var teams' := teams[order[current] := if !policy.decideOnValue || b then Accept(team, rnd, pb) else Reject(team, rnd, pb)];
      LoopReady(order, teams') &&
      SameOutcome(DrawLoop(policy, rnd, order, teams, current, [Event(order[current], StrV(pb)), Event(order[current], BoolV(b))] + rest),
        DrawLoop(policy, rnd, order, teams', Advance(policy, current, |order|), rest))
  {
    var q := [Event(order[current], StrV(pb)), Event(order[current], BoolV(b))] + rest;
    var team := teams[order[current]];
    assert team.name == order[current];
    ServedUndecided(policy, Decided(order, teams, rnd), current);
    TurnOnPair(policy, rnd, team, pb, b, rest);
    StepServes(policy, rnd, order, teams, current, q, current);
    assert q[2..] == rest;
  }

  /** The first two turns of the example, for any policy that reaches the answers and decides on their value. */
  lemma FirstTwoTurns(policy: Policy, rest: seq<Event>)
    requires policy.roundBound && policy.decideOnValue
    ensures SameOutcome(DrawLoop(policy, 0, ["AAA", "BBB"], TwoTeams(), 0, RefuseThenAccept() + rest),
      DrawLoop(policy, 0, ["AAA", "BBB"], AfterRefuseThenAccept(), Advance(policy, 1, 2), rest))
  {
    var order: seq<Trigram> := ["AAA", "BBB"];
    var t0 := TwoTeams();
    var second := [Event("BBB", StrV("P2")), Event("BBB", BoolV(true))];
    assert RefuseThenAccept() + rest == [Event("AAA", StrV("P1")), Event("AAA", BoolV(false))] + (second + rest);
    ServeTurn(policy, 0, order, t0, 0, "P1", false, second + rest);
    ServeTurn(policy, 0, order, t0["AAA" := Reject(t0["AAA"], 0, "P1")], 1, "P2", true, rest);
  }

  /**
    With only the cursor left as written, the cursor runs past the last team
    while `AAA`, which refused, is still undecided: `teams[current]` raises `IndexError`.
   */
  lemma CursorOverruns()
    ensures var r := DrawLoop(Policy(true, true, true, true, false), 0, ["AAA", "BBB"], TwoTeams(), 0, RefuseThenAccept());
      r.DrawFailed? && r.error == IndexError
  {
    var policy := Policy(true, true, true, true, false);
    FirstTwoTurns(policy, []);
    assert RefuseThenAccept() + [] == RefuseThenAccept();
    assert ScanForward([false, true], 2) == None;
    assert DrawLoop(policy, 0, ["AAA", "BBB"], AfterRefuseThenAccept(), 2, []) == DrawFailed(IndexError, []);
  }

  /** The teams after `AAA`, served again, accepted `P3`. */
  function AfterWrap(): (teams: map<Trigram, Team>)
    ensures LoopReady(["AAA", "BBB"], teams) && "AAA" in teams && "BBB" in teams
    ensures Decided(["AAA", "BBB"], teams, 0) == [true, true]
    ensures teams["AAA"].accepted.Get(0) == Some("P3") && teams["AAA"].rejected.Get(0) == {"P1"}
    ensures teams["BBB"].accepted.Get(0) == Some("P2")
  {
    var t := AfterRefuseThenAccept();
    t["AAA" := Accept(t["AAA"], 0, "P3")]
  }

  /** Once every team of the pool has accepted, the loop ends without consuming anything. */
  lemma DrawLoopEnds(policy: Policy, rnd: Round, order: seq<Trigram>, teams: map<Trigram, Team>, current: nat, q: seq<Event>)
    requires LoopReady(order, teams)
    requires current <= |order| && (policy.wrapCursor && |order| > 0 ==> current < |order|)
    requires forall i :: 0 <= i < |order| ==> teams[order[i]].accepted.Get(rnd).Some?
    ensures DrawLoop(policy, rnd, order, teams, current, q) == Drawn(teams, 0, [])
  {
  }

  /** With the cursor wrapping round, `AAA` is served again and the pool is drawn. */
  lemma CursorWrapsToRefuser()
    ensures var q := RefuseThenAccept() + [Event("AAA", StrV("P3")), Event("AAA", BoolV(true))];
      var r := DrawLoop(Intended, 0, ["AAA", "BBB"], TwoTeams(), 0, q);
      r.Drawn? && r.teams == AfterWrap()
  {
    var last := [Event("AAA", StrV("P3")), Event("AAA", BoolV(true))];
    FirstTwoTurns(Intended, last);
    assert last == last + [];
    ServeTurn(Intended, 0, ["AAA", "BBB"], AfterRefuseThenAccept(), 0, "P3", true, []);
    DrawLoopEnds(Intended, 0, ["AAA", "BBB"], AfterWrap(), 1, []);
  }

  // ---------------------------------------------------------------- draw_poule

  /** What `draw_order` did: the order, or it waits, or it raises. */
  datatype OrderRun =
    | Ordered(order: seq<Trigram>, used: nat, hooks: seq<Hook>)
    | OrderStuck(hooks: seq<Hook>)
    | OrderFailed(error: Crash, hooks: seq<Hook>)

  /** Two lists with the same elements counted with multiplicity hold the same elements. */
  lemma SameElements(a: seq<Trigram>, b: seq<Trigram>)
    requires multiset(a) == multiset(b)
    ensures forall i :: 0 <= i < |a| ==> a[i] in b
  {
    forall i | 0 <= i < |a|
      ensures a[i] in b
    {
      assert a[i] in multiset(a);
    }
  }

  /** `draw_order(pool)`: the pool's members roll, then the teams are sorted by decreasing roll. */
  function PoolOrder(policy: Policy, all: seq<Trigram>, pool: PoolEntry, q: seq<Event>): (r: OrderRun)
    requires forall i :: 0 <= i < |pool.members| ==> pool.members[i] in all
    ensures r.Ordered? ==> r.used <= |q|
    ensures r.Ordered? ==> forall i :: 0 <= i < |r.order| ==> r.order[i] in all
    ensures r.Ordered? ==> forall i :: 0 <= i < |pool.members| ==> pool.members[i] in r.order
    ensures r.Ordered? && policy.poolOnly ==> multiset(r.order) == multiset(pool.members)
    ensures r.OrderFailed? ==> r.error.KeyError? && (policy.poolOnly ==> r.error.key !in pool.members)
  {
    var h0 := [StartDrawOrder(pool.pool)];
    match RollDice(policy, Elements(pool.members), q)
    case DiceStuck(h) => OrderStuck(h0 + h)
    case UnknownTeam(t, h) => OrderFailed(KeyError(t), h0 + h)
    case Rolled(d, u, h1) =>
      if policy.poolOnly then
        var order := DrawOrder(pool.members, d);
        SameElements(order, pool.members);
        SameElements(pool.members, order);
        Ordered(order, u, h0 + h1 + [AnnonceDrawOrder(order)])
      else
        match DrawOrderAsWritten(all, d)
        case Failure(e) => OrderFailed(e, h0 + h1)
        case Success(order) =>
          SameElements(order, all);
          SameElements(all, order);
          Ordered(order, u, h0 + h1 + [AnnonceDrawOrder(order)])
  }

  /**
    `draw_poule(pool)`: the draw order is rolled, then the draw loop runs with
    the cursor at the first team.
   */
  function DrawPoule(policy: Policy, all: seq<Trigram>, teams: map<Trigram, Team>, pool: PoolEntry, q: seq<Event>): (r: DrawRun)
    requires LoopReady(all, teams)
    requires forall i :: 0 <= i < |pool.members| ==> pool.members[i] in all
    ensures r.Drawn? ==> r.used <= |q| && OnlyRoundDecisions(teams, r.teams, pool.pool.rnd)
    ensures r.Drawn? ==> forall i :: 0 <= i < |pool.members| ==> r.teams[pool.members[i]].accepted.Get(pool.pool.rnd).Some?
    ensures r.DrawFailed? && policy == Intended ==> r.error.KeyError? && r.error.key !in pool.members
  {
    match PoolOrder(policy, all, pool, q)
    case OrderStuck(h) => DrawStuck(h)
    case OrderFailed(e, h) => DrawFailed(e, h)
    case Ordered(order, u, h) =>
      DrawLoopOnlyDecides(policy, pool.pool.rnd, order, teams, 0, q[u..]);
      match DrawLoop(policy, pool.pool.rnd, order, teams, 0, q[u..])
      case Drawn(ts, u2, h2) => Drawn(ts, u + u2, h + h2 + [AnnoncePoule(pool.pool)])
      case DrawStuck(h2) => DrawStuck(h + h2)
      case DrawFailed(e, h2) => DrawFailed(e, h + h2)
  }
}

=== FILE: cyclic.dfy ===
/**
  The turn cursor of a draw: walking round a fixed list of teams from a start
  position and stopping at the first team that has not yet accepted a problem.
 */
module Cyclic {

  /** Some position of `decided` is still false. */
  predicate SomeUndecided(decided: seq<bool>) {
    exists i :: 0 <= i < |decided| && !decided[i]
  }

  /** A non-zero multiple of `n` is at least `n` away from zero. */
  lemma MultipleBounds(a: int, n: int)
    requires n >= 0
    ensures a >= 1 ==> a * n >= n
    ensures a <= -1 ==> a * n <= -n
  {
    if a >= 1 {
      assert a * n == (a - 1) * n + n;
    } else if a <= -1 {
      assert a * n == (a + 1) * n - n;
    }
  }

  /** Between `n` and `2 * n` the remainder by `n` is one subtraction. */
  lemma ModOnce(x: nat, n: nat)
    requires n <= x < 2 * n
    ensures x % n == x - n
  {
    var q, r := x / n, x % n;
    assert x == q * n + r && 0 <= r < n;
    assert (q - 1) * n == x - n - r;
    MultipleBounds(q - 1, n);
  }

  /** `x % n` for `x < 2 * n`, the only case a cursor step produces. */
  function Wrap(x: nat, n: nat): (r: nat)
    requires x < 2 * n
    ensures r < n && r == x % n
  {
    if x < n then x else ModOnce(x, n); x - n
  }

  /** Python's `(i + 1) % len(teams)`. */
  function Succ(i: nat, n: nat): (r: nat)
    requires i < n
    ensures r < n
  {
    Wrap(i + 1, n)
  }

  /** The position `j` steps after `start`, wrapping round. */
  function At(start: nat, j: nat, n: nat): nat
    requires start < n && j < n
  {
    Wrap(start + j, n)
  }

  /** Every position from `start` to `At(start, k - 1)` is decided. */
  predicate SkippedAllDecided(decided: seq<bool>, start: nat, k: nat)
    requires start < |decided| && k <= |decided|
  {
    forall j :: 0 <= j < k ==> decided[At(start, j, |decided|)]
  }

  /**
    How many steps past `start` (wrapping round) the first undecided position is.
    Every position skipped on the way is decided.
   */
  function FirstUndecidedOffset(decided: seq<bool>, start: nat): (k: nat)
    requires start < |decided|
    requires SomeUndecided(decided)
    ensures k < |decided|
    ensures !decided[At(start, k, |decided|)]
    ensures SkippedAllDecided(decided, start, k)
  {
    UndecidedOffsetExists(decided, start);
    ScanFrom(decided, start, 0)
  }

  /** An undecided position lies some number of steps past any start. */
  lemma UndecidedOffsetExists(decided: seq<bool>, start: nat)
    requires start < |decided|
    requires SomeUndecided(decided)
    ensures exists j :: 0 <= j < |decided| && !decided[At(start, j, |decided|)]
  {
    var n := |decided|;
    var i :| 0 <= i < n && !decided[i];
    var j := if i >= start then i - start else i + n - start;
    assert At(start, j, n) == i;
  }

  function ScanFrom(decided: seq<bool>, start: nat, k: nat): (r: nat)
    requires start < |decided| && k < |decided|
    requires exists j :: k <= j < |decided| && !decided[At(start, j, |decided|)]
    requires SkippedAllDecided(decided, start, k)
    ensures k <= r < |decided|
    ensures !decided[At(start, r, |decided|)]
    ensures SkippedAllDecided(decided, start, r)
    decreases |decided| - k
  {
    if !decided[At(start, k, |decided|)] then k else ScanFrom(decided, start, k + 1)
  }

  /** The first undecided position at or after `start`, wrapping round the end. */
  function FirstUndecided(decided: seq<bool>, start: nat): (i: nat)
    requires start < |decided|
    requires SomeUndecided(decided)
    ensures i < |decided| && !decided[i]
  {
    At(start, FirstUndecidedOffset(decided, start), |decided|)
  }

  /** An undecided start position is served at once. */
  lemma UndecidedStartServed(decided: seq<bool>, start: nat)
    requires start < |decided| && !decided[start]
    ensures SomeUndecided(decided) && FirstUndecided(decided, start) == start
  {
    var k := FirstUndecidedOffset(decided, start);
    assert At(start, 0, |decided|) == start;
  }

  /** A decided start position is skipped without anything else changing. */
  lemma SkipDecided(decided: seq<bool>, start: nat)
    requires start < |decided|
    requires SomeUndecided(decided)
    requires decided[start]
    ensures FirstUndecided(decided, start) == FirstUndecided(decided, Succ(start, |decided|))
  {
    var n := |decided|;
    var k := FirstUndecidedOffset(decided, start);
    var s1 := Succ(start, n);
    var k1 := FirstUndecidedOffset(decided, s1);
    assert k >= 1 by {
      assert At(start, 0, n) == start;
    }
    assert !decided[At(s1, k - 1, n)] by {
      assert At(s1, k - 1, n) == At(start, k, n);
    }
    assert forall j :: 0 <= j < k - 1 ==> decided[At(s1, j, n)] by {
      forall j | 0 <= j < k - 1
        ensures decided[At(s1, j, n)]
      {
        assert At(s1, j, n) == At(start, j + 1, n);
      }
    }
    assert k1 == k - 1;
  }

  /**
    Fairness: when the search starts just after `t` and comes back to `t`,
    every other team has decided.
   */
  lemma {:induction false} ServedAgainOnlyWhenAlone(decided: seq<bool>, t: nat)
    requires t < |decided|
    requires SomeUndecided(decided)
    requires FirstUndecided(decided, Succ(t, |decided|)) == t
    ensures forall j :: 0 <= j < |decided| && j != t ==> decided[j]
  {
    var n := |decided|;
    var start := Succ(t, n);
    var k := FirstUndecidedOffset(decided, start);
    assert k == n - 1;
    forall j | 0 <= j < n && j != t
      ensures decided[j]
    {
      var off := if j >= start then j - start else j + n - start;
      assert At(start, off, n) == j;
    }
  }

  /** How many forward steps lead from `t` to `j` round a circle of `n`: a full turn when `j == t`. */
  function Steps(t: nat, j: nat, n: nat): (k: nat)
    requires t < n && j < n
    ensures 1 <= k <= n
  {
    if j > t then j - t else j + n - t
  }

  /** Starting just after `t`, the position reached after `k` more steps is `k + 1` steps from `t`. */
  lemma StepsAt(t: nat, k: nat, n: nat)
    requires t < n && k < n
    ensures Steps(t, At(Succ(t, n), k, n), n) == k + 1
  {
    if t + 1 < n {
      assert Succ(t, n) == t + 1;
      if t + 1 + k >= n {
        ModOnce(t + 1 + k, n);
      }
    } else {
      assert Succ(t, n) == 0;
    }
  }

  /** Conversely, the position `Steps(t, j)` steps from `t` is `j`. */
  lemma AtSteps(t: nat, j: nat, n: nat)
    requires t < n && j < n
    ensures At(Succ(t, n), Steps(t, j, n) - 1, n) == j
  {
    if t + 1 < n {
      assert Succ(t, n) == t + 1;
      if j <= t {
        ModOnce(j + n, n);
      }
    } else {
      assert Succ(t, n) == 0;
    }
  }

  /**
    The next turn after `t` goes to the first undecided position going round
    from `t`: every position fewer steps away from `t` is decided.
   */
  lemma NextTurnSkipsOnlyDecided(decided: seq<bool>, t: nat)
    requires t < |decided| && SomeUndecided(decided)
    ensures var u := FirstUndecided(decided, Succ(t, |decided|));
      forall j :: 0 <= j < |decided| && Steps(t, j, |decided|) < Steps(t, u, |decided|) ==> decided[j]
  {
    var n := |decided|;
    var s := Succ(t, n);
    var k := FirstUndecidedOffset(decided, s);
    StepsAt(t, k, n);
    forall j | 0 <= j < n && Steps(t, j, n) < k + 1
      ensures decided[j]
    {
      AtSteps(t, j, n);
    }
  }
}

=== FILE: dev.dfy ===
/** Extension names for the `!reload` command of `src/cogs/dev.py`. */
module DevTools {
  import opened Wrappers

  /** `COGS_SHORTCUTS`, in its written order: a letter and the extension it stands for. */
  const Shortcuts: seq<(string, string)> := [
    ("d", "tirages"),
    ("e", "errors"),
    ("m", "misc"),
    ("t", "teams"),
    ("u", "src.utils"),
    ("v", "dev")
  ]

  /** `COGS_SHORTCUTS.get(name, name)`. */
  function Expand(name: string): (r: string)
    ensures (exists k :: 0 <= k < |Shortcuts| && Shortcuts[k].0 == name) ==> exists k :: 0 <= k < |Shortcuts| && Shortcuts[k] == (name, r)
    ensures (forall k :: 0 <= k < |Shortcuts| ==> Shortcuts[k].0 != name) ==> r == name
  {
    ExpandIn(Shortcuts, name)
  }

  function ExpandIn(table: seq<(string, string)>, name: string): (r: string)
    ensures (exists k :: 0 <= k < |table| && table[k].0 == name) ==> exists k :: 0 <= k < |table| && table[k] == (name, r)
    ensures (forall k :: 0 <= k < |table| ==> table[k].0 != name) ==> r == name
    decreases |table|
  {
    if |table| == 0 then name
    else if table[0].0 == name then table[0].1
    else
      var r := ExpandIn(table[1..], name);
      assert forall k :: 1 <= k < |table| ==> table[k] == table[1..][k - 1];
      r
  }

  /** `full_cog_name`: expand a shortcut, then put a name without `.` under `src.cogs`. */
  function FullCogName(name: string): (r: string)
    ensures '.' in r
  {
    var n := Expand(name);
    if '.' in n then n
    else
      assert "src.cogs."[3] == '.';
      "src.cogs." + n
  }

  /** Names that hold a `.` are not shortcuts. */
  lemma DottedNotShortcut(name: string)
    requires '.' in name
    ensures Expand(name) == name
  {
    forall k | 0 <= k < |Shortcuts|
      ensures Shortcuts[k].0 != name
    {
      assert '.' !in Shortcuts[k].0;
    }
  }

  /** A name with a `.` is used as it is. */
  lemma FullCogNameDotted(name: string)
    requires '.' in name
    ensures FullCogName(name) == name
  {
    DottedNotShortcut(name);
  }

  /** A name that is neither a shortcut nor dotted goes under `src.cogs`. */
  lemma FullCogNamePlain(name: string)
    requires '.' !in name && forall k :: 0 <= k < |Shortcuts| ==> Shortcuts[k].0 != name
    ensures FullCogName(name) == "src.cogs." + name
  {
  }

  /** Naming an extension twice gives the same name as once. */
  lemma FullCogNameIdempotent(name: string)
    ensures FullCogName(FullCogName(name)) == FullCogName(name)
  {
    FullCogNameDotted(FullCogName(name));
  }

  /** The shortcut letters are pairwise distinct and hold no `.`. */
  lemma ShortcutKeys()
    ensures forall i, j :: 0 <= i < j < |Shortcuts| ==> Shortcuts[i].0 != Shortcuts[j].0
    ensures forall i :: 0 <= i < |Shortcuts| ==> |Shortcuts[i].0| == 1 && Shortcuts[i].0[0] != '.'
  {
  }

  /** A shortcut letter is replaced by the name it stands for. */
  lemma ShortcutExpands(k: nat)
    requires k < |Shortcuts|
    ensures Expand(Shortcuts[k].0) == Shortcuts[k].1
  {
    ShortcutKeys();
  }

  /** Of the shortcut targets, only `src.utils` (for `u`) holds a `.`. */
  lemma DottedTargets(k: nat)
    requires k < |Shortcuts|
    ensures '.' in Shortcuts[k].1 <==> Shortcuts[k].0 == "u"
  {
    var v := Shortcuts[k].1;
    if k == 4 {
      assert v[3] == '.';
    } else {
      assert forall j :: 0 <= j < |v| ==> v[j] != '.';
    }
  }

  /** `u` names `src.utils` itself; every other letter names a cog. */
  lemma ShortcutNames(k: nat)
    requires k < |Shortcuts|
    ensures FullCogName(Shortcuts[k].0) == (if Shortcuts[k].0 == "u" then "src.utils" else "src.cogs." + Shortcuts[k].1)
  {
    ShortcutExpands(k);
    DottedTargets(k);
  }

  /** What `!reload` reloads: the whole bot, or these extensions in this order. */
  datatype Reload = ReloadBot | Extensions(names: seq<string>)

  /** `reload_cmd(name)`: no name reloads the bot, an empty name every shortcut target, any other name that one. */
  function ReloadTargets(name: Option<string>): (r: Reload)
    ensures name.None? <==> r == ReloadBot
    ensures name == Some("") ==> r == Extensions(seq(|Shortcuts|, k requires 0 <= k < |Shortcuts| => FullCogName(Shortcuts[k].1)))
    ensures name.Some? && name.value != "" ==> r == Extensions([FullCogName(name.value)])
    ensures r.Extensions? ==> forall k :: 0 <= k < |r.names| ==> '.' in r.names[k]
  {
    match name
    case None => ReloadBot
    case Some(n) =>
      if n == "" then Extensions(seq(|Shortcuts|, k requires 0 <= k < |Shortcuts| => FullCogName(Shortcuts[k].1)))
      else Extensions([FullCogName(n)])
  }

  /**
    `!reload ""` reloads one extension per shortcut, in the order of the
    table: the one reloading that shortcut's letter alone would reload, which
    is `src.utils` for `u` and the cog under `src.cogs` for every other letter.
   */
  lemma ReloadEverything()
    ensures ReloadTargets(Some("")).Extensions? && |ReloadTargets(Some("")).names| == |Shortcuts|
    ensures forall k :: 0 <= k < |Shortcuts| ==>
      ReloadTargets(Some("")).names[k] == ReloadTargets(Some(Shortcuts[k].0)).names[0]
    ensures forall k :: 0 <= k < |Shortcuts| ==>
      ReloadTargets(Some("")).names[k] == (if Shortcuts[k].0 == "u" then "src.utils" else "src.cogs." + Shortcuts[k].1)
  {
    forall k | 0 <= k < |Shortcuts|
      ensures ReloadTargets(Some("")).names[k] == ReloadTargets(Some(Shortcuts[k].0)).names[0]
      ensures ReloadTargets(Some("")).names[k] == (if Shortcuts[k].0 == "u" then "src.utils" else "src.cogs." + Shortcuts[k].1)
    {
      TargetNamedLikeLetter(k);
      ShortcutNames(k);
    }
  }

  /** Reloading a shortcut's target and reloading its letter name the same extension. */
  lemma TargetNamedLikeLetter(k: nat)
    requires k < |Shortcuts|
    ensures FullCogName(Shortcuts[k].1) == FullCogName(Shortcuts[k].0)
  {
    ShortcutNames(k);
    DottedTargets(k);
    ShortcutKeys();
    if Shortcuts[k].0 == "u" {
      FullCogNameDotted(Shortcuts[k].1);
    } else {
      FullCogNamePlain(Shortcuts[k].1);
    }
  }



  /** The extensions reloaded before the first failure, and the one that failed (the error is raised again). */
  datatype ReloadRun = ReloadRun(done: seq<string>, failed: Option<string>)

  /** The loop of `reload_cmd`: reload each name in turn, stopping at the first that fails. */
  function ReloadAll(names: seq<string>, fails: string -> bool): (r: ReloadRun)
    ensures |r.done| <= |names| && r.done == names[..|r.done|]
    ensures forall k :: 0 <= k < |r.done| ==> !fails(r.done[k])
    ensures r.failed.None? <==> |r.done| == |names|
    ensures r.failed.Some? ==> r.failed.value == names[|r.done|] && fails(r.failed.value)
    decreases |names|
  {
    if |names| == 0 then ReloadRun([], None)
    else if fails(names[0]) then ReloadRun([], Some(names[0]))
    else
      var rest := ReloadAll(names[1..], fails);
      ReloadRun([names[0]] + rest.done, rest.failed)
  }
}

=== FILE: dice.dfy ===
/**
  Validation of the argument of the `!dice` command (`TirageCog.dice` in
  `src/cogs/tirages.py`): the integer path of the parse, and the checks made
  before rolling a die outside a draw.
 */
module DiceCommand {
  import opened Wrappers
  import opened Digits

  /** The largest number of decimal digits a die may have outside a draw. */
  const MaxDigits: nat := 1900

  /** The base `int(n, base)` is called with: a `0x`, `0b` or `0o` prefix selects 16, 2 or 8, anything else 10. */
  function BaseOf(s: string): (b: nat)
    ensures b in {2, 8, 10, 16}
    ensures b != 10 <==> |s| >= 2 && s[0] == '0' && s[1] in {'x', 'b', 'o'}
  {
    if |s| >= 2 && s[..2] == "0x" then 16
    else if |s| >= 2 && s[..2] == "0b" then 2
    else if |s| >= 2 && s[..2] == "0o" then 8
    else 10
  }

  /** A non-empty string of digits of `base`. */
  predicate DigitRun(s: string, base: nat) {
    |s| > 0 && AllDigitsIn(s, base)
  }

  /**
    `int(s, base)` with the base `BaseOf` chose: after a prefix, a non-empty
    run of digits of that base; in base 10, an optional sign and a non-empty
    run of decimal digits. `None` stands for the `ValueError`.
   */
  function ParseInt(s: string): (r: Option<int>)
    ensures BaseOf(s) != 10 ==> (r.Some? <==> DigitRun(s[2..], BaseOf(s)))
    ensures BaseOf(s) == 10 && |s| > 0 && s[0] in {'-', '+'} ==> (r.Some? <==> DigitRun(s[1..], 10))
    ensures BaseOf(s) == 10 && (|s| == 0 || s[0] !in {'-', '+'}) ==> (r.Some? <==> DigitRun(s, 10))
    ensures r.Some? && BaseOf(s) != 10 ==> r.value >= 0
    ensures r.Some? && s[0] == '-' ==> r.value <= 0
    ensures r.Some? && s[0] == '+' ==> r.value >= 0
  {
    var base := BaseOf(s);
    if base != 10 then
      (if DigitRun(s[2..], base) then Some(ParseDigits(s[2..], base) as int) else None)
    else if |s| > 0 && s[0] == '-' then
      (if DigitRun(s[1..], 10) then Some(-(ParseDigits(s[1..], 10) as int)) else None)
    else if |s| > 0 && s[0] == '+' then
      (if DigitRun(s[1..], 10) then Some(ParseDigits(s[1..], 10) as int) else None)
    else
      (if DigitRun(s, 10) then Some(ParseDigits(s, 10) as int) else None)
  }

  /** What the command answers. */
  datatype Reply =
    | NoFaces          // empty argument
    | FloatFallback    // not an integer: the float parse decides
    | ToDraw(n: int)   // inside a draw: the number goes to the draw unchecked
    | ZeroFaces        // n == 0
    | Antimatter       // n < 0
    | TooBig           // more than 1900 decimal digits
    | Roll(faces: int) // `random.randint(1, faces)`

  /** `TirageCog.dice(ctx, n)`, where `inDraw` says whether the channel holds a draw. */
  function Dice(s: string, inDraw: bool): (r: Reply)
    ensures r == NoFaces <==> |s| == 0
    ensures r == FloatFallback <==> |s| > 0 && ParseInt(s).None?
    ensures r.ToDraw? <==> |s| > 0 && ParseInt(s).Some? && inDraw
    ensures r.ToDraw? ==> Some(r.n) == ParseInt(s)
    ensures r.Roll? ==> !inDraw && Some(r.faces) == ParseInt(s) && 1 <= r.faces && DecimalLength(r.faces) <= MaxDigits
  {
    if |s| == 0 then NoFaces
    else match ParseInt(s)
      case None => FloatFallback
      case Some(n) =>
        if inDraw then ToDraw(n)
        else if n == 0 then ZeroFaces
        else if n < 1 then Antimatter
        else if |IntToString(n)| > MaxDigits then TooBig
        else Roll(n)
  }

  /** Outside a draw, a parsed positive number is refused as too big exactly when it is at least 10^1900. */
  lemma TooBigExactly(s: string)
    requires ParseInt(s).Some? && ParseInt(s).value >= 1
    ensures Dice(s, false) == TooBig <==> ParseInt(s).value >= Pow10(MaxDigits)
    ensures Dice(s, false) != TooBig ==> Dice(s, false) == Roll(ParseInt(s).value)
  {
    DecimalLengthAbove(ParseInt(s).value, MaxDigits);
  }

  /** Outside a draw, zero and negative numbers are refused, each with its own message. */
  lemma NonPositiveRefused(s: string)
    requires ParseInt(s).Some? && ParseInt(s).value <= 0
    ensures Dice(s, false) == (if ParseInt(s).value == 0 then ZeroFaces else Antimatter)
  {
  }

  /** The decimal form of a number has no base prefix. */
  lemma DecimalHasNoPrefix(i: int)
    ensures BaseOf(IntToString(i)) == 10
  {
    var s := IntToString(i);
    if i >= 0 && |s| >= 2 {
      assert s[1] == ToDigits(i, 10)[1];
      assert IsDigitIn(s[1], 10);
    }
  }

  /** `int(str(i))` is `i`: what Python prints for an integer parses back to it. */
  lemma DecimalRoundTrip(i: int)
    ensures ParseInt(IntToString(i)) == Some(i)
  {
    DecimalHasNoPrefix(i);
    var s := IntToString(i);
    if i < 0 {
      var d := ToDigits(-i, 10);
      ParseToDigits(-i, 10);
      assert s == "-" + d && s[1..] == d;
      assert DigitRun(d, 10);
    } else {
      var d := ToDigits(i, 10);
      ParseToDigits(i, 10);
      assert s == d && DigitRun(d, 10);
      assert IsDigitIn(s[0], 10);
    }
  }

  /** A base prefix followed by the digits of `n` in that base parses back to `n`. */
  lemma PrefixedRoundTrip(n: nat, letter: char, base: nat)
    requires (letter, base) in {('x', 16), ('b', 2), ('o', 8)}
    ensures ParseInt(['0', letter] + ToDigits(n, base)) == Some(n)
  {
    var s := ['0', letter] + ToDigits(n, base);
    assert s[..2] == ['0', letter];
    assert s[2..] == ToDigits(n, base);
    ParseToDigits(n, base);
  }
}

=== FILE: digits.dfy ===
/**
  Python's `str(n)` for integers and `int(s, base)` for plain digit strings,
  in bases 2 to 16.
 */
module Digits {

  /** The value Python gives a digit character: 0-9, then letters of either case from 10 on; 36 for anything else. */
  function CharValue(c: char): nat {
    if '0' <= c <= '9' then c as int - '0' as int
    else if 'a' <= c <= 'z' then c as int - 'a' as int + 10
    else if 'A' <= c <= 'Z' then c as int - 'A' as int + 10
    else 36
  }

  /** The lower-case character for digit `d`. */
  function DigitChar(d: nat): (c: char)
    requires d < 16
    ensures CharValue(c) == d
  {
    if d < 10 then ('0' as int + d) as char else ('a' as int + d - 10) as char
  }

  predicate IsDigitIn(c: char, base: nat) {
    CharValue(c) < base
  }

  /** Every character of `s` is a digit of `base`. */
  predicate AllDigitsIn(s: string, base: nat) {
    forall i :: 0 <= i < |s| ==> IsDigitIn(s[i], base)
  }

  /** The value of a digit string, most significant digit first (leading zeros allowed). */
  function ParseDigits(s: string, base: nat): nat
    requires AllDigitsIn(s, base)
    decreases |s|
  {
    if |s| == 0 then 0
    else ParseDigits(s[..|s| - 1], base) * base + CharValue(s[|s| - 1])
  }

  /** The shortest digit string of `n` in `base` ("0" for zero). */
  function ToDigits(n: nat, base: nat): (s: string)
    requires 2 <= base <= 16
    ensures |s| > 0 && AllDigitsIn(s, base)
    decreases n
  {
    if n < base then [DigitChar(n)]
    else
      DivModBounds(n, base);
      ToDigits(n / base, base) + [DigitChar(n % base)]
  }

  lemma DivModBounds(n: nat, base: nat)
    requires 2 <= base <= n
    ensures n % base < base && 0 < n / base < n
    ensures n == (n / base) * base + n % base
  {
    var q, r := n / base, n % base;
    assert n == q * base + r && 0 <= r < base;
    QuotientPositive(q, r, base, n);
    MulAtLeastDouble(q, base);
  }

  lemma QuotientPositive(q: int, r: int, base: int, n: int)
    requires n == q * base + r && 0 <= r < base <= n && q >= 0
    ensures q >= 1
  {
  }

  lemma MulAtLeastDouble(q: int, base: int)
    requires q >= 1 && base >= 2
    ensures q * base >= 2 * q
  {
    assert q * base == q * 2 + q * (base - 2);
  }

  /** Python's `str(i)` for an int. */
  function IntToString(i: int): string {
    if i < 0 then "-" + ToDigits(-i, 10) else ToDigits(i, 10)
  }

  /** Parsing the printed digits gives the number back. */
  lemma {:induction false} ParseToDigits(n: nat, base: nat)
    requires 2 <= base <= 16
    ensures ParseDigits(ToDigits(n, base), base) == n
    decreases n
  {
    if n >= base {
      var q, r := n / base, n % base;
      DivModBounds(n, base);
      ParseToDigits(q, base);
      ParseDigitsSnoc(ToDigits(q, base), DigitChar(r), base);
    }
  }

  /** One more digit at the end multiplies the value by the base and adds the digit. */
  lemma ParseDigitsSnoc(s: string, c: char, base: nat)
    requires AllDigitsIn(s, base) && IsDigitIn(c, base)
    ensures AllDigitsIn(s + [c], base)
    ensures ParseDigits(s + [c], base) == ParseDigits(s, base) * base + CharValue(c)
  {
    assert (s + [c])[..|s|] == s;
  }

  /** Number of decimal digits of a positive number: `len(str(n))`. */
  function DecimalLength(n: nat): nat {
    |ToDigits(n, 10)|
  }

  /** A number has `k` decimal digits exactly when it lies in [10^(k-1), 10^k). */
  lemma {:induction false} DecimalLengthBounds(n: nat)
    requires n >= 1
    ensures Pow10(DecimalLength(n) - 1) <= n < Pow10(DecimalLength(n))
    decreases n
  {
    if n >= 10 {
      DecimalLengthBounds(n / 10);
      assert DecimalLength(n) == DecimalLength(n / 10) + 1;
    }
  }

  function Pow10(k: nat): (p: nat)
    ensures p >= 1
  {
    if k == 0 then 1 else 10 * Pow10(k - 1)
  }

  /** More digits never mean a smaller number: `len(str(n))` is monotone. */
  lemma {:induction false} DecimalLengthMonotone(n: nat, m: nat)
    requires n <= m
    ensures DecimalLength(n) <= DecimalLength(m)
    decreases m
  {
    if n >= 10 {
      DecimalLengthMonotone(n / 10, m / 10);
    } else if m >= 10 {
      assert DecimalLength(m) == DecimalLength(m / 10) + 1;
    }
  }

  /** Powers of ten grow with the exponent. */
  lemma {:induction false} Pow10Monotone(j: nat, k: nat)
    requires j <= k
    ensures Pow10(j) <= Pow10(k)
    decreases k
  {
    if j < k {
      Pow10Monotone(j, k - 1);
    }
  }

  /** A positive number has more than `k` decimal digits exactly when it is at least 10^k. */
  lemma DecimalLengthAbove(n: nat, k: nat)
    requires n >= 1
    ensures DecimalLength(n) > k <==> n >= Pow10(k)
  {
    DecimalLengthBounds(n);
    var l := DecimalLength(n);
    if l > k {
      Pow10Monotone(k, l - 1);
    } else {
      Pow10Monotone(l, k);
    }
  }
}

=== FILE: errors.dfy ===
/**
  Error dispatch of `src/cogs/errors.py`. Exception classes are named by
  strings; a class hierarchy is given by the method resolution order of the
  error's class. A handler is an opaque value `H`, and what a handler returns
  for the error at hand is the parameter `run`.
 */
module ErrorDispatch {
  import opened Wrappers

  /** `@handles(error_type)`: register `h`, replacing any handler of that exact type. */
  function Handles<H>(handlers: map<string, H>, errorType: string, h: H): (r: map<string, H>)
    ensures errorType in r && r[errorType] == h
    ensures forall t :: t != errorType ==> (t in r <==> t in handlers) && (t in handlers ==> r[t] == handlers[t])
  {
    handlers[errorType := h]
  }

  /** Registering twice for the same type keeps the later handler. */
  lemma LaterRegistrationWins<H>(handlers: map<string, H>, errorType: string, h1: H, h2: H)
    ensures Handles(Handles(handlers, errorType, h1), errorType, h2) == Handles(handlers, errorType, h2)
  {
  }

  /** The position in the MRO of the first class with a registered handler. */
  function FirstRegistered<H>(handlers: map<string, H>, mro: seq<string>): (r: Option<nat>)
    ensures r.Some? ==> r.value < |mro| && mro[r.value] in handlers && forall j :: 0 <= j < r.value ==> mro[j] !in handlers
    ensures r.None? <==> forall j :: 0 <= j < |mro| ==> mro[j] !in handlers
    decreases |mro|
  {
    if |mro| == 0 then None
    else if mro[0] in handlers then Some(0)
    else match FirstRegistered(handlers, mro[1..])
      case None => None
      case Some(j) => Some(j + 1)
  }

  /** A handler's value: a message, or `None`. */
  type Reply = Option<string>

  /** `if msg:` — a message is sent only when it is a non-empty string. */
  predicate Truthy(msg: Reply) {
    msg.Some? && |msg.value| > 0
  }

  /** What `on_command_error` does: send a message, or nothing. */
  datatype Sent = Send(msg: string) | Quiet

  /**
    `on_command_error`: the handler of the first class of the MRO that has
    one, or `repr(error)` when none has; the result is sent when truthy.
   */
  function OnCommandError<H>(handlers: map<string, H>, mro: seq<string>, repr: string, run: H -> Reply): (r: Sent)
    ensures FirstRegistered(handlers, mro).None? ==> r == (if |repr| > 0 then Send(repr) else Quiet)
    ensures r.Send? <==> Truthy(if FirstRegistered(handlers, mro).None? then Some(repr) else run(handlers[mro[FirstRegistered(handlers, mro).value]]))
  {
    var msg := match FirstRegistered(handlers, mro)
      case None => Some(repr)
      case Some(i) => run(handlers[mro[i]]);
    if Truthy(msg) then Send(msg.value) else Quiet
  }

  /** A handler registered for a class is used for every error whose MRO reaches that class before any other registered one. */
  lemma HandlerOfNearestClass<H>(handlers: map<string, H>, mro: seq<string>, repr: string, run: H -> Reply, i: nat)
    requires i < |mro| && mro[i] in handlers && forall j :: 0 <= j < i ==> mro[j] !in handlers
    ensures OnCommandError(handlers, mro, repr, run) == (if Truthy(run(handlers[mro[i]])) then Send(run(handlers[mro[i]]).value) else Quiet)
  {
    assert FirstRegistered(handlers, mro) == Some(i);
  }

  /** What `on_command_invoke_error` returns. */
  datatype InvokeReply = Delegated(handler: string) | Report(msg: string)

  /**
    `on_command_invoke_error`: the handler registered for the exact class of
    the original exception, if any; otherwise `"<Class>: <text>"`, the text
    being `str(original)`, or `str(error)` when that is empty.
   */
  function OnCommandInvokeError<H>(handlers: map<string, H>, originalClass: string, originalText: string, errorText: string): (r: InvokeReply)
    ensures r.Delegated? <==> originalClass in handlers
    ensures r.Delegated? ==> r.handler == originalClass
    ensures r.Report? ==> r.msg == originalClass + ": " + (if |originalText| > 0 then originalText else errorText)
  {
    if originalClass in handlers then Delegated(originalClass)
    else Report(originalClass + ": " + (if |originalText| > 0 then originalText else errorText))
  }

  /** Only the exact class counts: handlers of its base classes are not consulted. */
  lemma InvokeErrorIgnoresBases<H>(handlers: map<string, H>, base: string, h: H, originalClass: string, originalText: string, errorText: string)
    requires base != originalClass
    ensures OnCommandInvokeError(Handles(handlers, base, h), originalClass, originalText, errorText) ==
      OnCommandInvokeError(handlers, originalClass, originalText, errorText)
  {
  }

  /** The first position of `c` in `s`. */
  function IndexOf(s: string, c: char): (r: Option<nat>)
    ensures r.Some? ==> r.value < |s| && s[r.value] == c && c !in s[..r.value]
    ensures r.None? <==> c !in s
    decreases |s|
  {
    if |s| == 0 then None
    else if s[0] == c then Some(0)
    else match IndexOf(s[1..], c)
      case None => None
      case Some(i) =>
        assert s[..i + 1] == [s[0]] + s[1..][..i];
        Some(i + 1)
  }

  /** The last position of `c` in `s`. */
  function LastIndexOf(s: string, c: char): (r: Option<nat>)
    ensures r.Some? ==> r.value < |s| && s[r.value] == c && c !in s[r.value + 1..]
    ensures r.None? <==> c !in s
    decreases |s|
  {
    if |s| == 0 then None
    else if s[|s| - 1] == c then Some(|s| - 1)
    else match LastIndexOf(s[..|s| - 1], c)
      case None => None
      case Some(i) =>
        assert s[i + 1..] == s[..|s| - 1][i + 1..] + [s[|s| - 1]];
        Some(i)
  }

  /** `s.partition(sep)[2]`: what follows the first `sep`, or `""` when there is none. */
  function AfterFirst(s: string, c: char): (r: string)
    ensures c in s ==> |r| < |s| && s == s[..|s| - |r| - 1] + [c] + r && c !in s[..|s| - |r| - 1]
    ensures c !in s ==> r == ""
  {
    match IndexOf(s, c)
    case None => ""
    case Some(i) =>
      assert s == s[..i] + [c] + s[i + 1..];
      s[i + 1..]
  }

  /** `s.rpartition(sep)[0]`: what precedes the last `sep`, or `""` when there is none. */
  function BeforeLast(s: string, c: char): (r: string)
    ensures c in s ==> |r| < |s| && s == r + [c] + s[|r| + 1..] && c !in s[|r| + 1..]
    ensures c !in s ==> r == ""
  {
    match LastIndexOf(s, c)
    case None => ""
    case Some(i) =>
      assert s == s[..i] + [c] + s[i + 1..];
      s[..i]
  }

  /** `on_command_not_found`'s name: between the first and the last `"` of the message. */
  function NotFoundName(message: string): (r: string)
    ensures r != "" ==> r + ['"'] <= AfterFirst(message, '"') && |r| + 2 <= |message|
  {
    BeforeLast(AfterFirst(message, '"'), '"')
  }


  /** With fewer than two quotes, the name is empty. */
  lemma NotFoundNameNeedsTwoQuotes(message: string)
    requires forall i, j :: 0 <= i < j < |message| ==> !(message[i] == '"' && message[j] == '"')
    ensures NotFoundName(message) == ""
  {
  }

  /** The first `c` is the one right after a prefix without `c`. */
  lemma IndexOfAfter(prefix: string, rest: string, c: char)
    requires c !in prefix && |rest| > 0 && rest[0] == c
    ensures IndexOf(prefix + rest, c) == Some(|prefix|)
  {
    var m := prefix + rest;
    assert m[|prefix|] == c;
    assert m[..|prefix|] == prefix;
  }

  /** The last `c` is the one right before a suffix without `c`. */
  lemma LastIndexOfBefore(front: string, suffix: string, c: char)
    requires c !in suffix && |front| > 0 && front[|front| - 1] == c
    ensures LastIndexOf(front + suffix, c) == Some(|front| - 1)
  {
    var m := front + suffix;
    assert m[|front| - 1] == c;
    assert m[|front|..] == suffix;
  }

  /** Between a prefix and a suffix without quotes, the quoted name comes back whole, whatever quotes it holds. */
  lemma NotFoundNameBetween(prefix: string, name: string, suffix: string)
    requires '"' !in prefix && '"' !in suffix
    ensures NotFoundName(prefix + ['"'] + name + ['"'] + suffix) == name
  {
    var a := name + ['"'] + suffix;
    assert prefix + ['"'] + name + ['"'] + suffix == prefix + (['"'] + a);
    IndexOfAfter(prefix, ['"'] + a, '"');
    assert (prefix + (['"'] + a))[|prefix| + 1..] == a;
    assert a == (name + ['"']) + suffix;
    LastIndexOfBefore(name + ['"'], suffix, '"');
    assert a[..|name|] == name;
  }

  /** The message `Command "NAME" is not found` gives `NAME` back. */
  lemma NotFoundNameOfMessage(name: string)
    ensures NotFoundName("Command \"" + name + "\" is not found") == name
  {
    var prefix := "Command ";
    var suffix := " is not found";
    assert "Command \"" + name + "\" is not found" == prefix + ['"'] + name + ['"'] + suffix;
    assert forall j :: 0 <= j < |prefix| ==> prefix[j] != '"';
    assert forall j :: 0 <= j < |suffix| ==> suffix[j] != '"';
    NotFoundNameBetween(prefix, name, suffix);
  }
}

=== FILE: misc.dfy ===
/**
  The pure parts of `src/cogs/misc.py`: the hug log line and its parser, the
  heart shown for a statistic, the hug score and the hug filters, and the
  like/dislike sets and leaderboard of jokes.

  Member ids are integers. Whether an id designates a member (`ris`, which
  also looks at roles) is the parameter `eq`.
 */
module Misc {
  import opened Wrappers
  import opened Seqs
  import opened Sorting
  import opened Digits
  import opened Text

  // ---------------------------------------------------------------- hug lines

  /** A hug: who gave it, who received it, and the message. */
  datatype Hug = Hug(hugger: int, hugged: int, text: string)

  /** `repr(hug)`: `"<hugger> -> <hugged> | <text>"`. */
  function Repr(h: Hug): (r: string)
    ensures |r| > |h.text| && r[|r| - |h.text|..] == h.text
    ensures h.hugger >= 0 ==> IsDigitIn(r[0], 10)
  {
    IntToString(h.hugger) + " -> " + IntToString(h.hugged) + " | " + h.text
  }

  /** A non-empty run of ASCII decimal digits (`\d+`). */
  predicate DigitRun(s: string) {
    |s| > 0 && AllDigitsIn(s, 10)
  }

  /** Length of the run of decimal digits that starts `s`. */
  function DigitCount(s: string): (n: nat)
    ensures n <= |s| && forall k :: 0 <= k < n ==> IsDigitIn(s[k], 10)
    ensures n < |s| ==> !IsDigitIn(s[n], 10)
    decreases |s|
  {
    if |s| > 0 && IsDigitIn(s[0], 10) then 1 + DigitCount(s[1..]) else 0
  }

  /** `s` split after its longest run of leading decimal digits. */
  function SplitDigits(s: string): (r: (string, string))
    ensures s == r.0 + r.1 && AllDigitsIn(r.0, 10)
    ensures |r.1| > 0 ==> !IsDigitIn(r.1[0], 10)
  {
    var n := DigitCount(s);
    assert s == s[..n] + s[n..];
    (s[..n], s[n..])
  }

  /** What follows `prefix` in `s`, when `s` starts with it. */
  function DropPrefix(s: string, prefix: string): (r: Option<string>)
    ensures r.Some? ==> s == prefix + r.value
    ensures r.None? ==> forall t :: s != prefix + t
  {
    if |prefix| <= |s| && s[..|prefix|] == prefix then
      assert s == s[..|prefix|] + s[|prefix|..];
      Some(s[|prefix|..])
    else
      assert forall t :: (prefix + t)[..|prefix|] == prefix;
      None
  }

  /** The line feed `$` lets through at the very end. */
  function Newline(b: bool): string {
    if b then "\n" else ""
  }

  /**
    What `(?P<text>.*)$` captures from the rest of the line: `.` stops at a
    line feed, and `$` matches at the end or just before a final line feed.
   */
  function TextOf(rest: string): (r: Option<string>)
    ensures r.Some? ==> '\n' !in r.value && (rest == r.value || rest == r.value + "\n")
  {
    if '\n' !in rest then Some(rest)
    else if |rest| > 0 && rest[|rest| - 1] == '\n' && '\n' !in rest[..|rest| - 1] then
      assert rest == rest[..|rest| - 1] + "\n";
      Some(rest[..|rest| - 1])
    else None
  }

  /** `Hug.from_str(line)`: `HUG_RE.match` and the `int` conversions; `None` is the `ValueError`. */
  function FromStr(line: string): (r: Option<Hug>)
    ensures r.Some? ==> r.value.hugger >= 0 && r.value.hugged >= 0 && '\n' !in r.value.text
    ensures |line| == 0 ==> r.None?
  {
    var p1 := SplitDigits(line);
    if |p1.0| == 0 then None
    else match DropPrefix(p1.1, " -> ")
      case None => None
      case Some(r2) =>
        var p2 := SplitDigits(r2);
        if |p2.0| == 0 then None
        else match DropPrefix(p2.1, " | ")
          case None => None
          case Some(r4) =>
            match TextOf(r4)
            case None => None
            case Some(t) => Some(Hug(ParseDigits(p1.0, 10), ParseDigits(p2.0, 10), t))
  }

  /** The shape `HUG_RE` accepts: digits, `" -> "`, digits, `" | "`, a text without line feed, and maybe one final line feed. */
  function Compose(d1: string, d2: string, text: string, newline: bool): string {
    d1 + (" -> " + (d2 + (" | " + (text + Newline(newline)))))
  }

  /** The digit run at the start of `d + rest` is `d` when `rest` starts with a non-digit. */
  lemma {:induction false} SplitDigitsOf(d: string, rest: string)
    requires AllDigitsIn(d, 10) && |rest| > 0 && !IsDigitIn(rest[0], 10)
    ensures SplitDigits(d + rest) == (d, rest)
  {
    DigitCountOf(d, rest);
    assert (d + rest)[..|d|] == d && (d + rest)[|d|..] == rest;
  }

  lemma {:induction false} DigitCountOf(d: string, rest: string)
    requires AllDigitsIn(d, 10) && |rest| > 0 && !IsDigitIn(rest[0], 10)
    ensures DigitCount(d + rest) == |d|
    decreases |d|
  {
    if |d| == 0 {
      assert d + rest == rest;
    } else {
      assert (d + rest)[1..] == d[1..] + rest;
      DigitCountOf(d[1..], rest);
    }
  }

  /** What follows a prefix is found again. */
  lemma DropPrefixOf(prefix: string, rest: string)
    ensures DropPrefix(prefix + rest, prefix) == Some(rest)
  {
    assert (prefix + rest)[..|prefix|] == prefix;
    assert (prefix + rest)[|prefix|..] == rest;
  }

  /** A text without line feed, with or without a final line feed, is captured whole. */
  lemma TextOfLine(text: string, newline: bool)
    requires '\n' !in text
    ensures TextOf(text + Newline(newline)) == Some(text)
  {
    if newline {
      var tail := text + "\n";
      assert tail[|tail| - 1] == '\n' && tail[..|tail| - 1] == text;
      assert '\n' in tail;
    } else {
      assert text + "" == text;
    }
  }

  /** Every line of the accepted shape parses, to the values its digits spell. */
  lemma FromStrComplete(d1: string, d2: string, text: string, newline: bool)
    requires DigitRun(d1) && DigitRun(d2) && '\n' !in text
    ensures FromStr(Compose(d1, d2, text, newline)) == Some(Hug(ParseDigits(d1, 10), ParseDigits(d2, 10), text))
  {
    var tail := text + Newline(newline);
    var r4 := " | " + tail;
    var r2 := d2 + r4;
    var r1 := " -> " + r2;
    SplitDigitsOf(d1, r1);
    DropPrefixOf(" -> ", r2);
    SplitDigitsOf(d2, r4);
    DropPrefixOf(" | ", tail);
    TextOfLine(text, newline);
  }

  /** Every line that parses has the accepted shape, and the hug holds the values its digits spell. */
  lemma FromStrSound(line: string) returns (d1: string, d2: string, newline: bool)
    requires FromStr(line).Some?
    ensures DigitRun(d1) && DigitRun(d2) && '\n' !in FromStr(line).value.text
    ensures line == Compose(d1, d2, FromStr(line).value.text, newline)
    ensures FromStr(line).value.hugger == ParseDigits(d1, 10) && FromStr(line).value.hugged == ParseDigits(d2, 10)
  {
    var p1 := SplitDigits(line);
    var r2 := DropPrefix(p1.1, " -> ").value;
    var p2 := SplitDigits(r2);
    var r4 := DropPrefix(p2.1, " | ").value;
    var t := TextOf(r4).value;
    d1, d2, newline := p1.0, p2.0, r4 != t;
    assert r4 == t + Newline(newline);
  }

  /** Parsing the printed form of a hug gives it back, with or without the line feed `add_hug` writes after it. */
  lemma ReprRoundTrip(h: Hug)
    requires h.hugger >= 0 && h.hugged >= 0 && '\n' !in h.text
    ensures FromStr(Repr(h)) == Some(h)
    ensures FromStr(Repr(h) + "\n") == Some(h)
  {
    var d1, d2 := ToDigits(h.hugger, 10), ToDigits(h.hugged, 10);
    ParseToDigits(h.hugger, 10);
    ParseToDigits(h.hugged, 10);
    assert Repr(h) == Compose(d1, d2, h.text, false);
    assert Repr(h) + "\n" == Compose(d1, d2, h.text, true);
    FromStrComplete(d1, d2, h.text, false);
    FromStrComplete(d1, d2, h.text, true);
  }

  /** `add_hug`: the hug joins the list, and the line appended to the file is its printed form. */
  function AddHug(hugs: seq<Hug>, hugger: int, hugged: int, text: string): (r: (seq<Hug>, string))
    ensures r.0 == hugs + [Hug(hugger, hugged, text)]
    ensures hugger >= 0 && hugged >= 0 && '\n' !in text ==> FromStr(r.1) == Some(Hug(hugger, hugged, text))
  {
    var h := Hug(hugger, hugged, text);
    var line := Repr(h) + "\n";
    assert hugger >= 0 && hugged >= 0 && '\n' !in text ==> FromStr(line) == Some(h) by {
      if hugger >= 0 && hugged >= 0 && '\n' !in text {
        ReprRoundTrip(h);
      }
    }
    (hugs + [h], line)
  }

  /** `[Hug.from_str(l) for l in lines]`: all hugs, or `None` for the `ValueError` of the first bad line. */
  function ParseHugs(lines: seq<string>): (r: Option<seq<Hug>>)
    ensures r.Some? <==> forall i :: 0 <= i < |lines| ==> FromStr(lines[i]).Some?
    ensures r.Some? ==> |r.value| == |lines| && forall i :: 0 <= i < |lines| ==> FromStr(lines[i]) == Some(r.value[i])
  {
    MapAll(lines, FromStr)
  }

  /** The printed form of each hug, in order. */
  function Reprs(hugs: seq<Hug>): (r: seq<string>)
    ensures |r| == |hugs| && forall i :: 0 <= i < |hugs| ==> r[i] == Repr(hugs[i])
  {
    seq(|hugs|, i requires 0 <= i < |hugs| => Repr(hugs[i]))
  }

  /** The printed lines of hugs, parsed one by one, give the same hugs back. */
  lemma ParseHugsRoundTrip(hugs: seq<Hug>)
    requires forall i :: 0 <= i < |hugs| ==> hugs[i].hugger >= 0 && hugs[i].hugged >= 0 && '\n' !in hugs[i].text
    ensures ParseHugs(Reprs(hugs)) == Some(hugs)
  {
    var lines := Reprs(hugs);
    forall i | 0 <= i < |hugs|
      ensures FromStr(lines[i]) == Some(hugs[i])
    {
      ReprRoundTrip(hugs[i]);
    }
    MapAllValues(lines, FromStr, hugs);
  }

  /** The hug file once `add_hug` has written each hug of `hugs`, in order. */
  function HugFile(hugs: seq<Hug>): string {
    Unlines(Reprs(hugs))
  }

  /** `add_hug` appends to the file exactly the line it writes, so the file lists the hugs in the order they were added. */
  lemma AddHugExtendsFile(hugs: seq<Hug>, hugger: int, hugged: int, text: string)
    ensures var r := AddHug(hugs, hugger, hugged, text);
      HugFile(r.0) == HugFile(hugs) + r.1
  {
    var h := Hug(hugger, hugged, text);
    assert Reprs(hugs + [h]) == Reprs(hugs) + [Repr(h)];
    UnlinesSnoc(Reprs(hugs), Repr(h));
  }

  /** `get_hugs`: the file text is stripped, split into lines, and each line parsed; a blank file holds no hugs. */
  function LoadHugs(text: string): (r: Option<seq<Hug>>)
    ensures (forall k :: 0 <= k < |text| ==> IsSpace(text[k])) ==> r == Some([])
    ensures r.Some? ==> var lines := SplitLines(Strip(text));
      |r.value| == |lines| && forall i :: 0 <= i < |lines| ==> FromStr(lines[i]) == Some(r.value[i])
  {
    ParseHugs(SplitLines(Strip(text)))
  }

  /** A printed hug holds a line break only where its message does, and starts with a digit. */
  lemma ReprShape(h: Hug)
    requires h.hugger >= 0 && OneLine(h.text)
    ensures OneLine(Repr(h)) && |Repr(h)| > 0 && !IsSpace(Repr(h)[0])
    ensures |h.text| > 0 ==> Repr(h)[|Repr(h)| - 1] == h.text[|h.text| - 1]
  {
    var d1 := IntToString(h.hugger);
    var d2 := IntToString(h.hugged);
    assert Repr(h) == d1 + " -> " + d2 + " | " + h.text;
    assert Repr(h)[0] == d1[0];
    assert forall j :: 0 <= j < |d2| ==> d2[j] == '-' || IsDigitIn(d2[j], 10);
  }

  /**
    Loading the file written by `add_hug` gives back the hugs it was written
    with, provided no message holds a line break and the last message ends
    with a visible character (`strip()` would otherwise remove its end).
   */
  lemma LoadHugsRoundTrip(hugs: seq<Hug>)
    requires forall i :: 0 <= i < |hugs| ==> hugs[i].hugger >= 0 && hugs[i].hugged >= 0 && OneLine(hugs[i].text)
    requires |hugs| > 0 ==> var t := hugs[|hugs| - 1].text; |t| > 0 && !IsSpace(t[|t| - 1])
    ensures LoadHugs(HugFile(hugs)) == Some(hugs)
  {
    HugLinesSplit(hugs);
    ParseHugsRoundTrip(hugs);
  }

  /** The lines `get_hugs` reads from the written file are the printed hugs. */
  lemma HugLinesSplit(hugs: seq<Hug>)
    requires forall i :: 0 <= i < |hugs| ==> hugs[i].hugger >= 0 && OneLine(hugs[i].text)
    requires |hugs| > 0 ==> var t := hugs[|hugs| - 1].text; |t| > 0 && !IsSpace(t[|t| - 1])
    ensures SplitLines(Strip(HugFile(hugs))) == Reprs(hugs)
  {
    var lines := Reprs(hugs);
    forall k | 0 <= k < |lines|
      ensures OneLine(lines[k])
    {
      ReprShape(hugs[k]);
    }
    if |hugs| > 0 {
      ReprShape(hugs[0]);
      ReprShape(hugs[|hugs| - 1]);
    }
    StripSplitUnlines(lines);
  }

  // ---------------------------------------------------------------- hearts

  /** The hearts of `heart_for_stat`, from worst to best. */
  datatype Heart = Broken | Green | Yellow | Orange | Red | Sparkling | Rainbow

  const Hearts: seq<Heart> := [Broken, Green, Yellow, Orange, Red, Sparkling, Rainbow]

  /** The position in `Hearts` that `heart_for_stat(v)` picks. */
  function HeartIndex(v: int): (k: nat)
    ensures k < |Hearts|
  {
    if v <= 0 then 0
    else if v >= 5000 then 6
    else if v >= 2000 then 5
    else
      DecimalLengthAbove(v, 4);
      |IntToString(v)|
  }

  /** `heart_for_stat(v)`. */
  function HeartForStat(v: int): (h: Heart)
    ensures h == Broken <==> v <= 0
    ensures h == Rainbow <==> v >= 5000
    ensures h == Sparkling <==> 2000 <= v < 5000
  {
    if 0 < v < 2000 then
      DecimalLengthAbove(v, 4);
      Hearts[HeartIndex(v)]
    else Hearts[HeartIndex(v)]
  }

  /** Between 1 and 1999, the heart's position is the number of decimal digits. */
  lemma HeartIndexDigits(v: int, k: nat)
    requires 1 <= v < 2000 && 1 <= k
    requires Pow10(k - 1) <= v < Pow10(k)
    ensures HeartIndex(v) == k
  {
    DecimalLengthAbove(v, k);
    DecimalLengthAbove(v, k - 1);
  }

  /** A larger statistic never gets a lower heart. */
  lemma HeartIndexMonotone(v: int, w: int)
    requires v <= w
    ensures HeartIndex(v) <= HeartIndex(w)
  {
    if 1 <= v && w < 2000 {
      DecimalLengthMonotone(v, w);
    } else if 1 <= v < 2000 {
      DecimalLengthAbove(v, 4);
    }
  }

  // ---------------------------------------------------------------- hug filters and score

  /** The member gave the hug to someone else. */
  function IsGiven(eq: int -> bool): Hug -> bool {
    (h: Hug) => eq(h.hugger) && !eq(h.hugged)
  }

  /** The member got the hug from someone else. */
  function IsReceived(eq: int -> bool): Hug -> bool {
    (h: Hug) => eq(h.hugged) && !eq(h.hugger)
  }

  /** The member hugged themself. */
  function IsAuto(eq: int -> bool): Hug -> bool {
    (h: Hug) => eq(h.hugged) && eq(h.hugger)
  }

  /** The hug involves the member, as giver or receiver. */
  function Involves(eq: int -> bool): Hug -> bool {
    (h: Hug) => eq(h.hugger) || eq(h.hugged)
  }

  /** `hugs_given`. */
  function Given(hugs: seq<Hug>, eq: int -> bool): (r: seq<Hug>)
    ensures forall h :: h in r <==> h in hugs && eq(h.hugger) && !eq(h.hugged)
  {
    Filter(hugs, IsGiven(eq))
  }

  /** `hugs_received`. */
  function Received(hugs: seq<Hug>, eq: int -> bool): (r: seq<Hug>)
    ensures forall h :: h in r <==> h in hugs && eq(h.hugged) && !eq(h.hugger)
  {
    Filter(hugs, IsReceived(eq))
  }

  /** `auto_hugs`. */
  function Auto(hugs: seq<Hug>, eq: int -> bool): (r: seq<Hug>)
    ensures forall h :: h in r <==> h in hugs && eq(h.hugged) && eq(h.hugger)
  {
    Filter(hugs, IsAuto(eq))
  }

  /**
    The three filters keep the order of the log, never share a hug, and
    together hold every hug involving the member.
   */
  lemma HugFiltersPartition(hugs: seq<Hug>, eq: int -> bool)
    ensures IsSubsequence(Given(hugs, eq), hugs) && IsSubsequence(Received(hugs, eq), hugs) && IsSubsequence(Auto(hugs, eq), hugs)
    ensures forall h :: h in hugs ==>
      ((eq(h.hugger) || eq(h.hugged)) <==> (h in Given(hugs, eq) || h in Received(hugs, eq) || h in Auto(hugs, eq)))
    ensures forall h :: !(h in Given(hugs, eq) && h in Received(hugs, eq)) && !(h in Given(hugs, eq) && h in Auto(hugs, eq)) && !(h in Received(hugs, eq) && h in Auto(hugs, eq))
  {
    FilterIsSubsequence(hugs, IsGiven(eq));
    FilterIsSubsequence(hugs, IsReceived(eq));
    FilterIsSubsequence(hugs, IsAuto(eq));
  }

  /** Each hug involving the member is in exactly one of the three lists. */
  lemma {:induction false} HugFiltersCount(hugs: seq<Hug>, eq: int -> bool)
    ensures |Given(hugs, eq)| + |Received(hugs, eq)| + |Auto(hugs, eq)| == Count(hugs, Involves(eq))
    decreases |hugs|
  {
    if |hugs| > 0 {
      HugFiltersCount(hugs[1..], eq);
      assert hugs == [hugs[0]] + hugs[1..];
      FilterCons(hugs[0], hugs[1..], IsGiven(eq));
      FilterCons(hugs[0], hugs[1..], IsReceived(eq));
      FilterCons(hugs[0], hugs[1..], IsAuto(eq));
      FilterCons(hugs[0], hugs[1..], Involves(eq));
    }
  }

  /** The distinct givers among the hugs (`set(h.hugger for h in received)`). */
  function Huggers(received: seq<Hug>): set<int> {
    set h | h in received :: h.hugger
  }

  /** `score_for`: 42 per distinct member who hugged, plus 1 per hug received. */
  function ScoreFor(hugs: seq<Hug>, eq: int -> bool): (r: int)
    ensures r >= 0 && (r == 0 <==> |Received(hugs, eq)| == 0)
  {
    var received := Received(hugs, eq);
    assert |received| > 0 ==> received[0].hugger in Huggers(received);
    42 * |Huggers(received)| + |received|
  }

  lemma ReceivedSnoc(hugs: seq<Hug>, eq: int -> bool, h: Hug)
    ensures Received(hugs + [h], eq) == Received(hugs, eq) + (if IsReceived(eq)(h) then [h] else [])
  {
    FilterConcat(hugs, [h], IsReceived(eq));
    assert Filter([h], IsReceived(eq)) == if IsReceived(eq)(h) then [h] else [];
  }

  lemma HuggersSnoc(r: seq<Hug>, h: Hug)
    ensures Huggers(r + [h]) == Huggers(r) + {h.hugger}
  {
  }

  /** One more hug adds 43 from a new hugger, 1 from a known one, and nothing when the member did not receive it. */
  lemma ScoreAfterHug(hugs: seq<Hug>, eq: int -> bool, h: Hug)
    ensures ScoreFor(hugs + [h], eq) == ScoreFor(hugs, eq) +
      (if !(eq(h.hugged) && !eq(h.hugger)) then 0
       else if h.hugger in Huggers(Received(hugs, eq)) then 1
       else 43)
  {
    ReceivedSnoc(hugs, eq, h);
    var r := Received(hugs, eq);
    assert IsReceived(eq)(h) == (eq(h.hugged) && !eq(h.hugger));
    if IsReceived(eq)(h) {
      assert Received(hugs + [h], eq) == r + [h];
      HuggersSnoc(r, h);
      if h.hugger in Huggers(r) {
        assert Huggers(r) + {h.hugger} == Huggers(r);
      } else {
        assert |Huggers(r) + {h.hugger}| == |Huggers(r)| + 1;
      }
    } else {
      assert Received(hugs + [h], eq) == r + [] == r;
    }
  }

  /** A non-empty list of hugs has at least one and at most as many distinct givers as hugs. */
  lemma {:induction false} HuggersBound(r: seq<Hug>)
    ensures |r| == 0 ==> Huggers(r) == {}
    ensures |r| > 0 ==> 1 <= |Huggers(r)| <= |r|
    decreases |r|
  {
    if |r| > 0 {
      var init := r[..|r| - 1];
      assert r == init + [r[|r| - 1]];
      HuggersBound(init);
      HuggersSnoc(init, r[|r| - 1]);
    }
  }

  /** With n > 0 hugs received, the score lies between n + 42 (one hugger) and 43 n (all different). */
  lemma ScoreBounds(hugs: seq<Hug>, eq: int -> bool)
    ensures var n := |Received(hugs, eq)|;
      (n == 0 ==> ScoreFor(hugs, eq) == 0) && (n > 0 ==> n + 42 <= ScoreFor(hugs, eq) <= 43 * n)
  {
    HuggersBound(Received(hugs, eq));
  }

  // ---------------------------------------------------------------- jokes

  /** A joke: its text, its author, who liked and disliked it, and an attached file name. */
  datatype Joke = Joke(joke: string, joker: int, likes: set<int>, dislikes: set<int>, file: Option<string>)

  /**
    A reaction of `user` on joke `id`: a thumbs-up adds the user to the likes,
    any other emoji to the dislikes. Reactions of the bot itself are skipped.
   */
  function React(jokes: seq<Joke>, id: nat, user: int, thumbsUp: bool, bot: int): (r: seq<Joke>)
    requires id < |jokes|
    ensures |r| == |jokes| && forall j :: 0 <= j < |jokes| && j != id ==> r[j] == jokes[j]
    ensures r[id].joke == jokes[id].joke && r[id].joker == jokes[id].joker && r[id].file == jokes[id].file
    ensures user == bot ==> r == jokes
    ensures user != bot && thumbsUp ==> r[id].likes == jokes[id].likes + {user} && r[id].dislikes == jokes[id].dislikes
    ensures user != bot && !thumbsUp ==> r[id].dislikes == jokes[id].dislikes + {user} && r[id].likes == jokes[id].likes
  {
    if user == bot then jokes
    else if thumbsUp then jokes[id := jokes[id].(likes := jokes[id].likes + {user})]
    else jokes[id := jokes[id].(dislikes := jokes[id].dislikes + {user})]
  }

  /** The same reaction recorded twice counts once. */
  lemma ReactIdempotent(jokes: seq<Joke>, id: nat, user: int, thumbsUp: bool, bot: int)
    requires id < |jokes|
    ensures React(React(jokes, id, user, thumbsUp, bot), id, user, thumbsUp, bot) == React(jokes, id, user, thumbsUp, bot)
  {
    var once := React(jokes, id, user, thumbsUp, bot);
    var twice := React(once, id, user, thumbsUp, bot);
    assert |twice| == |once|;
    forall j | 0 <= j < |once|
      ensures twice[j] == once[j]
    {
    }
  }

  /** `len(j.likes) - len(j.dislikes)`. */
  function JokeScore(j: Joke): int {
    |j.likes| - |j.dislikes|
  }

  /** `best_jokes`: the ten jokes of highest score, best first. */
  function Leaderboard(jokes: seq<Joke>): (r: seq<Joke>)
    ensures |r| == (if |jokes| < 10 then |jokes| else 10)
    ensures forall i :: 0 <= i < |r| ==> r[i] in jokes
  {
    var s := SortDescending(jokes, JokeScore);
    assert forall i :: 0 <= i < |s| ==> s[i] in multiset(s);
    Take(s, 10)
  }

  /** The leaderboard shows min(10, n) of the jokes, by non-increasing score. */
  lemma LeaderboardRanks(jokes: seq<Joke>)
    ensures var r := Leaderboard(jokes);
      |r| == (if |jokes| < 10 then |jokes| else 10) &&
      multiset(r) <= multiset(jokes) &&
      forall i, j :: 0 <= i < j < |r| ==> JokeScore(r[i]) >= JokeScore(r[j])
  {
    var s := SortDescending(jokes, JokeScore);
    SortDescendingSorted(jokes, JokeScore);
    var r := Leaderboard(jokes);
    if |s| > 10 {
      assert s == r + s[10..];
    } else {
      assert r == s;
    }
  }

  /** No joke left out of the leaderboard scores more than a joke shown. */
  lemma LeaderboardCutoff(jokes: seq<Joke>)
    ensures var r := Leaderboard(jokes);
      forall x, k :: x in multiset(jokes) - multiset(r) && 0 <= k < |r| ==> JokeScore(x) <= JokeScore(r[k])
  {
    var s := SortDescending(jokes, JokeScore);
    var r := Leaderboard(jokes);
    if |s| > 10 {
      SortDescendingSorted(jokes, JokeScore);
      assert r == s[..10];
      MultisetMinusPrefix(s, 10);
      SortedTailBelow(s, 10);
    } else {
      assert r == s;
      assert multiset(jokes) - multiset(r) == multiset{};
    }
  }

  /** Taking a prefix away leaves the rest. */
  lemma MultisetMinusPrefix<T>(s: seq<T>, n: nat)
    requires n <= |s|
    ensures multiset(s) - multiset(s[..n]) == multiset(s[n..])
  {
    assert s == s[..n] + s[n..];
  }

  /** In a list of non-increasing score, what follows position `n` scores no more than what precedes it. */
  lemma SortedTailBelow(s: seq<Joke>, n: nat)
    requires n <= |s|
    requires forall i, j :: 0 <= i < j < |s| ==> JokeScore(s[i]) >= JokeScore(s[j])
    ensures forall x, k :: x in multiset(s[n..]) && 0 <= k < n ==> JokeScore(x) <= JokeScore(s[k])
  {
    forall x, k | x in multiset(s[n..]) && 0 <= k < n
      ensures JokeScore(x) <= JokeScore(s[k])
    {
      assert x in s[n..];
      var m :| 0 <= m < |s[n..]| && s[n..][m] == x;
      assert s[n + m] == x;
    }
  }

  /** Jokes of equal score keep their order in the leaderboard (`sorted` is stable). */
  lemma LeaderboardStable(jokes: seq<Joke>, k: int)
    ensures KeyClass(SortDescending(jokes, JokeScore), JokeScore, k) == KeyClass(jokes, JokeScore, k)
  {
    SortDescendingStable(jokes, JokeScore, k);
  }
}

=== FILE: rounds.dfy ===
/** The two rounds of a draw, problem names, and per-round pairs such as `[None, None]`. */
module Rounds {

  /** A round index: 0 for the first round, 1 for the second. */
  type Round = r: nat | r < 2

  /**
    A problem name. Names are never empty: the draw tests a team's problem for
    truthiness (an empty string would read as "no problem").
   */
  type Problem = s: string | |s| > 0 witness "P"

  /** A two-element list indexed by round, such as `accepted_problems` or `rejected`. */
  datatype PerRound<T> = PerRound(first: T, second: T) {

    function Get(r: Round): T {
      if r == 0 then first else second
    }

    /** Replaces the entry of round `r`; the other round's entry is untouched. */
    function Set(r: Round, v: T): (p: PerRound<T>)
      ensures p.Get(r) == v
      ensures p.Get(1 - r) == Get(1 - r)
    {
      if r == 0 then PerRound(v, second) else PerRound(first, v)
    }
  }

  function Other(r: Round): Round {
    1 - r
  }
}

=== FILE: seqs.dfy ===
/** Order-preserving filtering, prefixes and counting over sequences. */
module Seqs {

  /** The elements of `s` satisfying `p`, in their original order (a list comprehension with a guard). */
  function Filter<T>(s: seq<T>, p: T -> bool): (r: seq<T>)
    ensures |r| <= |s|
    ensures forall i :: 0 <= i < |r| ==> r[i] in s && p(r[i])
    ensures forall i :: 0 <= i < |s| && p(s[i]) ==> s[i] in r
    decreases |s|
  {
    if |s| == 0 then []
    else (if p(s[0]) then [s[0]] else []) + Filter(s[1..], p)
  }

  /** `sub` can be obtained from `s` by deleting elements, keeping the order of the rest. */
  ghost predicate IsSubsequence<T>(sub: seq<T>, s: seq<T>)
    decreases |s|
  {
    if |sub| == 0 then true
    else if |s| == 0 then false
    else if sub[0] == s[0] then IsSubsequence(sub[1..], s[1..])
    else IsSubsequence(sub, s[1..])
  }

  lemma {:induction false} FilterIsSubsequence<T>(s: seq<T>, p: T -> bool)
    ensures IsSubsequence(Filter(s, p), s)
    decreases |s|
  {
    if |s| > 0 {
      FilterIsSubsequence(s[1..], p);
      if p(s[0]) {
        assert Filter(s, p)[0] == s[0];
        assert Filter(s, p)[1..] == Filter(s[1..], p);
      } else {
        assert Filter(s, p) == Filter(s[1..], p);
      }
    }
  }

  lemma FilterCons<T>(x: T, s: seq<T>, p: T -> bool)
    ensures Filter([x] + s, p) == (if p(x) then [x] else []) + Filter(s, p)
  {
    assert ([x] + s)[1..] == s;
  }

  lemma {:induction false} FilterConcat<T>(a: seq<T>, b: seq<T>, p: T -> bool)
    ensures Filter(a + b, p) == Filter(a, p) + Filter(b, p)
    decreases |a|
  {
    if |a| == 0 {
      assert a + b == b;
    } else {
      assert (a + b)[0] == a[0];
      assert (a + b)[1..] == a[1..] + b;
      FilterConcat(a[1..], b, p);
    }
  }

  /** Python's `s[:n]`: the first `n` elements, or all of them when there are fewer. */
  function Take<T>(s: seq<T>, n: nat): (r: seq<T>)
    ensures |r| == if |s| < n then |s| else n
    ensures forall i :: 0 <= i < |r| ==> r[i] == s[i]
  {
    if |s| <= n then s else s[..n]
  }

  /** Number of elements of `s` satisfying `p`. */
  function Count<T>(s: seq<T>, p: T -> bool): (n: nat)
    ensures n == |Filter(s, p)|
    decreases |s|
  {
    if |s| == 0 then 0 else (if p(s[0]) then 1 else 0) + Count(s[1..], p)
  }

  /** The elements of `s` are pairwise distinct. */
  predicate NoDuplicates<T(==)>(s: seq<T>) {
    forall i, j :: 0 <= i < j < |s| ==> s[i] != s[j]
  }

  /** A prefix reaching past position `p` is the part before `p`, the element at `p`, and a prefix of the rest. */
  lemma PrefixSplit<T>(s: seq<T>, p: nat, u: nat)
    requires p + 1 + u <= |s|
    ensures s[..p + 1 + u] == s[..p] + [s[p]] + s[p + 1..][..u]
  {
  }
}

=== FILE: sorting.dfy ===
/**
  Stable sorting by an integer key, the behaviour of Python's `sorted(xs, key=k)`.
  Python's `sorted(xs, key=k, reverse=True)` keeps equal keys in their original
  order too, so it is the same as a stable ascending sort by the negated key;
  `SortDescending` is defined that way.
 */
module Sorting {
  import opened Seqs

  /** Keys never decrease along `s`. */
  predicate SortedBy<T>(s: seq<T>, key: T -> int) {
    forall i, j :: 0 <= i < j < |s| ==> key(s[i]) <= key(s[j])
  }

  /** Keys strictly increase along `s`. */
  predicate StrictlySortedBy<T>(s: seq<T>, key: T -> int) {
    forall i, j :: 0 <= i < j < |s| ==> key(s[i]) < key(s[j])
  }

  /** No two positions of `s` carry the same key. */
  predicate DistinctKeys<T>(s: seq<T>, key: T -> int) {
    forall i, j :: 0 <= i < |s| && 0 <= j < |s| && i != j ==> key(s[i]) != key(s[j])
  }

  /** Inserts `x` in front of the first element whose key is at least `key(x)`. */
  function Insert<T>(x: T, s: seq<T>, key: T -> int): (r: seq<T>)
    ensures |r| == |s| + 1
    ensures multiset(r) == multiset(s) + multiset{x}
    decreases |s|
  {
    if |s| == 0 then [x]
    else if key(x) <= key(s[0]) then [x] + s
    else
      assert s == [s[0]] + s[1..];
      [s[0]] + Insert(x, s[1..], key)
  }

  /** Stable insertion sort: ascending by `key`, equal keys in input order. */
  function SortBy<T>(s: seq<T>, key: T -> int): (r: seq<T>)
    ensures |r| == |s|
    ensures multiset(r) == multiset(s)
    decreases |s|
  {
    if |s| == 0 then []
    else
      assert s == [s[0]] + s[1..];
      Insert(s[0], SortBy(s[1..], key), key)
  }

  /** Python's `sorted(s, key=key, reverse=True)`. */
  function SortDescending<T>(s: seq<T>, key: T -> int): (r: seq<T>)
    ensures |r| == |s|
    ensures multiset(r) == multiset(s)
  {
    SortBy(s, x => -key(x))
  }

  lemma {:induction false} InsertSorted<T>(x: T, s: seq<T>, key: T -> int)
    requires SortedBy(s, key)
    ensures SortedBy(Insert(x, s, key), key)
    decreases |s|
  {
    if |s| > 0 && key(x) > key(s[0]) {
      InsertSorted(x, s[1..], key);
      var t := Insert(x, s[1..], key);
      forall j | 0 <= j < |t|
        ensures key(s[0]) <= key(t[j])
      {
        assert t[j] in multiset(t);
        assert t[j] == x || t[j] in multiset(s[1..]);
      }
    }
  }

  lemma {:induction false} SortBySorted<T>(s: seq<T>, key: T -> int)
    ensures SortedBy(SortBy(s, key), key)
    decreases |s|
  {
    if |s| > 0 {
      SortBySorted(s[1..], key);
      InsertSorted(s[0], SortBy(s[1..], key), key);
    }
  }

  /** The descending sort leaves keys non-increasing. */
  lemma SortDescendingSorted<T>(s: seq<T>, key: T -> int)
    ensures forall i, j :: 0 <= i < j < |SortDescending(s, key)| ==>
      key(SortDescending(s, key)[i]) >= key(SortDescending(s, key)[j])
  {
    SortBySorted(s, x => -key(x));
  }

  lemma {:induction false} InsertStrictlySorted<T>(x: T, s: seq<T>, key: T -> int)
    requires StrictlySortedBy(s, key)
    requires forall i :: 0 <= i < |s| ==> key(s[i]) != key(x)
    ensures StrictlySortedBy(Insert(x, s, key), key)
    decreases |s|
  {
    if |s| > 0 && key(x) > key(s[0]) {
      InsertStrictlySorted(x, s[1..], key);
      var t := Insert(x, s[1..], key);
      forall j | 0 <= j < |t|
        ensures key(s[0]) < key(t[j])
      {
        assert t[j] in multiset(t);
        assert t[j] == x || t[j] in multiset(s[1..]);
      }
    }
  }

  /** With pairwise distinct keys the sorted result is strictly increasing. */
  lemma {:induction false} SortByStrict<T>(s: seq<T>, key: T -> int)
    requires DistinctKeys(s, key)
    ensures StrictlySortedBy(SortBy(s, key), key)
    decreases |s|
  {
    if |s| > 0 {
      var tail := s[1..];
      assert DistinctKeys(tail, key) by {
        forall i, j | 0 <= i < |tail| && 0 <= j < |tail| && i != j
          ensures key(tail[i]) != key(tail[j])
        {
          assert tail[i] == s[i + 1] && tail[j] == s[j + 1];
        }
      }
      SortByStrict(tail, key);
      var t := SortBy(tail, key);
      forall i | 0 <= i < |t|
        ensures key(t[i]) != key(s[0])
      {
        assert t[i] in multiset(tail);
        var k :| 0 <= k < |tail| && tail[k] == t[i];
        assert tail[k] == s[k + 1];
      }
      InsertStrictlySorted(s[0], t, key);
    }
  }

  /** The elements of `s` whose key is `k`, in order. */
  function KeyClass<T>(s: seq<T>, key: T -> int, k: int): seq<T>
    decreases |s|
  {
    if |s| == 0 then [] else (if key(s[0]) == k then [s[0]] else []) + KeyClass(s[1..], key, k)
  }

  /** Inserting `x` into a list keeps, in that list, its key class up to `x` itself. */
  lemma {:induction false} InsertKeyClass<T>(x: T, s: seq<T>, key: T -> int, k: int)
    ensures KeyClass(Insert(x, s, key), key, k) ==
      (if key(x) == k then [x] else []) + KeyClass(s, key, k)
    decreases |s|
  {
    if |s| == 0 {
      assert Insert(x, s, key) == [x];
      assert ([x])[1..] == [];
    } else if key(x) <= key(s[0]) {
      assert Insert(x, s, key)[1..] == s;
    } else {
      InsertKeyClass(x, s[1..], key, k);
      InsertBehind(x, s, key, k);
    }
  }

  /** The inductive step of `InsertKeyClass`: `x` goes behind `s[0]`. */
  lemma InsertBehind<T>(x: T, s: seq<T>, key: T -> int, k: int)
    requires |s| > 0 && key(s[0]) < key(x)
    requires KeyClass(Insert(x, s[1..], key), key, k) == (if key(x) == k then [x] else []) + KeyClass(s[1..], key, k)
    ensures KeyClass(Insert(x, s, key), key, k) == (if key(x) == k then [x] else []) + KeyClass(s, key, k)
  {
    var t := Insert(x, s[1..], key);
    var rest := KeyClass(s[1..], key, k);
    InsertPastHead(x, s, key);
    KeyClassCons(s[0], t, key, k);
    // every element ahead of `x` has a key smaller than `key(x)`, so at most one of `s[0]` and `x` is in the class
    if key(x) == k {
      assert KeyClass(Insert(x, s, key), key, k) == KeyClass(t, key, k) == [x] + rest;
    } else if key(s[0]) == k {
      assert KeyClass(Insert(x, s, key), key, k) == [s[0]] + rest;
    } else {
      assert KeyClass(Insert(x, s, key), key, k) == rest;
    }
  }

  lemma InsertPastHead<T>(x: T, s: seq<T>, key: T -> int)
    requires |s| > 0 && key(s[0]) < key(x)
    ensures Insert(x, s, key) == [s[0]] + Insert(x, s[1..], key)
  {
  }

  lemma KeyClassCons<T>(y: T, t: seq<T>, key: T -> int, k: int)
    ensures KeyClass([y] + t, key, k) == (if key(y) == k then [y] else []) + KeyClass(t, key, k)
  {
    assert ([y] + t)[1..] == t;
  }

  /** Stability: the elements sharing any one key keep their relative order. */
  lemma {:induction false} SortByStable<T>(s: seq<T>, key: T -> int, k: int)
    ensures KeyClass(SortBy(s, key), key, k) == KeyClass(s, key, k)
    decreases |s|
  {
    if |s| > 0 {
      SortByStable(s[1..], key, k);
      InsertKeyClass(s[0], SortBy(s[1..], key), key, k);
    }
  }

  /** Classes by the negated key are the classes by the key. */
  lemma {:induction false} KeyClassNegated<T>(s: seq<T>, key: T -> int, k: int)
    ensures KeyClass(s, x => -key(x), -k) == KeyClass(s, key, k)
    decreases |s|
  {
    if |s| > 0 {
      KeyClassNegated(s[1..], key, k);
    }
  }

  /** Stability of the descending sort: teams with the same key keep their input order. */
  lemma SortDescendingStable<T>(s: seq<T>, key: T -> int, k: int)
    ensures KeyClass(SortDescending(s, key), key, k) == KeyClass(s, key, k)
  {
    SortByStable(s, x => -key(x), -k);
    KeyClassNegated(SortDescending(s, key), key, k);
    KeyClassNegated(s, key, k);
  }

  /** With pairwise distinct keys the descending sort is strictly decreasing. */
  lemma SortDescendingStrict<T>(s: seq<T>, key: T -> int)
    requires DistinctKeys(s, key)
    ensures forall i, j :: 0 <= i < j < |SortDescending(s, key)| ==>
      key(SortDescending(s, key)[i]) > key(SortDescending(s, key)[j])
  {
    SortByStrict(s, x => -key(x));
  }
}

=== FILE: teams.dfy ===
/**
  The team registry of `src/cogs/teams.py`: reading the `;`-separated team
  file, and the checks `!team create` makes before creating a team.
 */
module Teams {
  import opened Wrappers
  import opened Text

  // ---------------------------------------------------------------- fields

  /** `s.split(sep)`: the pieces between the separators, as many as separators plus one. */
  function Split(s: string, sep: char): (r: seq<string>)
    ensures |r| >= 1
    ensures forall k :: 0 <= k < |r| ==> sep !in r[k]
    decreases |s|
  {
    match FirstIndex(s, c => c == sep)
    case None => [s]
    case Some(i) => [s[..i]] + Split(s[i + 1..], sep)
  }

  /** `sep.join(fields)`. */
  function Join(fields: seq<string>, sep: char): string
    requires |fields| >= 1
  {
    if |fields| == 1 then fields[0] else fields[0] + [sep] + Join(fields[1..], sep)
  }

  /** Joining the pieces gives the string back. */
  lemma {:induction false} JoinSplit(s: string, sep: char)
    ensures Join(Split(s, sep), sep) == s
    decreases |s|
  {
    match FirstIndex(s, c => c == sep)
    case None =>
    case Some(i) =>
      JoinSplit(s[i + 1..], sep);
      assert s == s[..i] + [sep] + s[i + 1..];
  }

  /** Splitting joined fields that do not hold the separator gives the fields back. */
  lemma {:induction false} SplitJoin(fields: seq<string>, sep: char)
    requires |fields| >= 1 && forall k :: 0 <= k < |fields| ==> sep !in fields[k]
    ensures Split(Join(fields, sep), sep) == fields
    decreases |fields|
  {
    var f := fields[0];
    assert forall j :: 0 <= j < |f| ==> f[j] != sep;
    if |fields| == 1 {
      assert FirstIndex(f, c => c == sep).None?;
    } else {
      var rest := Join(fields[1..], sep);
      var s := Join(fields, sep);
      assert s == f + ([sep] + rest);
      FirstIndexAfter(f, [sep] + rest, c => c == sep);
      assert s[..|f|] == f && s[|f| + 1..] == rest;
      SplitJoin(fields[1..], sep);
    }
  }

  /** How many `"` open `s`. */
  function LeadingQuotes(s: string): (n: nat)
    ensures n <= |s| && (forall k :: 0 <= k < n ==> s[k] == '"') && (n < |s| ==> s[n] != '"')
    decreases |s|
  {
    if |s| > 0 && s[0] == '"' then 1 + LeadingQuotes(s[1..]) else 0
  }

  /** How many `"` close `s`. */
  function TrailingQuotes(s: string): (n: nat)
    ensures n <= |s| && (forall k :: |s| - n <= k < |s| ==> s[k] == '"') && (n < |s| ==> s[|s| - n - 1] != '"')
    decreases |s|
  {
    if |s| > 0 && s[|s| - 1] == '"' then 1 + TrailingQuotes(s[..|s| - 1]) else 0
  }

  /** Neither end of `s` is a `"`. */
  predicate Unquoted(s: string) {
    |s| == 0 || (s[0] != '"' && s[|s| - 1] != '"')
  }

  /**
    `field.strip('"')`: every `"` at either end goes, the inner ones stay. The
    result is the slice between the removed runs.
   */
  function StripQuotes(s: string): (r: string)
    ensures Unquoted(r)
  {
    var i := LeadingQuotes(s);
    var t := s[i..];
    var n := TrailingQuotes(t);
    if n < |t| then
      assert t[0] != '"';
      t[..|t| - n]
    else ""
  }

  /** What `strip` removes is only quotes, and what it keeps is a slice of the field. */
  lemma StripQuotesSlice(s: string)
    ensures exists i, j ::
      (0 <= i <= j <= |s| && StripQuotes(s) == s[i..j] &&
       (forall k :: 0 <= k < i ==> s[k] == '"') && (forall k :: j <= k < |s| ==> s[k] == '"'))
  {
    var i := LeadingQuotes(s);
    var t := s[i..];
    var n := TrailingQuotes(t);
    if n < |t| {
      assert StripQuotes(s) == s[i..|s| - n];
      assert forall k :: |s| - n <= k < |s| ==> s[k] == t[k - i];
    } else {
      assert StripQuotes(s) == s[i..i];
    }
  }

  /** A field with no `"` at either end comes back from its quoted form unchanged. */
  lemma StripQuoted(f: string)
    requires Unquoted(f)
    ensures StripQuotes(['"'] + f + ['"']) == f
  {
    var s := ['"'] + f + ['"'];
    assert s[1..] == f + ['"'];
    if |f| > 0 {
      assert LeadingQuotes(s[1..]) == 0;
      assert (f + ['"'])[..|f|] == f;
    }
  }

  // ---------------------------------------------------------------- load_teams

  /** A row of the team file: `Team(name, trigram, tournoi, secret, status)`. */
  datatype Team = Team(name: string, trigram: string, tournoi: string, secret: string, status: string)

  /** The fields of a line: split at every `;`, then stripped of quotes. */
  function Fields(line: string): (r: seq<string>)
    ensures |r| == |Split(line, ';')| && forall k :: 0 <= k < |r| ==> r[k] == StripQuotes(Split(line, ';')[k])
  {
    var parts := Split(line, ';');
    seq(|parts|, k requires 0 <= k < |parts| => StripQuotes(parts[k]))
  }

  /** `Team(*fields)`: five fields, in order, or the `TypeError` of a wrong count (`None`). */
  function RowOf(line: string): (r: Option<Team>)
    ensures r.Some? <==> |Split(line, ';')| == 5
  {
    var f := Fields(line);
    if |f| == 5 then Some(Team(f[0], f[1], f[2], f[3], f[4])) else None
  }

  /** The rows of all lines, or `None` when one of them fails. */
  function Rows(lines: seq<string>): (r: Option<seq<Team>>)
    ensures r.Some? <==> forall k :: 0 <= k < |lines| ==> RowOf(lines[k]).Some?
    ensures r.Some? ==> |r.value| == |lines| && forall k :: 0 <= k < |lines| ==> RowOf(lines[k]) == Some(r.value[k])
  {
    MapAll(lines, RowOf)
  }

  /** `load_teams` on the file's text: the header line is dropped, every other line is a team. */
  function LoadTeams(text: string): (r: Option<seq<Team>>)
    ensures var lines := SplitLines(text);
      r.Some? ==> |r.value| == (if |lines| == 0 then 0 else |lines| - 1)
  {
    var lines := SplitLines(text);
    Rows(if |lines| == 0 then [] else lines[1..])
  }

  /** A field the file can hold: no `;`, no line break, and no `"` at either end. */
  predicate Storable(f: string) {
    ';' !in f && OneLine(f) && Unquoted(f)
  }

  predicate StorableTeam(t: Team) {
    Storable(t.name) && Storable(t.trigram) && Storable(t.tournoi) && Storable(t.secret) && Storable(t.status)
  }

  /** A team as the registration site writes it: five quoted fields separated by `;`. */
  function LineOf(t: Team): string {
    Join([Quote(t.name), Quote(t.trigram), Quote(t.tournoi), Quote(t.secret), Quote(t.status)], ';')
  }

  function Quote(f: string): string {
    ['"'] + f + ['"']
  }

  /** The line written for a team is read back as that team. */
  lemma RowOfLine(t: Team)
    requires StorableTeam(t)
    ensures RowOf(LineOf(t)) == Some(t)
  {
    var parts := [Quote(t.name), Quote(t.trigram), Quote(t.tournoi), Quote(t.secret), Quote(t.status)];
    forall k | 0 <= k < 5
      ensures ';' !in parts[k]
    {
    }
    SplitJoin(parts, ';');
    StripQuoted(t.name);
    StripQuoted(t.trigram);
    StripQuoted(t.tournoi);
    StripQuoted(t.secret);
    StripQuoted(t.status);
  }

  /** Joining one-line fields with a separator that is not a line break gives one line. */
  lemma {:induction false} JoinOneLine(fields: seq<string>, sep: char)
    requires |fields| >= 1 && !IsLineBreak(sep) && forall k :: 0 <= k < |fields| ==> OneLine(fields[k])
    ensures OneLine(Join(fields, sep))
    decreases |fields|
  {
    if |fields| > 1 {
      JoinOneLine(fields[1..], sep);
      var s := Join(fields, sep);
      var f := fields[0];
      var rest := Join(fields[1..], sep);
      assert s == f + [sep] + rest;
      forall j | 0 <= j < |s|
        ensures !IsLineBreak(s[j])
      {
        if j < |f| {
          assert s[j] == f[j];
        } else if j > |f| {
          assert s[j] == rest[j - |f| - 1];
        }
      }
    }
  }

  /** The line written for a storable team holds no line break. */
  lemma LineOfOneLine(t: Team)
    requires StorableTeam(t)
    ensures OneLine(LineOf(t))
  {
    var parts := [Quote(t.name), Quote(t.trigram), Quote(t.tournoi), Quote(t.secret), Quote(t.status)];
    QuoteOneLine(t.name);
    QuoteOneLine(t.trigram);
    QuoteOneLine(t.tournoi);
    QuoteOneLine(t.secret);
    QuoteOneLine(t.status);
    JoinOneLine(parts, ';');
  }

  lemma QuoteOneLine(f: string)
    requires OneLine(f)
    ensures OneLine(Quote(f))
  {
    var q := Quote(f);
    forall j | 0 <= j < |q|
      ensures !IsLineBreak(q[j])
    {
      if 0 < j <= |f| {
        assert q[j] == f[j - 1];
      }
    }
  }

  /** A file made of a header and one line per storable team loads as those teams. */
  lemma LoadTeamsRoundTrip(header: string, teams: seq<Team>)
    requires OneLine(header)
    requires forall k :: 0 <= k < |teams| ==> StorableTeam(teams[k])
    ensures LoadTeams(Unlines([header] + seq(|teams|, k requires 0 <= k < |teams| => LineOf(teams[k])))) == Some(teams)
  {
    var body := seq(|teams|, k requires 0 <= k < |teams| => LineOf(teams[k]));
    var lines := [header] + body;
    forall k | 0 <= k < |teams|
      ensures OneLine(body[k]) && RowOf(body[k]) == Some(teams[k])
    {
      LineOfOneLine(teams[k]);
      RowOfLine(teams[k]);
    }
    SplitUnlines(lines);
    assert lines[1..] == body;
    MapAllValues(body, RowOf, teams);
  }

  // ---------------------------------------------------------------- create_team

  /** The first team with this trigram (`get(self.teams, trigram=...)`). */
  function FindTrigram(teams: seq<Team>, trigram: string): (r: Option<nat>)
    ensures r.Some? ==> r.value < |teams| && teams[r.value].trigram == trigram && forall k :: 0 <= k < r.value ==> teams[k].trigram != trigram
    ensures r.None? ==> forall k :: 0 <= k < |teams| ==> teams[k].trigram != trigram
    decreases |teams|
  {
    if |teams| == 0 then None
    else if teams[0].trigram == trigram then Some(0)
    else match FindTrigram(teams[1..], trigram)
      case None => None
      case Some(k) => Some(k + 1)
  }

  /**
    What `!team create` answers. `NoCaptain` is the `AttributeError` of
    `captain.mention` when the existing team role has no member with the
    captain role.
   */
  datatype Creation = UnknownTrigram | AlreadyExists | NoCaptain | WrongSecret | Created

  /**
    `create_team`: `roles` are the names of the server's roles, and
    `hasCaptain` says whether some member of the team's role is a captain.
   */
  function CreateTeam(teams: seq<Team>, roles: set<string>, hasCaptain: bool, trigram: string, secret: string): (r: Creation)
    ensures r == UnknownTrigram <==> forall k :: 0 <= k < |teams| ==> teams[k].trigram != trigram
    ensures r in {AlreadyExists, NoCaptain} <==> (exists k :: 0 <= k < |teams| && teams[k].trigram == trigram) && trigram in roles
    ensures r == NoCaptain <==> (exists k :: 0 <= k < |teams| && teams[k].trigram == trigram) && trigram in roles && !hasCaptain
    ensures r == Created <==>
      (trigram !in roles &&
       exists k :: 0 <= k < |teams| && teams[k].trigram == trigram && teams[k].secret == secret &&
         forall j :: 0 <= j < k ==> teams[j].trigram != trigram)
  {
    match FindTrigram(teams, trigram)
    case None => UnknownTrigram
    case Some(k) =>
      if trigram in roles then (if hasCaptain then AlreadyExists else NoCaptain)
      else if secret != teams[k].secret then WrongSecret
      else Created
  }

  /** A wrong secret is reported only for a known trigram without a role, and never hides the other two checks. */
  lemma WrongSecretLast(teams: seq<Team>, roles: set<string>, hasCaptain: bool, trigram: string, secret: string)
    ensures CreateTeam(teams, roles, hasCaptain, trigram, secret) == WrongSecret <==>
      FindTrigram(teams, trigram).Some? && trigram !in roles && teams[FindTrigram(teams, trigram).value].secret != secret
  {
  }
}

=== FILE: text.dfy ===
/**
  The text helpers the bot's file readers share: Python's `str.splitlines`,
  the line-feed-terminated lines the bot writes, and `str.strip`.
 */
module Text {
  import opened Wrappers

  /** The first position of `s` whose character satisfies `p`. */
  function FirstIndex(s: string, p: char -> bool): (r: Option<nat>)
    ensures r.Some? ==> r.value < |s| && p(s[r.value]) && forall j :: 0 <= j < r.value ==> !p(s[j])
    ensures r.None? ==> forall j :: 0 <= j < |s| ==> !p(s[j])
    decreases |s|
  {
    if |s| == 0 then None
    else if p(s[0]) then Some(0)
    else match FirstIndex(s[1..], p)
      case None => None
      case Some(i) => Some(i + 1)
  }

  /** The first match is right after a prefix with no match. */
  lemma FirstIndexAfter(a: string, b: string, p: char -> bool)
    requires forall j :: 0 <= j < |a| ==> !p(a[j])
    requires |b| > 0 && p(b[0])
    ensures FirstIndex(a + b, p) == Some(|a|)
  {
    assert (a + b)[|a|] == b[0];
    assert forall j :: 0 <= j < |a| ==> (a + b)[j] == a[j];
  }

  /** The characters `str.splitlines` breaks at. */
  predicate IsLineBreak(c: char) {
    c in {'\n', '\r', '\U{000B}', '\U{000C}', '\U{001C}', '\U{001D}', '\U{001E}', '\U{0085}', '\U{2028}', '\U{2029}'}
  }

  /** No character of `s` breaks a line. */
  predicate OneLine(s: string) {
    forall j :: 0 <= j < |s| ==> !IsLineBreak(s[j])
  }

  /**
    `text.splitlines()`: the lines, without their terminators; `\r\n` ends a
    line as one terminator, and a final terminator does not start an empty line.
   */
  function SplitLines(text: string): (r: seq<string>)
    ensures forall k :: 0 <= k < |r| ==> OneLine(r[k])
    decreases |text|
  {
    if |text| == 0 then []
    else match FirstIndex(text, IsLineBreak)
      case None => [text]
      case Some(i) =>
        var width := if text[i] == '\r' && i + 1 < |text| && text[i + 1] == '\n' then 2 else 1;
        [text[..i]] + SplitLines(text[i + width..])
  }

  /** The lines written one after the other, each ended by a line feed. */
  function Unlines(lines: seq<string>): string {
    if |lines| == 0 then "" else lines[0] + "\n" + Unlines(lines[1..])
  }

  /** Lines written out with line feeds are read back by `splitlines`. */
  lemma {:induction false} SplitUnlines(lines: seq<string>)
    requires forall k :: 0 <= k < |lines| ==> OneLine(lines[k])
    ensures SplitLines(Unlines(lines)) == lines
    decreases |lines|
  {
    if |lines| > 0 {
      SplitLinesCons(lines[0], Unlines(lines[1..]));
      SplitUnlines(lines[1..]);
      assert lines == [lines[0]] + lines[1..];
    }
  }

  /** Writing one more line appends it and its line feed. */
  lemma {:induction false} UnlinesSnoc(lines: seq<string>, l: string)
    ensures Unlines(lines + [l]) == Unlines(lines) + l + "\n"
    decreases |lines|
  {
    if |lines| > 0 {
      assert (lines + [l])[1..] == lines[1..] + [l];
      UnlinesSnoc(lines[1..], l);
    } else {
      assert lines + [l] == [l];
    }
  }

  /** Every line but the last is followed by a line feed, and the last is not. */
  function JoinLines(lines: seq<string>): string
    requires |lines| > 0
  {
    if |lines| == 1 then lines[0] else lines[0] + "\n" + JoinLines(lines[1..])
  }

  /** The written lines are the joined lines and one final line feed; the first line starts the text. */
  lemma {:induction false} UnlinesEnds(lines: seq<string>)
    requires |lines| > 0
    ensures Unlines(lines) == JoinLines(lines) + "\n"
    ensures |lines[0]| > 0 ==> JoinLines(lines)[0] == lines[0][0]
    ensures var l := lines[|lines| - 1]; |l| > 0 ==>
      |JoinLines(lines)| >= |l| && JoinLines(lines)[|JoinLines(lines)| - 1] == l[|l| - 1]
    decreases |lines|
  {
    if |lines| > 1 {
      UnlinesEnds(lines[1..]);
      assert lines[1..][|lines[1..]| - 1] == lines[|lines| - 1];
    }
  }

  /**
    Lines joined by line feeds split back into the same lines, provided the
    last one is not empty (`"a\n".splitlines()` is `["a"]`, not `["a", ""]`).
   */
  lemma {:induction false} SplitJoinLines(lines: seq<string>)
    requires |lines| > 0 && |lines[|lines| - 1]| > 0
    requires forall k :: 0 <= k < |lines| ==> OneLine(lines[k])
    ensures SplitLines(JoinLines(lines)) == lines
    decreases |lines|
  {
    if |lines| == 1 {
      assert FirstIndex(lines[0], IsLineBreak).None?;
    } else {
      var rest := lines[1..];
      assert rest[|rest| - 1] == lines[|lines| - 1];
      SplitLinesCons(lines[0], JoinLines(rest));
      SplitJoinLines(rest);
      assert lines == [lines[0]] + rest;
    }
  }

  /** A line without a break, then a line feed: `splitlines` yields that line first. */
  lemma SplitLinesCons(l: string, rest: string)
    requires OneLine(l)
    ensures SplitLines(l + "\n" + rest) == [l] + SplitLines(rest)
  {
    var text := l + "\n" + rest;
    assert text == l + ("\n" + rest);
    FirstIndexAfter(l, "\n" + rest, IsLineBreak);
    assert text[|l|] == '\n';
    assert text[..|l|] == l;
    assert text[|l| + 1..] == rest;
  }


  // ---------------------------------------------------------------- strip

  /** The characters `str.isspace` holds for, which `str.strip()` removes. */
  predicate IsSpace(c: char) {
    c in {'\t', '\n', '\U{000B}', '\U{000C}', '\r', '\U{001C}', '\U{001D}', '\U{001E}', '\U{001F}', ' ',
          '\U{0085}', '\U{00A0}', '\U{1680}', '\U{2028}', '\U{2029}', '\U{202F}', '\U{205F}', '\U{3000}'}
    || '\U{2000}' <= c <= '\U{200A}'
  }

  /** How many whitespace characters start `s`. */
  function LeadingSpace(s: string): (n: nat)
    ensures n <= |s| && forall k :: 0 <= k < n ==> IsSpace(s[k])
    ensures n < |s| ==> !IsSpace(s[n])
    decreases |s|
  {
    if |s| > 0 && IsSpace(s[0]) then 1 + LeadingSpace(s[1..]) else 0
  }

  /** How many whitespace characters end `s`. */
  function TrailingSpace(s: string): (n: nat)
    ensures n <= |s| && forall k :: |s| - n <= k < |s| ==> IsSpace(s[k])
    ensures n < |s| ==> !IsSpace(s[|s| - n - 1])
    decreases |s|
  {
    if |s| > 0 && IsSpace(s[|s| - 1]) then 1 + TrailingSpace(s[..|s| - 1]) else 0
  }

  /**
    `s.strip()`: the part of `s` between its leading and its trailing
    whitespace, which is empty exactly when `s` is all whitespace.
   */
  function Strip(s: string): (r: string)
    ensures LeadingSpace(s) + |r| <= |s| && r == s[LeadingSpace(s)..LeadingSpace(s) + |r|]
    ensures forall k :: LeadingSpace(s) + |r| <= k < |s| ==> IsSpace(s[k])
    ensures |r| > 0 ==> !IsSpace(r[0]) && !IsSpace(r[|r| - 1])
    ensures |r| == 0 <==> forall k :: 0 <= k < |s| ==> IsSpace(s[k])
  {
    var t := DropLeadingSpace(s);
    var r := DropTrailingSpace(t);
    assert forall k :: 0 <= k < |r| ==> r[k] == s[LeadingSpace(s) + k];
    r
  }

  /** `s.lstrip()`. */
  function DropLeadingSpace(s: string): (t: string)
    ensures t == s[LeadingSpace(s)..]
    ensures |t| > 0 ==> !IsSpace(t[0])
  {
    s[LeadingSpace(s)..]
  }

  /** `t.rstrip()`: a prefix of `t`, after which only whitespace follows. */
  function DropTrailingSpace(t: string): (r: string)
    ensures |r| <= |t| && r == t[..|r|]
    ensures forall k :: |r| <= k < |t| ==> IsSpace(t[k])
    ensures |r| > 0 ==> !IsSpace(r[|r| - 1])
  {
    t[..|t| - TrailingSpace(t)]
  }

  /** Stripping a text that starts and ends with a visible character, followed by whitespace, gives the text back. */
  lemma StripPadded(core: string, pad: string)
    requires |core| > 0 && !IsSpace(core[0]) && !IsSpace(core[|core| - 1])
    requires forall k :: 0 <= k < |pad| ==> IsSpace(pad[k])
    ensures Strip(core + pad) == core
  {
    var s := core + pad;
    assert s[0] == core[0];
    assert LeadingSpace(s) == 0;
    var r := Strip(s);
    assert s[|core| - 1] == core[|core| - 1];
    assert forall k :: |core| <= k < |s| ==> s[k] == pad[k - |core|];
    assert |r| > 0;
    assert r[|r| - 1] == s[|r| - 1];
    assert |r| == |core|;
    assert r == s[..|core|] == core;
  }

  /**
    Lines written one per line feed, each without a line break, read back by
    `text.strip().splitlines()` as the same lines, when the first line does
    not start and the last does not end with whitespace.
   */
  lemma StripSplitUnlines(lines: seq<string>)
    requires forall k :: 0 <= k < |lines| ==> OneLine(lines[k])
    requires |lines| > 0 ==> |lines[0]| > 0 && !IsSpace(lines[0][0])
    requires |lines| > 0 ==> var l := lines[|lines| - 1]; |l| > 0 && !IsSpace(l[|l| - 1])
    ensures SplitLines(Strip(Unlines(lines))) == lines
  {
    if |lines| > 0 {
      UnlinesEnds(lines);
      StripPadded(JoinLines(lines), "\n");
      SplitJoinLines(lines);
    } else {
      assert Strip(Unlines(lines)) == "";
    }
  }
}

=== FILE: tirages.dfy ===
/**
  The phase-based draw of `src/cogs/tirages.py`. A draw is a list of teams and
  a current phase. Order phases collect one roll per team and sort the teams by
  roll, or ask the tied teams to roll again. The problem phase serves the teams
  in turn: the team whose turn it is draws a problem and accepts or refuses it,
  and the turn goes round to the next team without an accepted problem.

  Who sent a command (`team_for(author)`) is an index into the list of teams,
  and the random choice of a problem is an index into the candidates.
 */
module Tirages {
  import opened Wrappers
  import opened Rounds
  import opened Seqs
  import opened Sorting
  import Cyclic

  /** Which of a team's two per-round orders an order phase fills: `tirage_order` or `passage_order`. */
  datatype OrderName = TirageOrder | PassageOrder

  /**
    A team of the phase-based draw: the problems it accepted and refused per
    round, the problem it drew and has not answered yet (`drawn_problem`), and
    its rolls for the drawing order and the presentation order, per round.
   */
  datatype Team = Team(
    name: string,
    accepted: PerRound<Option<Problem>>,
    rejected: PerRound<set<Problem>>,
    drawn: Option<Problem>,
    tirageOrder: PerRound<Option<int>>,
    passageOrder: PerRound<Option<int>>)

  /** `getattr(team, order_name)[round]`. */
  function OrderFor(team: Team, which: OrderName, rnd: Round): Option<int> {
    if which == TirageOrder then team.tirageOrder.Get(rnd) else team.passageOrder.Get(rnd)
  }

  /** `getattr(team, order_name)[round] = v`: that one entry changes and nothing else. */
  function SetOrderFor(team: Team, which: OrderName, rnd: Round, v: Option<int>): (t: Team)
    ensures OrderFor(t, which, rnd) == v
    ensures forall w: OrderName, r: Round :: (w, r) != (which, rnd) ==> OrderFor(t, w, r) == OrderFor(team, w, r)
    ensures t.name == team.name && t.accepted == team.accepted && t.rejected == team.rejected && t.drawn == team.drawn
  {
    if which == TirageOrder then team.(tirageOrder := team.tirageOrder.Set(rnd, v))
    else team.(passageOrder := team.passageOrder.Set(rnd, v))
  }

  // ---------------------------------------------------------------- in_passage_order

  /** `team.passage_order[round] or 0`. */
  function PassageKey(rnd: Round): Team -> int {
    (t: Team) => t.passageOrder.Get(rnd).GetOr(0)
  }

  /** `in_passage_order(teams, round)`: the teams by decreasing presentation roll, a missing roll counting as 0. */
  function InPassageOrder(teams: seq<Team>, rnd: Round): (r: seq<Team>)
    ensures multiset(r) == multiset(teams)
  {
    SortDescending(teams, PassageKey(rnd))
  }

  /** The presentation rolls never increase along the result. */
  lemma InPassageOrderSorted(teams: seq<Team>, rnd: Round)
    ensures forall i, j :: 0 <= i < j < |InPassageOrder(teams, rnd)| ==>
      InPassageOrder(teams, rnd)[i].passageOrder.Get(rnd).GetOr(0) >= InPassageOrder(teams, rnd)[j].passageOrder.Get(rnd).GetOr(0)
  {
    SortDescendingSorted(teams, PassageKey(rnd));
  }

  /** Teams with the same roll stay in their input order (`sorted` is stable). */
  lemma InPassageOrderStable(teams: seq<Team>, rnd: Round, k: int)
    ensures KeyClass(InPassageOrder(teams, rnd), PassageKey(rnd), k) == KeyClass(teams, PassageKey(rnd), k)
  {
    SortDescendingStable(teams, PassageKey(rnd), k);
  }

  // ---------------------------------------------------------------- OrderPhase

  /** `OrderPhase(tirage, round, name, order_name, reverse)`; `name` only appears in messages. */
  datatype OrderPhase = OrderPhase(rnd: Round, which: OrderName, reverse: bool)

  /** What `OrderPhase.dice` did: the roll was stored, or `UnwantedCommand` was raised. */
  datatype DiceResult = Recorded(teams: seq<Team>) | AlreadyRolled

  /** `OrderPhase.dice`: team `i` rolled `dice`. */
  function OrderDice(p: OrderPhase, teams: seq<Team>, i: nat, dice: int): (r: DiceResult)
    requires i < |teams|
    ensures r.Recorded? <==> OrderFor(teams[i], p.which, p.rnd).None?
    ensures r.Recorded? ==> |r.teams| == |teams| && OrderFor(r.teams[i], p.which, p.rnd) == Some(dice)
    ensures r.Recorded? ==> forall j :: 0 <= j < |teams| && j != i ==> r.teams[j] == teams[j]
    ensures r.Recorded? ==> forall w: OrderName, rnd: Round :: (w, rnd) != (p.which, p.rnd) ==> OrderFor(r.teams[i], w, rnd) == OrderFor(teams[i], w, rnd)
  {
    if OrderFor(teams[i], p.which, p.rnd).None? then Recorded(teams[i := SetOrderFor(teams[i], p.which, p.rnd, Some(dice))])
    else AlreadyRolled
  }

  /** `OrderPhase.finished`: every team has rolled. */
  predicate OrderFinished(p: OrderPhase, teams: seq<Team>) {
    forall i :: 0 <= i < |teams| ==> OrderFor(teams[i], p.which, p.rnd).Some?
  }

  /** `[self.order_for(team) for team in self.teams]`, once every team has rolled. */
  function Orders(p: OrderPhase, teams: seq<Team>): (o: seq<int>)
    requires OrderFinished(p, teams)
    ensures |o| == |teams| && forall i :: 0 <= i < |teams| ==> Some(o[i]) == OrderFor(teams[i], p.which, p.rnd)
  {
    seq(|teams|, i requires 0 <= i < |teams| && OrderFinished(p, teams) => OrderFor(teams[i], p.which, p.rnd).value)
  }

  /** Some other position of `o` holds the same roll as position `i`. */
  predicate SharesRoll(o: seq<int>, i: nat)
    requires i < |o|
  {
    exists j :: 0 <= j < |o| && j != i && o[j] == o[i]
  }

  /** The roll as a sort key (`self.order_for`). */
  function OrderKey(p: OrderPhase): Team -> int {
    (t: Team) => OrderFor(t, p.which, p.rnd).GetOr(0)
  }

  /** What `OrderPhase.next` returns: `self.NEXT` with the teams sorted, or `self.__class__` to roll again. */
  datatype OrderOutcome = Ordered(teams: seq<Team>) | RollAgain(teams: seq<Team>)

  /** The teams that share their roll with another team are set back to no roll. */
  function ResetTied(p: OrderPhase, teams: seq<Team>): (r: seq<Team>)
    requires OrderFinished(p, teams)
    ensures |r| == |teams|
    ensures forall i :: 0 <= i < |teams| ==>
      (SharesRoll(Orders(p, teams), i) ==> OrderFor(r[i], p.which, p.rnd).None?) &&
      (!SharesRoll(Orders(p, teams), i) ==> r[i] == teams[i])
    ensures forall i :: 0 <= i < |teams| ==> r[i].name == teams[i].name && r[i].accepted == teams[i].accepted && r[i].rejected == teams[i].rejected
  {
    var o := Orders(p, teams);
    seq(|teams|, i requires 0 <= i < |teams| => if SharesRoll(o, i) then SetOrderFor(teams[i], p.which, p.rnd, None) else teams[i])
  }

  /**
    `OrderPhase.next`: with pairwise distinct rolls the teams are sorted by
    roll, decreasing when `reverse`; otherwise exactly the tied teams lose
    their roll and the same phase runs again.
   */
  function OrderNext(p: OrderPhase, teams: seq<Team>): (r: OrderOutcome)
    requires OrderFinished(p, teams)
    ensures r.Ordered? <==> NoDuplicates(Orders(p, teams))
    ensures |r.teams| == |teams|
  {
    if NoDuplicates(Orders(p, teams)) then
      Ordered(if p.reverse then SortDescending(teams, OrderKey(p)) else SortBy(teams, OrderKey(p)))
    else
      RollAgain(ResetTied(p, teams))
  }

  /** Distinct rolls make distinct sort keys. */
  lemma DistinctRollsDistinctKeys(p: OrderPhase, teams: seq<Team>)
    requires OrderFinished(p, teams) && NoDuplicates(Orders(p, teams))
    ensures DistinctKeys(teams, OrderKey(p))
  {
    var o := Orders(p, teams);
    forall i, j | 0 <= i < |teams| && 0 <= j < |teams| && i != j
      ensures OrderKey(p)(teams[i]) != OrderKey(p)(teams[j])
    {
      assert OrderKey(p)(teams[i]) == o[i] && OrderKey(p)(teams[j]) == o[j];
      if i < j {
        assert o[i] != o[j];
      } else {
        assert o[j] != o[i];
      }
    }
  }

  /**
    When all rolls differ, the next order phase gets the same teams, by strictly
    increasing roll, or strictly decreasing when the phase is `reverse`.
   */
  lemma OrderNextSorts(p: OrderPhase, teams: seq<Team>)
    requires OrderFinished(p, teams) && NoDuplicates(Orders(p, teams))
    ensures var r := OrderNext(p, teams).teams;
      multiset(r) == multiset(teams) &&
      forall i, j :: 0 <= i < j < |r| ==>
        if p.reverse then OrderKey(p)(r[i]) > OrderKey(p)(r[j]) else OrderKey(p)(r[i]) < OrderKey(p)(r[j])
  {
    DistinctRollsDistinctKeys(p, teams);
    if p.reverse {
      SortDescendingStrict(teams, OrderKey(p));
    } else {
      SortByStrict(teams, OrderKey(p));
    }
  }

  /**
    When some rolls repeat, a team loses its roll exactly when another team
    rolled the same value; the others keep theirs, nothing else changes, and
    the phase is no longer finished.
   */
  lemma OrderNextResetsTies(p: OrderPhase, teams: seq<Team>)
    requires OrderFinished(p, teams) && !NoDuplicates(Orders(p, teams))
    ensures var o := Orders(p, teams);
      var r := OrderNext(p, teams).teams;
      (forall i :: 0 <= i < |teams| ==>
        (OrderFor(r[i], p.which, p.rnd).None? <==> SharesRoll(o, i)) &&
        (!SharesRoll(o, i) ==> r[i] == teams[i]) &&
        r[i].accepted == teams[i].accepted && r[i].rejected == teams[i].rejected) &&
      !OrderFinished(p, r)
  {
    var o := Orders(p, teams);
    var r := OrderNext(p, teams).teams;
    var i, j :| 0 <= i < j < |o| && o[i] == o[j];
    assert SharesRoll(o, i);
    assert OrderFor(r[i], p.which, p.rnd).None?;
  }

  // ---------------------------------------------------------------- TiragePhase

  /** `TiragePhase(tirage, round)`: the round and whose turn it is (`None` once every team has accepted). */
  datatype TiragePhase = TiragePhase(rnd: Round, turn: Option<nat>)

  /** `available(problem)`: no team accepted it in this round. */
  predicate Available(teams: seq<Team>, rnd: Round, pb: Problem) {
    forall i :: 0 <= i < |teams| ==> teams[i].accepted.Get(rnd) != Some(pb)
  }

  /** `pb not in team.accepted_problems`. */
  predicate NotPresented(team: Team, pb: Problem) {
    team.accepted.Get(0) != Some(pb) && team.accepted.Get(1) != Some(pb)
  }

  /** `TiragePhase.finished`: every team holds an accepted problem for the round. */
  predicate DrawFinished(teams: seq<Team>, rnd: Round) {
    forall i :: 0 <= i < |teams| ==> teams[i].accepted.Get(rnd).Some?
  }

  /** Which teams hold an accepted problem for the round. */
  function AcceptedFlags(teams: seq<Team>, rnd: Round): (d: seq<bool>)
    ensures |d| == |teams| && forall i :: 0 <= i < |teams| ==> d[i] == teams[i].accepted.Get(rnd).Some?
  {
    seq(|teams|, i requires 0 <= i < |teams| => teams[i].accepted.Get(rnd).Some?)
  }

  /**
    The turn invariant the phase keeps: the turn is a team without an accepted
    problem, and there is no turn exactly when every team has accepted.
   */
  predicate TurnValid(p: TiragePhase, teams: seq<Team>) {
    match p.turn
    case Some(i) => i < |teams| && teams[i].accepted.Get(p.rnd).None?
    case None => DrawFinished(teams, p.rnd)
  }

  /** The problems `choose_problem` picks from: available this round and not presented by the team. */
  function Candidates(problems: seq<Problem>, teams: seq<Team>, rnd: Round, team: Team): (c: seq<Problem>)
    ensures forall i :: 0 <= i < |c| ==> c[i] in problems && Available(teams, rnd, c[i]) && NotPresented(team, c[i])
    ensures forall pb :: pb in problems && Available(teams, rnd, pb) && NotPresented(team, pb) ==> pb in c
  {
    Filter(problems, pb => Available(teams, rnd, pb) && NotPresented(team, pb))
  }

  /** The message `choose_problem` sends with the problem. */
  datatype Note =
    | AlreadyTaken
    | AlreadyPresented
    | RefusedBefore
    | PenaltyIfRefused
    | FreeRefusalsLeft(left: int)

  /**
    What `choose_problem` did: `UnwantedCommand` for the wrong team or a pending
    problem, the `IndexError` of `random.choice` when no problem is left, or a draw.
   */
  datatype Choice = NotYourTurn | AlreadyDrawn | NoProblemLeft | Drew(teams: seq<Team>, pb: Problem, note: Note)

  /**
    `TiragePhase.choose_problem`: team `author` asks for a problem;
    `choice` is the index `random.choice` picks among the candidates.
   */
  function ChooseProblem(p: TiragePhase, teams: seq<Team>, author: nat, problems: seq<Problem>, choice: nat, maxRefuse: int): (r: Choice)
    requires TurnValid(p, teams) && p.turn.Some?
    requires author == p.turn.value && teams[author].drawn.None? && |Candidates(problems, teams, p.rnd, teams[author])| > 0 ==>
      choice < |Candidates(problems, teams, p.rnd, teams[author])|
    ensures r.NotYourTurn? <==> author != p.turn.value
    ensures r.AlreadyDrawn? <==> author == p.turn.value && teams[author].drawn.Some?
    ensures r.NoProblemLeft? <==>
      (author == p.turn.value && teams[author].drawn.None? &&
       forall pb :: pb in problems ==> !(Available(teams, p.rnd, pb) && NotPresented(teams[author], pb)))
    ensures r.Drew? ==> r.pb in problems && Available(teams, p.rnd, r.pb) && NotPresented(teams[author], r.pb)
    ensures r.Drew? ==> r.note != AlreadyTaken && r.note != AlreadyPresented
    ensures r.Drew? ==> (r.note == RefusedBefore <==> r.pb in teams[author].rejected.Get(p.rnd))
    ensures r.Drew? ==> (r.note == PenaltyIfRefused <==> r.pb !in teams[author].rejected.Get(p.rnd) && |teams[author].rejected.Get(p.rnd)| >= maxRefuse)
    ensures r.Drew? ==> |r.teams| == |teams| && r.teams[author] == teams[author].(drawn := Some(r.pb))
    ensures r.Drew? ==> forall j :: 0 <= j < |teams| && j != author ==> r.teams[j] == teams[j]
  {
    var i := p.turn.value;
    var team := teams[i];
    if author != i then NotYourTurn
    else if team.drawn.Some? then AlreadyDrawn
    else if |Candidates(problems, teams, p.rnd, team)| == 0 then NoProblemLeft
    else
      var pb := Candidates(problems, teams, p.rnd, team)[choice];
      var refused := team.rejected.Get(p.rnd);
      if !Available(teams, p.rnd, pb) then Drew(teams, pb, AlreadyTaken)
      else if !NotPresented(team, pb) then Drew(teams, pb, AlreadyPresented)
      else
        var teams' := teams[i := team.(drawn := Some(pb))];
        if pb in refused then Drew(teams', pb, RefusedBefore)
        else if |refused| >= maxRefuse then Drew(teams', pb, PenaltyIfRefused)
        else Drew(teams', pb, FreeRefusalsLeft(maxRefuse - |refused|))
  }

  /** What `accept` did: `UnwantedCommand` for the wrong team, nothing without a drawn problem, or a decision. */
  datatype Answer = NotYourTurnToAnswer | NothingDrawn | Decided(teams: seq<Team>, phase: TiragePhase)

  /** The team after answering `yes` or no to its drawn problem `pb`. */
  function Decide(team: Team, rnd: Round, pb: Problem, yes: bool): (t: Team)
    ensures t.drawn.None? && t.name == team.name
    ensures t.tirageOrder == team.tirageOrder && t.passageOrder == team.passageOrder
    ensures yes ==> t.accepted.Get(rnd) == Some(pb) && t.rejected == team.rejected
    ensures !yes ==> t.rejected.Get(rnd) == team.rejected.Get(rnd) + {pb} && t.accepted == team.accepted
    ensures t.accepted.Get(1 - rnd) == team.accepted.Get(1 - rnd) && t.rejected.Get(1 - rnd) == team.rejected.Get(1 - rnd)
  {
    if yes then team.(accepted := team.accepted.Set(rnd, Some(pb)), drawn := None)
    else team.(rejected := team.rejected.Set(rnd, team.rejected.Get(rnd) + {pb}), drawn := None)
  }

  /**
    `TiragePhase.accept`: team `author` answers `yes` or no. The drawn problem
    is accepted or added to the refused ones, and the turn passes on, going
    round, to the next team without an accepted problem.
   */
  function AcceptCommand(p: TiragePhase, teams: seq<Team>, author: nat, yes: bool): (r: Answer)
    requires TurnValid(p, teams) && p.turn.Some?
    ensures r.NotYourTurnToAnswer? <==> author != p.turn.value
    ensures r.NothingDrawn? <==> author == p.turn.value && teams[author].drawn.None?
    ensures r.Decided? ==> TurnValid(r.phase, r.teams) && r.phase.rnd == p.rnd && |r.teams| == |teams|
    ensures r.Decided? ==> r.teams[author] == Decide(teams[author], p.rnd, teams[author].drawn.value, yes)
    ensures r.Decided? ==> forall j :: 0 <= j < |teams| && j != author ==> r.teams[j] == teams[j]
    ensures r.Decided? ==> (r.phase.turn.None? <==> DrawFinished(r.teams, p.rnd))
  {
    var i := p.turn.value;
    var team := teams[i];
    if author != i then NotYourTurnToAnswer
    else if team.drawn.None? then NothingDrawn
    else
      var teams' := teams[i := Decide(team, p.rnd, team.drawn.value, yes)];
      if DrawFinished(teams', p.rnd) then Decided(teams', p.(turn := None))
      else
        var flags := AcceptedFlags(teams', p.rnd);
        assert Cyclic.SomeUndecided(flags) by {
          var j :| 0 <= j < |teams'| && teams'[j].accepted.Get(p.rnd).None?;
          assert !flags[j];
        }
        Decided(teams', p.(turn := Some(Cyclic.FirstUndecided(flags, Cyclic.Succ(i, |teams|)))))
  }

  /**
    The turn goes to the nearest team without an accepted problem, going round
    from the team that answered: every team fewer steps away has accepted.
   */
  lemma AcceptPassesTurnInOrder(p: TiragePhase, teams: seq<Team>, author: nat, yes: bool)
    requires TurnValid(p, teams) && p.turn.Some?
    ensures var r := AcceptCommand(p, teams, author, yes);
      r.Decided? && r.phase.turn.Some? ==>
        forall j :: 0 <= j < |teams| && Cyclic.Steps(author, j, |teams|) < Cyclic.Steps(author, r.phase.turn.value, |teams|) ==>
          r.teams[j].accepted.Get(p.rnd).Some?
  {
    var r := AcceptCommand(p, teams, author, yes);
    if r.Decided? && r.phase.turn.Some? {
      Cyclic.NextTurnSkipsOnlyDecided(AcceptedFlags(r.teams, p.rnd), author);
    }
  }

  /** A team that refused is served again only when every other team has accepted. */
  lemma RefuserServedAgainOnlyWhenAlone(p: TiragePhase, teams: seq<Team>, author: nat, yes: bool)
    requires TurnValid(p, teams) && p.turn.Some?
    ensures var r := AcceptCommand(p, teams, author, yes);
      r.Decided? && r.phase.turn == Some(author) ==>
        forall j :: 0 <= j < |teams| && j != author ==> r.teams[j].accepted.Get(p.rnd).Some?
  {
    var r := AcceptCommand(p, teams, author, yes);
    if r.Decided? && r.phase.turn == Some(author) {
      Cyclic.ServedAgainOnlyWhenAlone(AcceptedFlags(r.teams, p.rnd), author);
    }
  }

  /**
    Every team has its drawing-order roll for `rnd`. `TiragePhase.start` sorts
    by that roll, and a missing roll is `None`, which Python cannot compare with
    a number (TypeError).
   */
  predicate ReadyToDraw(teams: seq<Team>, rnd: Round) {
    forall i :: 0 <= i < |teams| ==> teams[i].tirageOrder.Get(rnd).Some?
  }

  /** `TiragePhase.start` (the order part): the teams sorted by increasing drawing-order roll, turn at the first. */
  function StartDraw(teams: seq<Team>, rnd: Round): (r: (seq<Team>, TiragePhase))
    requires ReadyToDraw(teams, rnd)
    ensures multiset(r.0) == multiset(teams) && r.1 == TiragePhase(rnd, Some(0))
  {
    (SortBy(teams, (t: Team) => t.tirageOrder.Get(rnd).GetOr(0)), TiragePhase(rnd, Some(0)))
  }

  /** The problem phase starts with the team of smallest drawing-order roll. */
  lemma StartDrawSorted(teams: seq<Team>, rnd: Round)
    requires ReadyToDraw(teams, rnd)
    ensures var r := StartDraw(teams, rnd).0;
      ReadyToDraw(r, rnd) &&
      forall i, j :: 0 <= i < j < |r| ==> r[i].tirageOrder.Get(rnd).GetOr(0) <= r[j].tirageOrder.Get(rnd).GetOr(0)
  {
    var key := (t: Team) => t.tirageOrder.Get(rnd).GetOr(0);
    SortBySorted(teams, key);
    var r := StartDraw(teams, rnd).0;
    forall i | 0 <= i < |r|
      ensures r[i].tirageOrder.Get(rnd).Some?
    {
      assert r[i] in multiset(teams);
    }
  }

  // ---------------------------------------------------------------- phases

  /** A phase class, by name; `TirageOrderPhase` is the one `TiragePhase.next` names. */
  type PhaseClass = string

  const TirageOrderPhase: PhaseClass := "TirageOrderPhase"

  /** The current phase: an order phase with its own class and its `NEXT`, or the problem phase. */
  datatype Phase =
    | Ordering(order: OrderPhase, cls: PhaseClass, next: PhaseClass)
    | Drawing(draw: TiragePhase)

  /** `phase.finished()`. */
  predicate PhaseFinished(ph: Phase, teams: seq<Team>) {
    match ph
    case Ordering(o, _, _) => OrderFinished(o, teams)
    case Drawing(d) => DrawFinished(teams, d.rnd)
  }

  /** The round a phase works on. */
  function PhaseRound(ph: Phase): Round {
    match ph
    case Ordering(o, _, _) => o.rnd
    case Drawing(d) => d.rnd
  }

  /** A draw in progress (`phase`), or ended (`None`). */
  datatype Tirage = Tirage(teams: seq<Team>, phase: Option<Phase>)

  /**
    The first half of `Tirage.update_phase`, for a finished phase: its `next`
    says which phase class follows, and the new phase is built by
    `build(class, round)`. The problem phase of round 0 moves on to round 1 and
    to `TirageOrderPhase`; the problem phase of round 1 ends the draw.
   */
  function NextPhase(t: Tirage, build: (PhaseClass, Round) -> Phase): (r: Tirage)
    requires t.phase.Some?
    ensures t.phase.value.Drawing? ==>
      r.teams == t.teams &&
      r.phase == (if t.phase.value.draw.rnd == 0 then Some(build(TirageOrderPhase, 1)) else None)
    ensures t.phase.value.Ordering? && OrderFinished(t.phase.value.order, t.teams) ==>
      var ph := t.phase.value;
      r.teams == OrderNext(ph.order, t.teams).teams &&
      r.phase == Some(build(if NoDuplicates(Orders(ph.order, t.teams)) then ph.next else ph.cls, ph.order.rnd))
  {
    match t.phase.value
    case Drawing(d) =>
      if d.rnd == 0 then Tirage(t.teams, Some(build(TirageOrderPhase, 1))) else Tirage(t.teams, None)
    case Ordering(o, cls, next) =>
      if !OrderFinished(o, t.teams) then t
      else
        match OrderNext(o, t.teams)
        case Ordered(ts) => Tirage(ts, Some(build(next, o.rnd)))
        case RollAgain(ts) => Tirage(ts, Some(build(cls, o.rnd)))
  }

  /** A phase can be started: a problem phase needs every team's drawing-order roll for its round. */
  predicate CanStart(t: Tirage) {
    t.phase.Some? && t.phase.value.Drawing? ==> ReadyToDraw(t.teams, t.phase.value.draw.rnd)
  }

  /**
    `Tirage.update_phase`: an unfinished phase stays; a finished one is
    replaced by its successor (`NextPhase`), which is then started. Starting a
    problem phase sorts the teams by drawing-order roll (`TiragePhase.start`);
    starting an order phase leaves them as they are.
   */
  function UpdatePhase(t: Tirage, build: (PhaseClass, Round) -> Phase): (r: Tirage)
    requires t.phase.Some?
    requires PhaseFinished(t.phase.value, t.teams) ==> CanStart(NextPhase(t, build))
    ensures !PhaseFinished(t.phase.value, t.teams) ==> r == t
    ensures PhaseFinished(t.phase.value, t.teams) ==> r.phase == NextPhase(t, build).phase
    ensures PhaseFinished(t.phase.value, t.teams) && (r.phase.None? || r.phase.value.Ordering?) ==>
      r.teams == NextPhase(t, build).teams
    ensures PhaseFinished(t.phase.value, t.teams) && r.phase.Some? && r.phase.value.Drawing? ==>
      r.teams == StartDraw(NextPhase(t, build).teams, r.phase.value.draw.rnd).0
  {
    if !PhaseFinished(t.phase.value, t.teams) then t
    else
      var n := NextPhase(t, build);
      match n.phase
      case Some(Drawing(d)) => Tirage(StartDraw(n.teams, d.rnd).0, n.phase)
      case _ => n
  }

  /**
    Entering a problem phase leaves the teams ordered by increasing drawing-order
    roll for its round, whatever order the previous phase left them in. They are
    the teams the previous phase handed on, which are the teams of the draw when
    that phase was a problem phase or an order phase whose rolls all differed.
   */
  lemma UpdatePhaseStartsDrawSorted(t: Tirage, build: (PhaseClass, Round) -> Phase)
    requires t.phase.Some? && PhaseFinished(t.phase.value, t.teams)
    requires CanStart(NextPhase(t, build))
    ensures var r := UpdatePhase(t, build);
      r.phase.Some? && r.phase.value.Drawing? ==>
        multiset(r.teams) == multiset(NextPhase(t, build).teams) &&
        forall i, j :: 0 <= i < j < |r.teams| ==>
          r.teams[i].tirageOrder.Get(r.phase.value.draw.rnd).GetOr(0) <= r.teams[j].tirageOrder.Get(r.phase.value.draw.rnd).GetOr(0)
    ensures var r := UpdatePhase(t, build);
      r.phase.Some? && r.phase.value.Drawing? &&
      (t.phase.value.Drawing? || NoDuplicates(Orders(t.phase.value.order, t.teams))) ==>
        multiset(r.teams) == multiset(t.teams)
  {
    var n := NextPhase(t, build);
    var r := UpdatePhase(t, build);
    if r.phase.Some? && r.phase.value.Drawing? {
      StartDrawSorted(n.teams, r.phase.value.draw.rnd);
      if t.phase.value.Ordering? && NoDuplicates(Orders(t.phase.value.order, t.teams)) {
        OrderNextSorts(t.phase.value.order, t.teams);
      }
    }
  }

  /** The draw ends exactly when the problem phase of the second round is finished. */
  lemma UpdatePhaseEndsAfterSecondRound(t: Tirage, build: (PhaseClass, Round) -> Phase)
    requires t.phase.Some?
    requires PhaseFinished(t.phase.value, t.teams) ==> CanStart(NextPhase(t, build))
    ensures UpdatePhase(t, build).phase.None? <==>
      (t.phase.value.Drawing? && t.phase.value.draw.rnd == 1 && DrawFinished(t.teams, 1))
  {
  }

  /** When every phase is built for the round it is given, the draw never returns to an earlier round. */
  lemma UpdatePhaseNeverGoesBack(t: Tirage, build: (PhaseClass, Round) -> Phase)
    requires t.phase.Some?
    requires PhaseFinished(t.phase.value, t.teams) ==> CanStart(NextPhase(t, build))
    requires forall c, rnd :: PhaseRound(build(c, rnd)) == rnd
    ensures UpdatePhase(t, build).phase.Some? ==> PhaseRound(t.phase.value) <= PhaseRound(UpdatePhase(t, build).phase.value)
  {
  }
}

=== FILE: utils.dfy ===
/** `has_role` of `src/utils.py`. */
module Utils {

  /** A server role; only its name matters here. */
  datatype Role = Role(name: string, id: int)

  /** `any(r.name == role for r in roles)`. */
  function HasRole(roles: seq<Role>, name: string): (r: bool)
    ensures r <==> exists k :: 0 <= k < |roles| && roles[k].name == name
    decreases |roles|
  {
    if |roles| == 0 then false
    else
      assert forall k :: 1 <= k < |roles| ==> roles[k] == roles[1..][k - 1];
      roles[0].name == name || HasRole(roles[1..], name)
  }

  /** The answer depends only on which roles the member has, not on their order or repetitions. */
  lemma HasRoleOnlySet(a: seq<Role>, b: seq<Role>, name: string)
    requires forall r :: r in a <==> r in b
    ensures HasRole(a, name) == HasRole(b, name)
  {
    if HasRole(a, name) {
      var k :| 0 <= k < |a| && a[k].name == name;
      assert a[k] in a;
      var j :| 0 <= j < |b| && b[j] == a[k];
    }
    if HasRole(b, name) {
      var k :| 0 <= k < |b| && b[k].name == name;
      assert b[k] in b;
      var j :| 0 <= j < |a| && a[j] == b[k];
    }
  }

  /** Gaining roles never takes one away. */
  lemma HasRoleMonotone(a: seq<Role>, b: seq<Role>, name: string)
    requires HasRole(a, name)
    ensures HasRole(a + b, name) && HasRole(b + a, name)
  {
    var k :| 0 <= k < |a| && a[k].name == name;
    assert (a + b)[k] == a[k];
    assert (b + a)[|b| + k] == a[k];
  }
}

=== FILE: wrappers.dfy ===
/** The optional value used across the model for Python's `None`. */
module Wrappers {

  datatype Option<+T> = None | Some(value: T) {

    /** Python's `x if x is not None else default`: the held value, or `default` for `None`. */
    function GetOr(default: T): T {
      match this
      case Some(v) => v
      case None => default
    }
  }

  /**
    `[f(x) for x in xs]` where `f` may raise: every result, or `None` as soon
    as one call fails.
   */
  function MapAll<A, B>(xs: seq<A>, f: A -> Option<B>): (r: Option<seq<B>>)
    ensures r.Some? <==> forall i :: 0 <= i < |xs| ==> f(xs[i]).Some?
    ensures r.Some? ==> |r.value| == |xs| && forall i :: 0 <= i < |xs| ==> f(xs[i]) == Some(r.value[i])
    decreases |xs|
  {
    if |xs| == 0 then Some([])
    else match f(xs[0])
      case None => None
      case Some(y) =>
        match MapAll(xs[1..], f)
        case None => None
        case Some(ys) => Some([y] + ys)
  }

  /** When every call succeeds, the results are the values the calls gave. */
  lemma MapAllValues<A, B>(xs: seq<A>, f: A -> Option<B>, ys: seq<B>)
    requires |ys| == |xs| && forall i :: 0 <= i < |xs| ==> f(xs[i]) == Some(ys[i])
    ensures MapAll(xs, f) == Some(ys)
  {
    var r := MapAll(xs, f);
    assert r.Some?;
    assert forall i :: 0 <= i < |xs| ==> Some(r.value[i]) == Some(ys[i]);
    assert r.value == ys;
  }
}
